=== FILE: README.md ===
# Block decomposition, dependency descriptions and declaration matching, in Dafny

This project models three pieces of the Kotlin repository and proves
properties of the models.

**The JS IR block decomposer** (`BlockDecomposerLowering`). This pass of the
Kotlin/JS IR backend rewrites one function body so that no block, `when`,
`return`, `throw`, `break` or `continue` is left where a value is expected.
- The IR is a closed datatype `Ir.Node`. Statements and expressions share it,
  as they share `IrStatement` in the compiler.
- Loops carry an identity `LoopId`, and `break`/`continue` name that identity,
  so redirecting a jump is a substitution.
- Every visit answers `Kept`, `Decomposed(stmts, resultVar)` or
  `Terminated(stmts, resultVar)` (module `VisitResults`). The three combinators
  `process`, `evaluate` and `execute` are defined on that answer.
- The per-function counter is explicit state. It is threaded through every
  visit as `c`, and a visit returns the next value. Temporaries `tmp$dcms$N`
  and generated labels `$l$N` are `Temp(N)` and `GeneratedLabel(N)`, and
  module `Names` renders them.
- Module `BlockDecomposer` holds the pass:
  - the expression visitor (`ExprVisit` and its helpers);
  - the statement visitor (`StmtVisit`, `LowerRange` for `transformFlat`);
  - operand capture (`MapArguments`, `PrepareArgument`);
  - `processWhen` (`AssembleWhen`, `Chain`);
  - the loop rewrites (`RewriteWhile`, `RewriteDoWhile`);
  - `lower` (`Lower`).
- `ConditionSplitter` and `BreakContinueUpdater` are modules of their own.
- The modules `OperandCapture`, `ExpressionShapes`, `WhenChain`,
  `LoopRewrites` and `SimpleTrees` state and prove what the pass produces.
- The modules `AssemblyNames` and `NameAccounting` account for the generated
  names. `Ir.GenNames` is the multiset of counter values at which a tree's
  temporaries are declared and its generated labels made. Every visit
  declares, where the visited node ends up, at most the names the node
  declared plus each counter value the visit consumed, once. So a function
  body that declares no generated name to begin with is lowered into one
  that declares each of them exactly once.
- The source's `TODO()` and `error(...)` calls, and its failing `assert`
  (taken to run with JVM assertions enabled), are `Err` outcomes of type
  `BlockDecomposer.Failure`.

**The dependency-description builder** (`DependenciesTxtBuilder`, module
`DependenciesTxt`). It reads a list of module and dependency definitions.
- Modules may be referenced before they are defined.
- A module is defined at most once.
- Attribute flags choose a module's compiler arguments, and a dependency's
  scope and flags.
- Every built dependency is linked into its two modules.

**The greedy matcher** of the JVM declaration searcher test
(`matchElementsToConditions`, `MatchResult`, `assertMatches`, module
`DeclarationMatcher`).
- Each condition, in order, consumes the first remaining element it accepts.
- The outcome is `Matched`, the first condition that found nothing, or the
  leftover elements.

## Model

| member | source | states |
|---|---|---|
| VisitResults.Visit.Process | compiler/ir/backend.js/src/org/jetbrains/kotlin/ir/backend/js/lower/BlockDecomposerLowering.kt:59-76 | `process` on a kept result returns it without running the action; on a changed result it returns what the action makes of it |
| VisitResults.Visit.Evaluate | compiler/ir/backend.js/src/org/jetbrains/kotlin/ir/backend/js/lower/BlockDecomposerLowering.kt:59-76 | `evaluate` yields the default untouched on a kept result, and the action's answer otherwise |
| VisitResults.Visit.Execute | compiler/ir/backend.js/src/org/jetbrains/kotlin/ir/backend/js/lower/BlockDecomposerLowering.kt:59-76 | `execute` returns the result itself; its effect on the state happens exactly when the result changed |
| VisitResults.CountByExecuteCountsChanges | compiler/ir/backend.js/src/org/jetbrains/kotlin/ir/backend/js/lower/BlockDecomposerLowering.kt:493-503 | counting with `execute { argsCounter++ }` over the operands' results adds exactly the number of changed results |
| VisitResults.ChangedCountZero | compiler/ir/backend.js/src/org/jetbrains/kotlin/ir/backend/js/lower/BlockDecomposerLowering.kt:553-559 | the count is zero exactly when every result was kept, which is when a call or concatenation is kept |
| Names.TempNameInjective | compiler/ir/backend.js/src/org/jetbrains/kotlin/ir/backend/js/lower/BlockDecomposerLowering.kt:620-621 | `tmp$dcms$N` names made at different counter values differ, and equal ones come from the same value |
| Names.LabelNameInjective | compiler/ir/backend.js/src/org/jetbrains/kotlin/ir/backend/js/lower/BlockDecomposerLowering.kt:623 | `$l$N` labels made at different counter values differ |
| Names.TempNameIsNotLabel | compiler/ir/backend.js/src/org/jetbrains/kotlin/ir/backend/js/lower/BlockDecomposerLowering.kt:620-623 | a temporary's name is never a generated label |
| BlockDecomposer.ExprVisit | compiler/ir/backend.js/src/org/jetbrains/kotlin/ir/backend/js/lower/BlockDecomposerLowering.kt:374-376 | an expression visit never lowers the counter; a kept one consumes no value; a changed one names a temporary made during the visit; a block, `when`, exit or jump is never kept |
| BlockDecomposer.ExprContainer | compiler/ir/backend.js/src/org/jetbrains/kotlin/ir/backend/js/lower/BlockDecomposerLowering.kt:393-441 | a block where a value is expected always decomposes, into a temporary made during the visit |
| BlockDecomposer.StmtSetField | compiler/ir/backend.js/src/org/jetbrains/kotlin/ir/backend/js/lower/BlockDecomposerLowering.kt:336-362 | a field store is kept exactly when its receiver and its value were both kept; otherwise it becomes the receiver's statements, then the value's, then the store of the value's result into the field of the receiver's result, with no result variable |
| BlockDecomposer.StmtTypeOp | compiler/ir/backend.js/src/org/jetbrains/kotlin/ir/backend/js/lower/BlockDecomposerLowering.kt:304-324 | a type operator is kept when its argument is; otherwise it becomes the argument's statements followed by the operator applied to the argument's result, as a plain statement when its type is Unit and otherwise as the initializer of a new temporary, made after the argument, that is the result |
| BlockDecomposer.StmtWhen | compiler/ir/backend.js/src/org/jetbrains/kotlin/ir/backend/js/lower/BlockDecomposerLowering.kt:158-167 | a `when` statement is kept exactly when no condition and no body changed |
| ConditionSplitter.SplitList | compiler/ir/backend.js/src/org/jetbrains/kotlin/ir/backend/js/lower/BlockDecomposerLowering.kt:169-195 | every hoisted statement is a declaration without initializer, and no declaration is left at the top level of the list |
| ConditionSplitter.SplitListAtDeclaration | compiler/ir/backend.js/src/org/jetbrains/kotlin/ir/backend/js/lower/BlockDecomposerLowering.kt:182-190 | at a declaration's site the split list holds `x = init` when it had an initializer and nothing when it had none, the initializer moved as it is, the bare declaration hoisted between those hoisted before and after it |
| ConditionSplitter.SplitListIdentity | compiler/ir/backend.js/src/org/jetbrains/kotlin/ir/backend/js/lower/BlockDecomposerLowering.kt:169-195 | a statement list with no declaration anywhere in it is left unchanged and hoists nothing |
| ConditionSplitter.SplitListHoistsSites | compiler/ir/backend.js/src/org/jetbrains/kotlin/ir/backend/js/lower/BlockDecomposerLowering.kt:169-195 | the hoisted declarations are exactly the declarations of the list, nested ones included, in the order they occur |
| ConditionSplitter.SplitListKeepsNames | compiler/ir/backend.js/src/org/jetbrains/kotlin/ir/backend/js/lower/BlockDecomposerLowering.kt:183-194 | splitting only moves declarations: the generated names of the hoisted and remaining statements together are those of the input |
| BreakContinueUpdater.Retarget | compiler/ir/backend.js/src/org/jetbrains/kotlin/ir/backend/js/lower/BlockDecomposerLowering.kt:197-205 | the jumps of the result are those of the input, in order, with a `break` of the old loop sent to the break loop, a `continue` of it to the continue loop, and every other jump untouched |
| BreakContinueUpdater.RetargetOnlyJumps | compiler/ir/backend.js/src/org/jetbrains/kotlin/ir/backend/js/lower/BlockDecomposerLowering.kt:197-205 | the updater changes nothing but the loops that jumps name: with every jump target erased, the result equals the input |
| BreakContinueUpdater.RetargetLeavesNoJumpToOld | compiler/ir/backend.js/src/org/jetbrains/kotlin/ir/backend/js/lower/BlockDecomposerLowering.kt:197-205 | after redirection no jump names the old loop, when the new loops differ from it |
| BreakContinueUpdater.RetargetIdentity | compiler/ir/backend.js/src/org/jetbrains/kotlin/ir/backend/js/lower/BlockDecomposerLowering.kt:198-204 | a tree with no jump to the old loop comes back unchanged |
| BreakContinueUpdater.RetargetKeepsNames | compiler/ir/backend.js/src/org/jetbrains/kotlin/ir/backend/js/lower/BlockDecomposerLowering.kt:197-205 | redirection keeps the generated names a tree holds |
| OperandCapture.CaptureRule | compiler/ir/backend.js/src/org/jetbrains/kotlin/ir/backend/js/lower/BlockDecomposerLowering.kt:460-478 | `mapArguments` stores in a new temporary exactly the present operands at or before the last changed one; later operands and empty slots stay as they were |
| OperandCapture.MapArgumentsReference | compiler/ir/backend.js/src/org/jetbrains/kotlin/ir/backend/js/lower/BlockDecomposerLowering.kt:452-478 | the `decomposed`/`toDecompose` countdown emits exactly what the positional reference emits: each operand's own statements in operand order, each captured operand's declaration right after them, temporaries numbered upwards from the counter in operand order |
| OperandCapture.CaptureOrder | compiler/ir/backend.js/src/org/jetbrains/kotlin/ir/backend/js/lower/BlockDecomposerLowering.kt:452-478 | captured operands read temporaries numbered in operand order, so no two share one |
| OperandCapture.LastChangedTail | compiler/ir/backend.js/src/org/jetbrains/kotlin/ir/backend/js/lower/BlockDecomposerLowering.kt:465-473 | seen from the front, the last changed operand is the tail's shifted by one, or the head when the tail kept everything |
| ExpressionShapes.LowerRangeSplit | compiler/ir/backend.js/src/org/jetbrains/kotlin/ir/backend/js/lower/BlockDecomposerLowering.kt:94-115 | lowering a statement list is lowering its two halves one after the other, and the results are concatenated in order |
| ExpressionShapes.LowerOne | compiler/ir/backend.js/src/org/jetbrains/kotlin/ir/backend/js/lower/BlockDecomposerLowering.kt:110-115 | in a statement list, a kept statement stays in its place and a changed one is replaced there by its statements |
| ExpressionShapes.BlockErrors | compiler/ir/backend.js/src/org/jetbrains/kotlin/ir/backend/js/lower/BlockDecomposerLowering.kt:417-429 | a returnable block or an unknown container where a value is expected fails, and so does a block ending in a declaration |
| ExpressionShapes.BlockInExpression | compiler/ir/backend.js/src/org/jetbrains/kotlin/ir/backend/js/lower/BlockDecomposerLowering.kt:393-441 | a block where a value is expected becomes `[var t, block]` with `t` the result; an empty block initialises `t` to null; otherwise the block holds the lowered prefix and ends by assigning `t` |
| ExpressionShapes.ExitInExpression | compiler/ir/backend.js/src/org/jetbrains/kotlin/ir/backend/js/lower/BlockDecomposerLowering.kt:572-607 | `return`/`throw` where a value is expected terminate with the value's statements, the rebuilt exit and a null aggregate temporary made last |
| ExpressionShapes.JumpInExpression | compiler/ir/backend.js/src/org/jetbrains/kotlin/ir/backend/js/lower/BlockDecomposerLowering.kt:609-613 | `break`/`continue` where a value is expected decompose (they do not terminate) into the jump and a null temporary |
| ExpressionShapes.ExitInStatement | compiler/ir/backend.js/src/org/jetbrains/kotlin/ir/backend/js/lower/BlockDecomposerLowering.kt:119-144 | `return`/`throw` statements are kept exactly when their value is; otherwise they decompose into the value's statements and the exit on its temporary |
| ExpressionShapes.StoreInStatement | compiler/ir/backend.js/src/org/jetbrains/kotlin/ir/backend/js/lower/BlockDecomposerLowering.kt:146-156 | a variable declaration with an initializer (`visitVariable`), or an assignment (`visitSetVariable`, lines 364-371), is kept exactly when its value is; otherwise it becomes the value's statements followed by the same declaration or assignment reading the value's temporary |
| ExpressionShapes.RebuildRoundTrip | compiler/ir/backend.js/src/org/jetbrains/kotlin/ir/backend/js/lower/BlockDecomposerLowering.kt:526-529 | putting operands into a call or concatenation and reading them back are inverse |
| ExpressionShapes.OperandsInExpression | compiler/ir/backend.js/src/org/jetbrains/kotlin/ir/backend/js/lower/BlockDecomposerLowering.kt:480-570 | a call or concatenation is kept exactly when every operand was kept; otherwise the operands up to the last changed one read new temporaries, later ones are untouched, and the statements are the reference capture list (every operand's statements in operand order, each capture right after its operand's) followed by `var r = <call>`, `r` the result and made last |
| WhenChain.ChainRoundTrip | compiler/ir/backend.js/src/org/jetbrains/kotlin/ir/backend/js/lower/BlockDecomposerLowering.kt:672-705 | reading the if/else chain back gives, for each branch up to the first `else`, its condition's statements, its value and its body, in order; later branches are dropped |
| WhenChain.WhenStatement | compiler/ir/backend.js/src/org/jetbrains/kotlin/ir/backend/js/lower/BlockDecomposerLowering.kt:625-745 | a `when` statement is kept exactly when nothing changed; a changed condition gives the if/else chain; changed bodies alone give a `when` with the same conditions and block bodies |
| WhenChain.WhenExpression | compiler/ir/backend.js/src/org/jetbrains/kotlin/ir/backend/js/lower/BlockDecomposerLowering.kt:538-550 | a `when` value is always `[var collective, <chain or when>]` with the collective temporary as result; without a chain each body is a block of the body's statements followed by the assignment of its value to the collective temporary |
| LoopRewrites.WhileRewriteShape | compiler/ir/backend.js/src/org/jetbrains/kotlin/ir/backend/js/lower/BlockDecomposerLowering.kt:220-256 | the hoisted declarations, then one loop with condition `true` whose body is the condition's statements, `if (!c) break` and the old body, every jump to the old loop sent to the new one |
| LoopRewrites.DoWhileRewriteShape | compiler/ir/backend.js/src/org/jetbrains/kotlin/ir/backend/js/lower/BlockDecomposerLowering.kt:272-302 | the hoisted declarations, then `outer: do { inner: do { body } while (false); condStmts } while (c)`; the inner label is made first; the outer loop keeps the label or gets the next one |
| LoopRewrites.DoWhileRedirect | compiler/ir/backend.js/src/org/jetbrains/kotlin/ir/backend/js/lower/BlockDecomposerLowering.kt:298 | in the `do-while` rewrite a `break` of the old loop leaves the outer loop and a `continue` of it leaves the inner loop |
| LoopRewrites.LoopConditionKept | compiler/ir/backend.js/src/org/jetbrains/kotlin/ir/backend/js/lower/BlockDecomposerLowering.kt:220-226 | a loop whose condition is kept is kept, with its body lowered in place |
| LoopRewrites.LoopConditionChanged | compiler/ir/backend.js/src/org/jetbrains/kotlin/ir/backend/js/lower/BlockDecomposerLowering.kt:272-302 | a loop whose condition decomposed is replaced by its rewrite, and its body must have been kept |
| AssemblyNames.MapArgumentsNames | compiler/ir/backend.js/src/org/jetbrains/kotlin/ir/backend/js/lower/BlockDecomposerLowering.kt:452-478 | the captured operands' statements and the rebuilt operands declare the visited operands' names plus exactly one temporary per counter value `mapArguments` consumed |
| AssemblyNames.AssembleWhenNames | compiler/ir/backend.js/src/org/jetbrains/kotlin/ir/backend/js/lower/BlockDecomposerLowering.kt:625-745 | the assembled `when` or if/else chain declares no name its visited branches did not, and exactly theirs when no condition changed |
| AssemblyNames.InPlaceNames | compiler/ir/backend.js/src/org/jetbrains/kotlin/ir/backend/js/lower/BlockDecomposerLowering.kt:158-167 | a `when` whose branches are updated in place declares exactly what its visited branches declare |
| AssemblyNames.RewriteWhileNames | compiler/ir/backend.js/src/org/jetbrains/kotlin/ir/backend/js/lower/BlockDecomposerLowering.kt:220-256 | the `while` rewrite declares exactly the loop's label, the names of the condition's statements and those of the body; hoisting and redirection add none |
| AssemblyNames.RewriteDoWhileNames | compiler/ir/backend.js/src/org/jetbrains/kotlin/ir/backend/js/lower/BlockDecomposerLowering.kt:272-302 | the `do-while` rewrite declares the same, plus one label per counter value it consumed |
| NameAccounting.ExprVisitNames | compiler/ir/backend.js/src/org/jetbrains/kotlin/ir/backend/js/lower/BlockDecomposerLowering.kt:374-618 | what an expression visit leaves in the expression's place declares at most the expression's own generated names plus each counter value the visit consumed, once |
| NameAccounting.StmtVisitNames | compiler/ir/backend.js/src/org/jetbrains/kotlin/ir/backend/js/lower/BlockDecomposerLowering.kt:93-372 | what a statement visit emits declares at most the statement's own generated names plus each counter value the visit consumed, once |
| NameAccounting.LowerRangeNames | compiler/ir/backend.js/src/org/jetbrains/kotlin/ir/backend/js/lower/BlockDecomposerLowering.kt:94-115 | a lowered statement list declares at most the list's generated names plus each counter value consumed, once |
| NameAccounting.LowerNames | compiler/ir/backend.js/src/org/jetbrains/kotlin/ir/backend/js/lower/BlockDecomposerLowering.kt:36-40 | the lowered body declares at most the body's generated names plus one name per counter value consumed from 0 |
| NameAccounting.LowerDeclaresOnce | compiler/ir/backend.js/src/org/jetbrains/kotlin/ir/backend/js/lower/BlockDecomposerLowering.kt:620-623 | for a body that declares no generated name, every temporary and generated label in the lowered body is declared once and numbered below the final counter: no two of them clash |
| SimpleTrees.SimpleExprKept | compiler/ir/backend.js/src/org/jetbrains/kotlin/ir/backend/js/lower/BlockDecomposerLowering.kt:374-375 | an expression with no block, `when`, exit or loop inside is kept and consumes no counter value |
| SimpleTrees.SimpleFunctionUnchanged | compiler/ir/backend.js/src/org/jetbrains/kotlin/ir/backend/js/lower/BlockDecomposerLowering.kt:36-40 | a function body made only of such statements is left exactly as it was |
| DependenciesTxt.ModuleRefOf | jps-plugin/jps-tests/test/org/jetbrains/kotlin/jps/build/dependeciestxt/DependenciesTxt.kt:128-129 | `moduleRef` returns the existing reference for a name, or registers a new undefined one at the end; the registry stays valid |
| DependenciesTxt.ModuleRefIdempotent | jps-plugin/jps-tests/test/org/jetbrains/kotlin/jps/build/dependeciestxt/DependenciesTxt.kt:128-129 | asking for the same reference twice changes nothing the second time |
| DependenciesTxt.ModuleArgumentsLastWins | jps-plugin/jps-tests/test/org/jetbrains/kotlin/jps/build/dependeciestxt/DependenciesTxt.kt:151-160 | module attributes are accepted exactly when each is `common`, `jvm` or `js`; the last one decides; otherwise the first bad attribute is reported |
| DependenciesTxt.DependencyAttributesMeaning | jps-plugin/jps-tests/test/org/jetbrains/kotlin/jps/build/dependeciestxt/DependenciesTxt.kt:179-195 | dependency attributes are accepted exactly when each is a known flag; the last scope flag wins over `COMPILE`; `exported`/`expectedBy` hold exactly when their flag occurs |
| DependenciesTxt.NewModule | jps-plugin/jps-tests/test/org/jetbrains/kotlin/jps/build/dependeciestxt/DependenciesTxt.kt:134-163 | defining a module keeps the registry valid: one reference per name, facet settings exactly on defined modules |
| DependenciesTxt.NewModuleOutcome | jps-plugin/jps-tests/test/org/jetbrains/kotlin/jps/build/dependeciestxt/DependenciesTxt.kt:134-163 | an already defined name fails with "already defined"; otherwise the definition fails exactly when some attribute is not a known module flag, with the first bad attribute's error, and succeeds with a module of that name, no links, fixed facet settings and the compiler arguments of the last flag |
| DependenciesTxt.DefineOnce | jps-plugin/jps-tests/test/org/jetbrains/kotlin/jps/build/dependeciestxt/DependenciesTxt.kt:146-149 | after a definition the reference is defined and holds the new module's facet settings (compiler arguments from the flags, no implemented modules), no other reference moved, and a second definition fails with "already defined" |
| DependenciesTxt.NewDependency | jps-plugin/jps-tests/test/org/jetbrains/kotlin/jps/build/dependeciestxt/DependenciesTxt.kt:165-207 | declaring a dependency keeps the registry valid and yields a builder exactly when a target was given |
| DependenciesTxt.BareDependency | jps-plugin/jps-tests/test/org/jetbrains/kotlin/jps/build/dependeciestxt/DependenciesTxt.kt:169-177 | `x ->` only registers `x`, records no dependency, and is refused when it carries attributes |
| DependenciesTxt.FullDependency | jps-plugin/jps-tests/test/org/jetbrains/kotlin/jps/build/dependeciestxt/DependenciesTxt.kt:178-206 | `x -> y` appends exactly one dependency builder with the scope and flags of its attributes, and registers both ends |
| DependenciesTxt.LinkAllFilters | jps-plugin/jps-tests/test/org/jetbrains/kotlin/jps/build/dependeciestxt/DependenciesTxt.kt:64-67 | building the dependencies gives each module exactly those declared from it and those targeting it, in declaration order |
| DependenciesTxt.BuildModule | jps-plugin/jps-tests/test/org/jetbrains/kotlin/jps/build/dependeciestxt/DependenciesTxt.kt:82-89 | building a module sets a defined module's `implementedModuleNames` to the `expectedBy` targets of its dependencies and keeps everything else: name, dependencies, usages, and the facet's project-settings flag, additional arguments and compiler arguments; a module without facet settings is returned as it is |
| DependenciesTxt.ReadFileResult | jps-plugin/jps-tests/test/org/jetbrains/kotlin/jps/build/dependeciestxt/DependenciesTxt.kt:105-126 | one module per registered name in first-reference order, undefined ones without facet settings; each lists its own dependencies and usages; `implementedModuleNames` are the `expectedBy` targets in order, and the rest of a defined module's facet settings are exactly those its definition stored; every dependency end is a module |
| DeclarationMatcher.FirstSatisfying | idea/tests/org/jetbrains/kotlin/idea/jvm/KotlinJvmDeclarationSearcherTest.kt:131 | `find` returns the first element the condition accepts, or nothing when it accepts none |
| DeclarationMatcher.RemoveFoundElement | idea/tests/org/jetbrains/kotlin/idea/jvm/KotlinJvmDeclarationSearcherTest.kt:133-134 | removing the found element by equality removes it at the found position, so the "cant remove matched element" failure cannot happen |
| DeclarationMatcher.RemoveFirstEqual | idea/tests/org/jetbrains/kotlin/idea/jvm/KotlinJvmDeclarationSearcherTest.kt:133-134 | `remove` reports success exactly when an equal element is present, and leaves the list as it was when none is |
| DeclarationMatcher.RemoveFirstOccurrence | idea/tests/org/jetbrains/kotlin/idea/jvm/KotlinJvmDeclarationSearcherTest.kt:133-134 | removal by equality takes out the element at a position that no equal element precedes |
| DeclarationMatcher.MatchElementsToConditions | idea/tests/org/jetbrains/kotlin/idea/jvm/KotlinJvmDeclarationSearcherTest.kt:125-139 | the loop with its mutable lists computes the reference matcher `Match` |
| DeclarationMatcher.MatchOutcome | idea/tests/org/jetbrains/kotlin/idea/jvm/KotlinJvmDeclarationSearcherTest.kt:129-138 | the first conditions each consume one element they accept; the first condition that finds none is reported and no later one is tried; otherwise `Matched` exactly when nothing is left, else exactly the leftovers in their original order |
| DeclarationMatcher.SucceedOnlyMatched | idea/tests/org/jetbrains/kotlin/idea/jvm/KotlinJvmDeclarationSearcherTest.kt:141-145 | `succeed` holds of `Matched` only |
| DeclarationMatcher.AssertMatches | idea/tests/org/jetbrains/kotlin/idea/jvm/KotlinJvmDeclarationSearcherTest.kt:115-123 | `assertMatches` passes exactly on `Matched` (then there are as many elements as conditions); otherwise it fails with every element and exactly the condition `matchElementsToConditions` reports, or with exactly the leftover elements it reports |

## Left out

- Source offsets, origins and `KotlinType`s. Type-operator calls keep one bit: whether their type is Unit.
- The counter is an unbounded `nat`. The source's `Int` counter would wrap after 2^31 allocations in one function. That is not modelled.
- `JsIrBuilder` and `JsSymbolBuilder` are left out. Building a node is a datatype constructor.
- `IrReturnableBlock` (a subclass of `IrBlock`) is the container kind `ReturnableBlock`. It fails with `Err(ReturnableBlockTodo)`, as the `TODO` arm intends, although in the source the `is IrBlock` arm would match it first.
- A loop body that changes in statement position is `Err(LoopBodyNotKept)` whether or not the condition decomposed. The source asserts it is kept only when the condition decomposed. When the condition is kept, the source silently keeps a body that was only partly rewritten.
- The model assumes JVM assertions are enabled (`-ea`), so the `assert(status == VisitStatus.KEPT)` on the loop body (`BlockDecomposerLowering.kt`, lines 232 and 284) is `Err(LoopBodyNotKept)`. With assertions disabled the source does not stop there: it rewrites the loop around the original `loop.body!!`, so the statements of a decomposed body that is not a block are silently dropped. That outcome is not modelled.
- DeclarationMatcher.MatchElementsToConditions: elements are taken to be non-null. In the source `T` may be nullable, and `find { condition(it) } ?: return MatchResult.UnmatchedCondition(condition)` (`KotlinJvmDeclarationSearcherTest.kt`, lines 131-132) treats a found `null` like no element at all, whereas the model counts it as a match. Both callers in that file pass non-null elements.
- `visitSetField` in statement position emits the receiver's and value's statements without capturing an unchanged receiver. This is modelled as written.
- The `do-while` rewrite sends a `continue` of the old loop to the inner loop. The model follows the code at line 298 of `BlockDecomposerLowering.kt`.
- Field reads (`visitGetField`) are always kept: the call to `super.visitGetField` ends in `visitExpression`, which returns `KeptResult`. Their receivers are not visited.
- The ANTLR lexer and parser and the file reading of `readFile` are left out. Definitions arrive as a list of `Def` values.
- The JPS and compiler-argument classes are reduced to tags. The `isCommonModule`, `isJvmModule`, `expectedBy` and `generateEditingTests` getters and `jpsModule` are left out.
- The other files of the repository (IDE services, metadata, build-system plumbing, annotations, test data) are not part of this model.
- Uniqueness of generated names is proved for the names the pass declares (temporaries and generated labels). It assumes the input body declares none of them. Whether a source variable could be named `tmp$dcms$N` by the user is outside the model.
- DeclarationMatcher.RemoveFoundElement: Kotlin `equals` is modelled as value equality, and a condition as a function of the element's value. An `equals` that treats as equal two elements that a condition tells apart could make `remove(matched)` take out an earlier element. That case is not modelled.

=== FILE: assembly_names.dfy ===
/** Name accounting for the pieces the block decomposer assembles.  Every
    temporary and every generated label is identified by the counter value it
    was made at (`Ir.GenNames`).  The lemmas here say, piece by piece, which
    names the assembled statements declare: exactly those of the visited
    children plus the counter values the assembly itself consumed, or (for
    the if/else chain, which drops the branches after an `else`) at most those. */
module AssemblyNames {
  import opened Wrappers
  import opened Ir
  import opened VisitResults
  import opened BlockDecomposer
  import ConditionSplitter
  import opened BreakContinueUpdater
  import OperandCapture

  /** The generated names a visited node contributes where it ends up: the
      node itself when kept, its statements otherwise.  The temporary read in
      its place declares nothing. */
  function VisitNames(v: Visit, n: Node): multiset<nat> {
    if v.Kept? then GenNames(n) else GenNamesList(v.stmts)
  }

  /** The same for an operand slot that may be empty. */
  function OptVisitNames(v: Visit, o: Option<Node>): multiset<nat> {
    if v.Kept? then GenNamesOpt(o) else GenNamesList(v.stmts)
  }

  /** The names contributed by visited operands, in order. */
  function OperandNames(ops: seq<Option<Node>>, rs: seq<Visit>): multiset<nat>
    requires |rs| == |ops|
  {
    if |ops| == 0 then multiset{} else OptVisitNames(rs[0], ops[0]) + OperandNames(ops[1..], rs[1..])
  }

  /** The names contributed by a visited branch: its condition and its body. */
  function BranchVisitNames(b: Branch, v: BranchVisit): multiset<nat> {
    VisitNames(v.cond, b.cond) + VisitNames(v.body, v.bodyNode)
  }

  function BranchNames(bs: seq<Branch>, vs: seq<BranchVisit>): multiset<nat>
    requires |vs| == |bs|
  {
    if |bs| == 0 then multiset{} else BranchVisitNames(bs[0], vs[0]) + BranchNames(bs[1..], vs[1..])
  }

  // ---------------------------------------------------------------------------
  // Counter intervals.

  /** Consecutive counter intervals join. */
  lemma RangeSplit(lo: nat, mid: nat, hi: nat)
    requires lo <= mid <= hi
    ensures Range(lo, mid) + Range(mid, hi) == Range(lo, hi)
  {
    assert forall k :: (Range(lo, mid) + Range(mid, hi))[k] == Range(lo, hi)[k];
  }

  /** The interval starting at a value made right away is that value and the rest. */
  lemma RangeFirst(lo: nat, hi: nat)
    requires lo < hi
    ensures multiset{lo} + Range(lo + 1, hi) == Range(lo, hi)
  {
  }

  /** Two bounds over consecutive intervals give a bound over their join. */
  lemma Combine(a: multiset<nat>, x: multiset<nat>, b: multiset<nat>, y: multiset<nat>, lo: nat, mid: nat, hi: nat)
    requires lo <= mid <= hi
    requires a <= x + Range(lo, mid) && b <= y + Range(mid, hi)
    ensures a + b <= x + y + Range(lo, hi)
  {
    RangeSplit(lo, mid, hi);
    forall k ensures (a + b)[k] <= (x + y + Range(lo, hi))[k] {
      assert a[k] <= x[k] + Range(lo, mid)[k];
      assert b[k] <= y[k] + Range(mid, hi)[k];
    }
  }

  // ---------------------------------------------------------------------------
  // A visited node in its new place.

  /** The statements before a value and the value read afterwards declare the
      visited node's names. */
  lemma ValueNames(v: Visit, n: Node)
    requires v.Changed() ==> v.resultVar.Some?
    ensures GenNamesList(Prelude(v)) + GenNames(ValueOf(v, n)) == VisitNames(v, n)
  {
  }

  /** The statements that replace a statement declare its names. */
  lemma EmittedNames(v: Visit, node: Node)
    ensures GenNamesList(Emitted(v, node)) == VisitNames(v, node)
  {
    if v.Kept? {
      GenNamesListSingle(node);
    }
  }

  /** A `when` body as `processWhen` builds it declares the body's names; in
      expression position the assignment to the collective temporary adds none. */
  lemma BodyBuilderNames(ctx: Context, v: Visit, body: Node)
    requires ctx.ExpressionContext? && v.Changed() ==> v.resultVar.Some?
    ensures GenNamesList(BodyBuilder(ctx, v, body)) == VisitNames(v, body)
  {
    if ctx.StatementContext? {
      EmittedNames(v, body);
    } else {
      CollectNames(ctx.collective, v, body);
    }
  }

  /** In expression position a body assigns its value to the collective temporary. */
  lemma CollectNames(coll: VarSym, v: Visit, body: Node)
    requires v.Changed() ==> v.resultVar.Some?
    ensures GenNamesList(Prelude(v) + [SetVariable(coll, ValueOf(v, body))]) == VisitNames(v, body)
  {
    var set_ := SetVariable(coll, ValueOf(v, body));
    AppendOneNames(Prelude(v), set_);
    SetVariableNames(coll, ValueOf(v, body));
    ValueNames(v, body);
  }

  lemma SetVariableNames(s: VarSym, x: Node)
    ensures GenNames(SetVariable(s, x)) == GenNames(x)
  {
  }

  // ---------------------------------------------------------------------------
  // Operands.

  /** The operand list of a call or concatenation declares the node's names. */
  lemma OperandsOfNames(n: Node)
    requires n.Call? || n.Concat?
    ensures GenNamesOpts(OperandsOf(n)) == GenNames(n)
  {
    if n.Call? {
      var ops := OperandsOf(n);
      assert ops[1..] == [n.extension] + n.args;
      assert ops[1..][1..] == n.args;
    } else {
      PartsNames(n.parts, OperandsOf(n));
    }
  }

  lemma {:induction false} PartsNames(parts: seq<Node>, ops: seq<Option<Node>>)
    requires |ops| == |parts| && forall i :: 0 <= i < |parts| ==> ops[i] == Some(parts[i])
    ensures GenNamesOpts(ops) == GenNamesList(parts)
    decreases |parts|
  {
    if |parts| > 0 {
      PartsNames(parts[1..], ops[1..]);
    }
  }

  /** Rebuilding a call or concatenation on new operands declares the operands' names. */
  lemma RebuildNames(n: Node, ops: seq<Option<Node>>)
    requires n.Call? || n.Concat?
    requires n.Call? ==> |ops| >= 2
    ensures GenNames(Rebuild(n, ops)) == GenNamesOpts(ops)
  {
    if n.Call? {
      CallNames(n.callee, ops);
      RebuildCall(n, ops);
    } else {
      RebuildConcatNames(n, ops);
    }
  }

  lemma RebuildCall(n: Node, ops: seq<Option<Node>>)
    requires n.Call? && |ops| >= 2
    ensures Rebuild(n, ops) == Call(n.callee, ops[0], ops[1], ops[2..])
  {
  }

  lemma RebuildConcatNames(n: Node, ops: seq<Option<Node>>)
    requires n.Concat?
    ensures GenNames(Rebuild(n, ops)) == GenNamesOpts(ops)
  {
    var r := Rebuild(n, ops);
    FilledNames(ops, r.parts);
    ConcatNames(r.parts);
  }

  lemma ConcatNames(parts: seq<Node>)
    ensures GenNames(Concat(parts)) == GenNamesList(parts)
  {
  }

  lemma CallNames(callee: Callee, ops: seq<Option<Node>>)
    requires |ops| >= 2
    ensures GenNames(Call(callee, ops[0], ops[1], ops[2..])) == GenNamesOpts(ops)
  {
    var rest := ops[1..];
    assert rest[0] == ops[1] && rest[1..] == ops[2..];
    assert GenNamesOpts(rest) == GenNamesOpt(ops[1]) + GenNamesOpts(ops[2..]);
    assert GenNamesOpts(ops) == GenNamesOpt(ops[0]) + GenNamesOpts(rest);
  }

  lemma {:induction false} FilledNames(ops: seq<Option<Node>>, parts: seq<Node>)
    requires |parts| == |ops|
    requires forall i :: 0 <= i < |ops| ==> parts[i] == if ops[i].Some? then ops[i].value else NullConst
    ensures GenNamesList(parts) == GenNamesOpts(ops)
    decreases |ops|
  {
    if |ops| > 0 {
      FilledNames(ops[1..], parts[1..]);
    }
  }

  /** `mapArguments` declares exactly the visited operands' names and one
      temporary per counter value it consumed. */
  lemma {:induction false} MapArgumentsNames(ops: seq<Option<Node>>, rs: seq<Visit>, toDecompose: nat, decomposed: nat, c: nat)
    requires Produced(ops, rs)
    ensures MapNamesOk(ops, rs, toDecompose, decomposed, c)
    decreases |ops|
  {
    if |ops| > 0 {
      OperandCapture.ProducedTail(ops, rs);
      var passed := if rs[0].Changed() then decomposed + 1 else decomposed;
      var next := if ops[0].None? then c else PrepareArgument(ValueOf(rs[0], ops[0].value), decomposed < toDecompose, c).next;
      MapArgumentsNames(ops[1..], rs[1..], toDecompose, passed, next);
      if ops[0].None? {
        MapSkipStep(ops, rs, toDecompose, decomposed, c);
      } else {
        MapOperandStep(ops, rs, toDecompose, decomposed, c);
      }
    }
  }

  ghost predicate MapNamesOk(ops: seq<Option<Node>>, rs: seq<Visit>, toDecompose: nat, decomposed: nat, c: nat)
    requires Produced(ops, rs)
  {
    var m := MapArguments(ops, rs, toDecompose, decomposed, c);
    GenNamesList(m.stmts) + GenNamesOpts(m.operands) == OperandNames(ops, rs) + Range(c, m.next)
  }

  /** An empty operand slot stays empty and adds nothing. */
  lemma MapSkipStep(ops: seq<Option<Node>>, rs: seq<Visit>, toDecompose: nat, decomposed: nat, c: nat)
    requires Produced(ops, rs) && |ops| > 0 && ops[0].None?
    requires Produced(ops[1..], rs[1..])
    requires MapNamesOk(ops[1..], rs[1..], toDecompose, if rs[0].Changed() then decomposed + 1 else decomposed, c)
    ensures MapNamesOk(ops, rs, toDecompose, decomposed, c)
  {
    var passed := if rs[0].Changed() then decomposed + 1 else decomposed;
    var t := MapArguments(ops[1..], rs[1..], toDecompose, passed, c);
    assert MapArguments(ops, rs, toDecompose, decomposed, c) == Mapped(t.stmts, [None] + t.operands, t.next);
    assert ([None] + t.operands)[1..] == t.operands;
    assert GenNamesOpts([None] + t.operands) == GenNamesOpts(t.operands);
    assert OptVisitNames(rs[0], ops[0]) == multiset{};
    assert OperandNames(ops, rs) == OptVisitNames(rs[0], ops[0]) + OperandNames(ops[1..], rs[1..]);
  }

  /** A present operand: its prelude, then its capture (one temporary at the
      current counter value) or its value, then the rest. */
  lemma MapOperandStep(ops: seq<Option<Node>>, rs: seq<Visit>, toDecompose: nat, decomposed: nat, c: nat)
    requires Produced(ops, rs) && |ops| > 0 && ops[0].Some?
    requires Produced(ops[1..], rs[1..])
    requires MapNamesOk(ops[1..], rs[1..], toDecompose, if rs[0].Changed() then decomposed + 1 else decomposed,
                        PrepareArgument(ValueOf(rs[0], ops[0].value), decomposed < toDecompose, c).next)
    ensures MapNamesOk(ops, rs, toDecompose, decomposed, c)
  {
    var passed := if rs[0].Changed() then decomposed + 1 else decomposed;
    var value := ValueOf(rs[0], ops[0].value);
    var p := PrepareArgument(value, decomposed < toDecompose, c);
    var t := MapArguments(ops[1..], rs[1..], toDecompose, passed, p.next);
    ThreeListNames(Prelude(rs[0]), p.stmts, t.stmts);
    ConsOptNames(p.value, t.operands);
    PrepareNames(value, decomposed < toDecompose, c);
    OptValueNames(rs[0], ops[0]);
    RangeSplit(c, p.next, t.next);
    PieceRegroup(GenNamesList(Prelude(rs[0])), GenNamesList(p.stmts), GenNamesList(t.stmts), GenNames(p.value), GenNamesOpts(t.operands),
                 GenNames(value), OptVisitNames(rs[0], ops[0]), OperandNames(ops[1..], rs[1..]), Range(c, p.next), Range(p.next, t.next));
    OperandNamesCons(ops, rs);
    MapOperandShape(ops, rs, toDecompose, decomposed, c);
  }

  /** `mapArguments` on a present operand: its prelude, its capture, then the rest. */
  lemma MapOperandShape(ops: seq<Option<Node>>, rs: seq<Visit>, toDecompose: nat, decomposed: nat, c: nat)
    requires Produced(ops, rs) && |ops| > 0 && ops[0].Some?
    requires Produced(ops[1..], rs[1..])
    ensures var passed := if rs[0].Changed() then decomposed + 1 else decomposed;
      var p := PrepareArgument(ValueOf(rs[0], ops[0].value), decomposed < toDecompose, c);
      var t := MapArguments(ops[1..], rs[1..], toDecompose, passed, p.next);
      MapArguments(ops, rs, toDecompose, decomposed, c) == Mapped(Prelude(rs[0]) + p.stmts + t.stmts, [Some(p.value)] + t.operands, t.next)
  {
  }

  lemma ThreeListNames(a: seq<Node>, b: seq<Node>, d: seq<Node>)
    ensures GenNamesList(a + b + d) == GenNamesList(a) + GenNamesList(b) + GenNamesList(d)
  {
    GenNamesListAppend(a + b, d);
    GenNamesListAppend(a, b);
  }

  lemma ConsOptNames(x: Node, t: seq<Option<Node>>)
    ensures GenNamesOpts([Some(x)] + t) == GenNames(x) + GenNamesOpts(t)
  {
    assert ([Some(x)] + t)[1..] == t;
  }

  /** A captured operand declares one temporary at the current counter value. */
  lemma PrepareNames(value: Node, needWrap: bool, c: nat)
    ensures var p := PrepareArgument(value, needWrap, c);
      GenNamesList(p.stmts) + GenNames(p.value) == GenNames(value) + Range(c, p.next)
  {
    if needWrap {
      GenNamesListSingle(VarDecl(Temp(c), Some(value)));
    }
  }

  lemma OptValueNames(v: Visit, o: Option<Node>)
    requires o.Some? && (v.Changed() ==> v.resultVar.Some?)
    ensures GenNamesList(Prelude(v)) + GenNames(ValueOf(v, o.value)) == OptVisitNames(v, o)
  {
    ValueNames(v, o.value);
  }

  lemma OperandNamesCons(ops: seq<Option<Node>>, rs: seq<Visit>)
    requires |rs| == |ops| && |ops| > 0
    ensures OperandNames(ops, rs) == OptVisitNames(rs[0], ops[0]) + OperandNames(ops[1..], rs[1..])
  {
  }

  /** The regrouping `mapArguments` needs: a prelude, the captured operand's
      statements and value, and the rest. */
  lemma PieceRegroup(pre: multiset<nat>, stmts: multiset<nat>, rest: multiset<nat>, value: multiset<nat>, restOps: multiset<nat>,
                     visited: multiset<nat>, own: multiset<nat>, tail: multiset<nat>, r1: multiset<nat>, r2: multiset<nat>)
    requires stmts + value == visited + r1
    requires pre + visited == own
    requires rest + restOps == tail + r2
    ensures (pre + stmts + rest) + (value + restOps) == (own + tail) + (r1 + r2)
  {
    forall k ensures ((pre + stmts + rest) + (value + restOps))[k] == ((own + tail) + (r1 + r2))[k] {
      assert (stmts + value)[k] == (visited + r1)[k];
      assert (pre + visited)[k] == own[k];
      assert (rest + restOps)[k] == (tail + r2)[k];
    }
  }

  // ---------------------------------------------------------------------------
  // `when`.

  /** An if/else declares the names of its condition and its two parts. */
  lemma IfThenElseNames(x: Node, t: Node, e: Option<Node>)
    ensures GenNames(IfThenElse(x, t, e)) == GenNames(x) + GenNames(t) + GenNamesOpt(e)
  {
    if e.Some? {
      IfElseNames(x, t, e.value);
    } else {
      assert IfThenElse(x, t, e) == When([Branch(false, x, t)]);
      SingleBranchNames(Branch(false, x, t));
    }
  }

  lemma IfElseNames(x: Node, t: Node, e: Node)
    ensures GenNames(IfThenElse(x, t, Some(e))) == GenNames(x) + GenNames(t) + GenNames(e)
  {
    var first := [Branch(false, x, t)];
    var second := [Branch(true, TrueConst, e)];
    assert IfThenElse(x, t, Some(e)) == When(first + second);
    assert GenNames(When(first + second)) == GenNamesBranches(first + second);
    GenNamesBranchesAppend(first, second);
    SingleBranchNames(first[0]);
    SingleBranchNames(second[0]);
    assert GenNames(TrueConst) == multiset{};
  }

  lemma SingleBranchNames(b: Branch)
    ensures GenNamesBranches([b]) == GenNames(b.cond) + GenNames(b.result)
  {
    assert [b][1..] == [];
  }

  /** Branch lists whose branches declare what the visited branches contribute. */
  lemma {:induction false} BranchesPointwise(w: seq<Branch>, bs: seq<Branch>, vs: seq<BranchVisit>)
    requires |w| == |bs| && |vs| == |bs|
    requires forall j :: 0 <= j < |bs| ==> GenNamesBranch(w[j]) == BranchVisitNames(bs[j], vs[j])
    ensures GenNamesBranches(w) == BranchNames(bs, vs)
    decreases |bs|
  {
    if |bs| > 0 {
      BranchesPointwise(w[1..], bs[1..], vs[1..]);
    }
  }

  /** The if/else chain from branch `i` on declares at most what the branches
      from `i` on contribute (the branches after an `else` are left out). */
  lemma {:induction false} ChainNames(ctx: Context, bs: seq<Branch>, vs: seq<BranchVisit>, i: nat)
    requires |vs| == |bs| && i <= |bs| && VisitsWellFormed(ctx, vs)
    ensures GenNamesList(Chain(ctx, bs, vs, i)) <= BranchNames(bs[i..], vs[i..])
    decreases |bs| - i
  {
    if i < |bs| {
      if !bs[i].isElse {
        ChainNames(ctx, bs, vs, i + 1);
      }
      ChainStep(ctx, bs, vs, i);
    }
  }

  /** One link of the chain: the condition's statements, then the if/else
      whose else part is the rest of the chain. */
  lemma ChainStep(ctx: Context, bs: seq<Branch>, vs: seq<BranchVisit>, i: nat)
    requires |vs| == |bs| && i < |bs| && VisitsWellFormed(ctx, vs)
    requires !bs[i].isElse ==> GenNamesList(Chain(ctx, bs, vs, i + 1)) <= BranchNames(bs[i + 1..], vs[i + 1..])
    ensures GenNamesList(Chain(ctx, bs, vs, i)) <= BranchNames(bs[i..], vs[i..])
  {
    var elsePart := if bs[i].isElse then None else Some(Container(Block, Chain(ctx, bs, vs, i + 1)));
    ChainLinkNames(ctx, vs[i], bs[i].cond, elsePart);
    BoundAdd(BranchVisitNames(bs[i], vs[i]), GenNamesOpt(elsePart), BranchNames(bs[i + 1..], vs[i + 1..]));
    BranchNamesFrom(bs, vs, i);
    assert Chain(ctx, bs, vs, i) == ChainLink(ctx, vs[i], bs[i].cond, elsePart);
  }

  /** A link declares the names of its branch and of its else part. */
  lemma ChainLinkNames(ctx: Context, v: BranchVisit, cond: Node, elsePart: Option<Node>)
    requires v.cond.Changed() ==> v.cond.resultVar.Some?
    requires ctx.ExpressionContext? && v.body.Changed() ==> v.body.resultVar.Some?
    ensures GenNamesList(ChainLink(ctx, v, cond, elsePart)) == BranchVisitNames(Branch(false, cond, v.bodyNode), v) + GenNamesOpt(elsePart)
  {
    var body := Container(Block, BodyBuilder(ctx, v.body, v.bodyNode));
    var x := ValueOf(v.cond, cond);
    var ite := IfThenElse(x, body, elsePart);
    assert GenNamesList(Prelude(v.cond) + [ite]) == GenNamesList(Prelude(v.cond)) + GenNames(ite) by {
      GenNamesListAppend(Prelude(v.cond), [ite]);
      GenNamesListSingle(ite);
    }
    IfThenElseNames(x, body, elsePart);
    ValueNames(v.cond, cond);
    BodyBuilderNames(ctx, v.body, v.bodyNode);
    LinkRegroup(GenNamesList(Prelude(v.cond)), GenNames(x), GenNames(body), GenNamesOpt(elsePart));
  }

  lemma LinkRegroup(pre: multiset<nat>, x: multiset<nat>, body: multiset<nat>, elsePart: multiset<nat>)
    ensures pre + (x + body + elsePart) == (pre + x) + body + elsePart
  {
    forall k ensures (pre + (x + body + elsePart))[k] == ((pre + x) + body + elsePart)[k] {
    }
  }

  lemma BoundAdd(own: multiset<nat>, elsePart: multiset<nat>, rest: multiset<nat>)
    requires elsePart <= rest
    ensures own + elsePart <= own + rest
  {
    forall k ensures (own + elsePart)[k] <= (own + rest)[k] {
    }
  }

  /** The branch names from `i` on: branch `i`, then the rest. */
  lemma BranchNamesFrom(bs: seq<Branch>, vs: seq<BranchVisit>, i: nat)
    requires |vs| == |bs| && i < |bs|
    ensures BranchNames(bs[i..], vs[i..]) == BranchVisitNames(bs[i], vs[i]) + BranchNames(bs[i + 1..], vs[i + 1..])
  {
    assert bs[i..][1..] == bs[i + 1..] && vs[i..][1..] == vs[i + 1..];
  }

  /** `processWhen` declares at most what the visited branches contribute, and
      exactly that when no condition changed. */
  lemma AssembleWhenNames(ctx: Context, bs: seq<Branch>, vs: seq<BranchVisit>)
    requires |vs| == |bs| && VisitsWellFormed(ctx, vs)
    ensures GenNames(AssembleWhen(ctx, bs, vs)) <= BranchNames(bs, vs)
    ensures !CondsChanged(vs) ==> GenNames(AssembleWhen(ctx, bs, vs)) == BranchNames(bs, vs)
  {
    if CondsChanged(vs) {
      ChainedWhenNames(ctx, bs, vs);
    } else {
      FlatWhenNames(ctx, bs, vs);
    }
  }

  lemma ChainedWhenNames(ctx: Context, bs: seq<Branch>, vs: seq<BranchVisit>)
    requires |vs| == |bs| && VisitsWellFormed(ctx, vs) && CondsChanged(vs)
    ensures GenNames(AssembleWhen(ctx, bs, vs)) <= BranchNames(bs, vs)
  {
    var chain := Chain(ctx, bs, vs, 0);
    ChainNames(ctx, bs, vs, 0);
    assert bs[0..] == bs && vs[0..] == vs;
    assert GenNames(Container(Block, chain)) <= BranchNames(bs, vs);
    assert AssembleWhen(ctx, bs, vs) == Container(Block, chain);
  }

  lemma FlatWhenNames(ctx: Context, bs: seq<Branch>, vs: seq<BranchVisit>)
    requires |vs| == |bs| && VisitsWellFormed(ctx, vs) && !CondsChanged(vs)
    ensures GenNames(AssembleWhen(ctx, bs, vs)) == BranchNames(bs, vs)
  {
    FlatWhenShape(ctx, bs, vs);
    WhenNames(BlockBodies(ctx, bs, vs));
    FlatBranchesNames(ctx, bs, vs);
  }

  lemma WhenNames(w: seq<Branch>)
    ensures GenNames(When(w)) == GenNamesBranches(w)
  {
  }

  lemma FlatWhenShape(ctx: Context, bs: seq<Branch>, vs: seq<BranchVisit>)
    requires |vs| == |bs| && VisitsWellFormed(ctx, vs) && !CondsChanged(vs)
    ensures AssembleWhen(ctx, bs, vs) == When(BlockBodies(ctx, bs, vs))
  {
  }

  lemma FlatBranchesNames(ctx: Context, bs: seq<Branch>, vs: seq<BranchVisit>)
    requires |vs| == |bs| && VisitsWellFormed(ctx, vs) && !CondsChanged(vs)
    ensures GenNamesBranches(BlockBodies(ctx, bs, vs)) == BranchNames(bs, vs)
  {
    var w := BlockBodies(ctx, bs, vs);
    forall j | 0 <= j < |bs| ensures GenNamesBranch(w[j]) == BranchVisitNames(bs[j], vs[j]) {
      assert !vs[j].cond.Changed();
      FlatBranchNames(ctx, bs[j], vs[j]);
    }
    BranchesPointwise(w, bs, vs);
  }

  /** A branch of the `when` kept in shape: its original condition and its body in a block. */
  lemma FlatBranchNames(ctx: Context, b: Branch, v: BranchVisit)
    requires v.cond.Kept? && (ctx.ExpressionContext? && v.body.Changed() ==> v.body.resultVar.Some?)
    ensures GenNamesBranch(Branch(b.isElse, b.cond, Container(Block, BodyBuilder(ctx, v.body, v.bodyNode)))) == BranchVisitNames(b, v)
  {
    BodyBuilderNames(ctx, v.body, v.bodyNode);
  }

  /** The kept `when` of the statement visitor declares what its branches contribute. */
  lemma InPlaceNames(bs: seq<Branch>, vs: seq<BranchVisit>)
    requires |vs| == |bs| && !AnyChanged(vs)
    ensures GenNamesBranches(InPlaceBranches(bs, vs)) == BranchNames(bs, vs)
  {
    var w := InPlaceBranches(bs, vs);
    forall j | 0 <= j < |bs| ensures GenNamesBranch(w[j]) == BranchVisitNames(bs[j], vs[j]) {
      assert !vs[j].cond.Changed() && !vs[j].body.Changed();
    }
    BranchesPointwise(w, bs, vs);
  }

  // ---------------------------------------------------------------------------
  // Loops.

  /** The exit test of the `while` rewrite declares nothing. */
  lemma ExitTestNames(cv: VarSym, id: LoopId)
    ensures GenNames(ExitTest(cv, id)) == multiset{}
  {
    var args := [Some(GetValue(cv))];
    assert args[1..] == [];
    assert GenNamesOpts(args) == GenNamesOpt(args[0]) + GenNamesOpts([]);
    var test := Call(BooleanNot, None, None, args);
    assert GenNames(test) == GenNamesOpt(None) + GenNamesOpt(None) + GenNamesOpts(args);
    var jumps := [Jump(BreakJump, id)];
    assert jumps[1..] == [];
    assert GenNamesList(jumps) == GenNames(jumps[0]) + GenNamesList([]);
    IfThenElseNames(test, Container(Block, jumps), None);
  }

  /** The `while` rewrite declares exactly the loop's label, the condition's
      statements' names and the body's names: hoisting and redirection move
      declarations, they neither add nor lose one. */
  lemma RewriteWhileNames(id: LoopId, lab: Option<Label>, condStmts: seq<Node>, cv: VarSym, body: Node)
    ensures GenNamesList(RewriteWhile(id, lab, condStmts, cv, body)) == LabelNames(lab) + GenNamesList(condStmts) + GenNames(body)
  {
    var split := ConditionSplitter.SplitList(condStmts);
    var loop := RewrittenWhileLoop(id, lab, split.stmts, cv, body);
    AppendOneNames(split.hoisted, loop);
    WhileLoopNames(id, lab, split.stmts, cv, body);
    ConditionSplitter.SplitListKeepsNames(condStmts);
    LoopRegroup(GenNamesList(split.hoisted), GenNamesList(split.stmts), LabelNames(lab), GenNames(body), GenNamesList(condStmts), multiset{});
  }

  lemma AppendOneNames(s: seq<Node>, x: Node)
    ensures GenNamesList(s + [x]) == GenNamesList(s) + GenNames(x)
  {
    GenNamesListAppend(s, [x]);
    GenNamesListSingle(x);
  }

  /** The new `while` loop declares its label and the names of its statements and body. */
  lemma WhileLoopNames(id: LoopId, lab: Option<Label>, stmts: seq<Node>, cv: VarSym, body: Node)
    ensures GenNames(RewrittenWhileLoop(id, lab, stmts, cv, body)) == LabelNames(lab) + (GenNamesList(stmts) + GenNames(body) + multiset{})
  {
    var u := Updater(id, Rewritten(id), Rewritten(id));
    var newBody := Container(Block, stmts + [ExitTest(cv, id), body]);
    RetargetedLoopNames(WhileLoop, Rewritten(id), lab, TrueConst, u, newBody);
    WhileBodyNames(stmts, ExitTest(cv, id), body);
    ExitTestNames(cv, id);
    TrueConstNames();
  }

  lemma TrueConstNames()
    ensures GenNames(TrueConst) == multiset{}
  {
  }

  /** A loop whose body was redirected declares what the body did. */
  lemma RetargetedLoopNames(kind: LoopKind, id: LoopId, lab: Option<Label>, cond: Node, u: Updater, b: Node)
    ensures GenNames(Loop(kind, id, lab, cond, Some(Retarget(u, b)))) == LabelNames(lab) + GenNames(cond) + GenNames(b)
  {
    RetargetKeepsNames(u, b);
    LoopNames(kind, id, lab, cond, Retarget(u, b));
  }

  lemma LoopNames(kind: LoopKind, id: LoopId, lab: Option<Label>, cond: Node, b: Node)
    ensures GenNames(Loop(kind, id, lab, cond, Some(b))) == LabelNames(lab) + GenNames(cond) + GenNames(b)
  {
  }

  /** The new body of the `while` rewrite before redirection. */
  lemma WhileBodyNames(stmts: seq<Node>, exit: Node, body: Node)
    ensures GenNames(Container(Block, stmts + [exit, body])) == GenNamesList(stmts) + GenNames(exit) + GenNames(body)
  {
    ContainerNames(Block, stmts + [exit, body]);
    GenNamesListAppend(stmts, [exit, body]);
    PairNames(exit, body);
    SumAssoc(GenNamesList(stmts), GenNames(exit), GenNames(body));
  }

  lemma ContainerNames(kind: ContainerKind, s: seq<Node>)
    ensures GenNames(Container(kind, s)) == GenNamesList(s)
  {
  }

  lemma SumAssoc(x: multiset<nat>, y: multiset<nat>, z: multiset<nat>)
    ensures x + (y + z) == x + y + z
  {
    forall k ensures (x + (y + z))[k] == (x + y + z)[k] {
    }
  }

  lemma PairNames(a: Node, b: Node)
    ensures GenNamesList([a, b]) == GenNames(a) + GenNames(b)
  {
    assert [a, b][1..] == [b];
    GenNamesListSingle(b);
  }

  /** The regrouping the loop rewrites need: hoisted declarations in front,
      the rest of the condition's statements inside the new loop. */
  lemma LoopRegroup(hoisted: multiset<nat>, stmts: multiset<nat>, own: multiset<nat>, body: multiset<nat>,
                    cond: multiset<nat>, made: multiset<nat>)
    requires hoisted + stmts == cond
    ensures hoisted + (own + (stmts + body + made)) == own + cond + body + made
  {
    forall k ensures (hoisted + (own + (stmts + body + made)))[k] == (own + cond + body + made)[k] {
      assert (hoisted + stmts)[k] == cond[k];
    }
  }

  /** The `do-while` rewrite declares exactly the loop's own, the
      condition's statements' names, the body's names and the labels it made:
      one per counter value it consumed. */
  lemma RewriteDoWhileNames(id: LoopId, lab: Option<Label>, condStmts: seq<Node>, cv: VarSym, body: Node, c: nat)
    ensures var w := RewriteDoWhile(id, lab, condStmts, cv, body, c);
      GenNamesList(w.stmts) == LabelNames(lab) + GenNamesList(condStmts) + GenNames(body) + Range(c, w.next)
  {
    var split := ConditionSplitter.SplitList(condStmts);
    var outer := DoWhileOuter(id, lab, split.stmts, cv, body, c);
    var w := RewriteDoWhile(id, lab, condStmts, cv, body, c);
    var hoisted, stmts := GenNamesList(split.hoisted), GenNamesList(split.stmts);
    var made := Range(c, w.next);
    assert GenNamesList(split.hoisted + [outer]) == hoisted + GenNames(outer) by {
      GenNamesListAppend(split.hoisted, [outer]);
      GenNamesListSingle(outer);
    }
    assert GenNames(outer) == LabelNames(lab) + made + (GenNames(body) + stmts) by {
      DoWhileOuterNames(id, lab, split.stmts, cv, body, c);
    }
    assert hoisted + stmts == GenNamesList(condStmts) by {
      ConditionSplitter.SplitListKeepsNames(condStmts);
    }
    DoWhileRegroup(hoisted, stmts, LabelNames(lab), made, GenNames(body), GenNamesList(condStmts));
    assert w.stmts == split.hoisted + [outer];
  }

  lemma DoWhileInnerNames(id: LoopId, body: Node, c: nat)
    ensures GenNames(DoWhileInner(id, body, c)) == multiset{c} + GenNames(body)
  {
    RetargetedLoopNames(DoWhileLoop, BodyOnce(id), Some(GeneratedLabel(c)), FalseConst, Updater(id, Rewritten(id), BodyOnce(id)), body);
    assert GenNames(FalseConst) == multiset{};
  }

  /** The two loops of the `do-while` rewrite declare the original label (or
      the label made second), the label made first, the body's names and the
      condition's remaining statements' names. */
  lemma DoWhileOuterNames(id: LoopId, lab: Option<Label>, stmts: seq<Node>, cv: VarSym, body: Node, c: nat)
    ensures GenNames(DoWhileOuter(id, lab, stmts, cv, body, c))
      == LabelNames(lab) + Range(c, if lab.Some? then c + 1 else c + 2) + (GenNames(body) + GenNamesList(stmts))
  {
    var outerLabel := if lab.Some? then lab.value else GeneratedLabel(c + 1);
    var inner := DoWhileInner(id, body, c);
    var made := Range(c, if lab.Some? then c + 1 else c + 2);
    DoWhileInnerNames(id, body, c);
    OuterLoopNames(id, outerLabel, cv, inner, stmts);
    assert LabelNames(Some(outerLabel)) + multiset{c} == LabelNames(lab) + made by {
      if lab.None? {
        RangeFirst(c, c + 2);
      }
    }
    LabelRegroup(LabelNames(Some(outerLabel)), multiset{c}, LabelNames(lab), made, GenNames(body), GenNamesList(stmts));
  }

  lemma OuterLoopNames(id: LoopId, outerLabel: Label, cv: VarSym, inner: Node, stmts: seq<Node>)
    ensures GenNames(Loop(DoWhileLoop, Rewritten(id), Some(outerLabel), GetValue(cv), Some(Container(Block, [inner] + stmts))))
      == LabelNames(Some(outerLabel)) + (GenNames(inner) + GenNamesList(stmts))
  {
    GetValueNames(cv);
    PlainLoopNames(DoWhileLoop, Rewritten(id), Some(outerLabel), GetValue(cv), Container(Block, [inner] + stmts));
    ContainerNames(Block, [inner] + stmts);
    ConsNames(inner, stmts);
  }

  lemma GetValueNames(v: VarSym)
    ensures GenNames(GetValue(v)) == multiset{}
  {
  }

  lemma LabelRegroup(outerLabel: multiset<nat>, innerLabel: multiset<nat>, own: multiset<nat>, made: multiset<nat>,
                     body: multiset<nat>, stmts: multiset<nat>)
    requires outerLabel + innerLabel == own + made
    ensures outerLabel + ((innerLabel + body) + stmts) == own + made + (body + stmts)
  {
    forall k ensures (outerLabel + ((innerLabel + body) + stmts))[k] == (own + made + (body + stmts))[k] {
      assert (outerLabel + innerLabel)[k] == (own + made)[k];
    }
  }

  /** A loop whose condition declares nothing declares its label and its body's names. */
  lemma PlainLoopNames(kind: LoopKind, id: LoopId, lab: Option<Label>, cond: Node, b: Node)
    requires GenNames(cond) == multiset{}
    ensures GenNames(Loop(kind, id, lab, cond, Some(b))) == LabelNames(lab) + GenNames(b)
  {
    LoopNames(kind, id, lab, cond, b);
    assert LabelNames(lab) + GenNames(cond) == LabelNames(lab);
  }

  lemma ConsNames(x: Node, s: seq<Node>)
    ensures GenNamesList([x] + s) == GenNames(x) + GenNamesList(s)
  {
    assert ([x] + s)[1..] == s;
  }

  lemma DoWhileRegroup(hoisted: multiset<nat>, stmts: multiset<nat>, own: multiset<nat>, made: multiset<nat>,
                       body: multiset<nat>, cond: multiset<nat>)
    requires hoisted + stmts == cond
    ensures hoisted + (own + made + (body + stmts)) == own + cond + body + made
  {
    forall k ensures (hoisted + (own + made + (body + stmts)))[k] == (own + cond + body + made)[k] {
      assert (hoisted + stmts)[k] == cond[k];
    }
  }
}

=== FILE: block_decomposer.dfy ===
/** `BlockDecomposerLowering`: rewrites one function body so that no block,
    `when`, `return`, `throw`, `break` or `continue` is left where a value is
    expected.

    Two visitors walk the tree.  The statement visitor (`StmtVisit`) sees
    nodes whose value is discarded; it lowers containers, `when` bodies and
    loop bodies in place and answers with a `Visit` plus the node as updated
    in place.  The expression visitor (`ExprVisit`) sees nodes whose value is
    used; it never changes a node it keeps.  One counter, threaded through
    every call as `c` and returned as `next`, numbers the temporaries
    (`makeTempVar`) and the generated loop labels (`makeLoopLabel`).  The
    source's `TODO()`s, `error(...)`s, failed casts and `!!`s become `Err`. */
module BlockDecomposer {
  import opened Wrappers
  import opened Ir
  import opened VisitResults
  import ConditionSplitter
  import opened BreakContinueUpdater

  datatype Failure =
    | ReturnableBlockTodo   // `TODO("IrReturnableBlock")` for a returnable block in expression position
    | UnsupportedBlock      // `error("Unsupported block type")`
    | FieldInitializerTodo  // `visitField`: the initializer decomposed, `TODO()`
    | NotAnExpression       // the last statement of a block in expression position is a declaration
    | LoopBodyNotKept       // a loop body in statement position did not come back `KEPT`
    | MissingLoopBody       // `loop.body!!` on a loop without body whose condition decomposed

  /** Where a `when` is: in statement position, or in expression position with
      the collective temporary its branches assign. */
  datatype Context = StatementContext | ExpressionContext(collective: VarSym)

  datatype ExprOut = ExprOut(result: Visit, next: nat)
  datatype StmtOut = StmtOut(result: Visit, node: Node, next: nat)
  datatype OptOut = OptOut(result: Visit, node: Option<Node>, next: nat)
  datatype ListOut = ListOut(stmts: seq<Node>, next: nat)
  datatype OperandsOut = OperandsOut(results: seq<Visit>, next: nat)
  /** A visited branch: the condition's outcome, the body's outcome and the body
      as the statement visitor left it in place (the original in expression position). */
  datatype BranchVisit = BranchVisit(cond: Visit, body: Visit, bodyNode: Node)
  datatype BranchOut = BranchOut(visit: BranchVisit, next: nat)
  datatype BranchesOut = BranchesOut(visits: seq<BranchVisit>, next: nat)

  /** A changed outcome names a temporary made in the counter interval `[lo, hi)`. */
  ghost predicate FreshVar(v: Visit, lo: nat, hi: nat) {
    v.Changed() ==> v.resultVar.Some? && v.resultVar.value.Temp? && lo <= v.resultVar.value.index < hi
  }

  /** What every expression visit guarantees: the counter only grows, a kept
      expression consumes no counter value, a changed one hands back a fresh
      temporary holding its value. */
  ghost predicate ExprOk(o: ExprOut, c: nat) {
    c <= o.next && (o.result.Kept? ==> o.next == c) && FreshVar(o.result, c, o.next)
  }

  /** The statements a visited expression needs before its value can be read. */
  function Prelude(v: Visit): seq<Node> {
    if v.Kept? then [] else v.stmts
  }

  /** `resultValue`, or the untouched expression when it was kept. */
  function ValueOf(v: Visit, original: Node): Node
    requires v.Changed() ==> v.resultVar.Some?
  {
    if v.Kept? then original else GetValue(v.resultVar.value)
  }

  /** The receivers and value arguments of a call, or the parts of a string
      concatenation, in evaluation order. */
  function OperandsOf(n: Node): seq<Option<Node>>
    requires n.Call? || n.Concat?
  {
    if n.Call? then [n.dispatch, n.extension] + n.args
    else seq(|n.parts|, i requires 0 <= i < |n.parts| => Some(n.parts[i]))
  }

  // ---------------------------------------------------------------------------
  // The expression visitor.

  function ExprVisit(n: Node, c: nat): (r: Result<ExprOut, Failure>)
    ensures r.Ok? ==> ExprOk(r.value, c)
    ensures r.Ok? && r.value.result.Kept? ==> !(n.Container? || n.When? || n.Return? || n.Throw? || n.Jump?)
    decreases n, 2
  {
    match n
    case Container(_, _) => ExprContainer(n, c)
    case Call(_, _, _, _) => ExprOperands(n, c)
    case Concat(_) => ExprOperands(n, c)
    case When(bs) =>
      var coll := Temp(c);
      var vb :- VisitBranches(n, 0, ExpressionContext(coll), c + 1);
      Ok(ExprOut(Decomposed([VarDecl(coll, None), AssembleWhen(ExpressionContext(coll), bs, vb.visits)], Some(coll)), vb.next))
    case Return(t, v) =>
      var o :- ExprVisit(v, c);
      Ok(Terminate(o, Return(t, ValueOf(o.result, v))))
    case Throw(v) =>
      var o :- ExprVisit(v, c);
      Ok(Terminate(o, Throw(ValueOf(o.result, v))))
    case Jump(_, _) =>
      Ok(ExprOut(Decomposed([n, VarDecl(Temp(c), Some(NullConst))], Some(Temp(c))), c + 1))
    case _ => Ok(ExprOut(Kept, c))
  }

  /** `transformTermination`: the value's statements, the rebuilt exit, and an
      aggregate temporary made after the value was visited and set to null. */
  function Terminate(o: ExprOut, exit: Node): (r: ExprOut)
    ensures r.next == o.next + 1
    ensures r.result.Terminated? && r.result.resultVar == Some(Temp(o.next))
    ensures r.result.stmts == Prelude(o.result) + [exit, VarDecl(Temp(o.next), Some(NullConst))]
  {
    var agg := Temp(o.next);
    ExprOut(Terminated(Prelude(o.result) + [exit] + [VarDecl(agg, Some(NullConst))], Some(agg)), o.next + 1)
  }

  /** `visitContainerExpression` of the expression visitor. */
  function ExprContainer(n: Node, c: nat): (r: Result<ExprOut, Failure>)
    requires n.Container?
    ensures r.Ok? ==> ExprOk(r.value, c) && r.value.result.Decomposed?
    decreases n, 1
  {
    var t := Temp(c);
    if n.kind == ReturnableBlock then Err(ReturnableBlockTodo)
    else if n.kind == OtherContainer then Err(UnsupportedBlock)
    else if |n.stmts| == 0 then
      Ok(ExprOut(Decomposed([VarDecl(t, Some(NullConst)), Container(n.kind, [])], Some(t)), c + 1))
    else
      var prefix :- LowerRange(n.stmts, 0, |n.stmts| - 1, c + 1);
      var last := n.stmts[|n.stmts| - 1];
      var o :- ExprVisit(last, prefix.next);
      if o.result.Kept? && !IsExpression(last) then Err(NotAnExpression)
      else
        var body := Container(n.kind, prefix.stmts + Prelude(o.result) + [SetVariable(t, ValueOf(o.result, last))]);
        Ok(ExprOut(Decomposed([VarDecl(t, None), body], Some(t)), o.next))
  }

  /** `visitFunctionAccess` and `visitStringConcatenation`. */
  function ExprOperands(n: Node, c: nat): (r: Result<ExprOut, Failure>)
    requires n.Call? || n.Concat?
    ensures r.Ok? ==> ExprOk(r.value, c)
    decreases n, 1
  {
    var vs :- VisitOperands(n, 0, c);
    var count := ChangedCount(vs.results);
    if count == 0 then Ok(ExprOut(Kept, vs.next))
    else
      var m := MapArguments(OperandsOf(n), vs.results, count, 0, vs.next);
      var rv := Temp(m.next);
      Ok(ExprOut(Decomposed(m.stmts + [VarDecl(rv, Some(Rebuild(n, m.operands)))], Some(rv)), m.next + 1))
  }

  /** Every operand of `n` from index `i` on, visited in order. */
  function VisitOperands(n: Node, i: nat, c: nat): (r: Result<OperandsOut, Failure>)
    requires n.Call? || n.Concat?
    requires i <= |OperandsOf(n)|
    ensures r.Ok? ==> OperandsOk(OperandsOf(n)[i..], r.value, c)
    decreases n, 1, |OperandsOf(n)| - i
  {
    if i == |OperandsOf(n)| then Ok(OperandsOut([], c))
    else
      var h :- VisitOperand(n, i, c);
      var t :- VisitOperands(n, i + 1, h.next);
      var rs := [h.result] + t.results;
      assert rs[1..] == t.results;
      assert OperandsOf(n)[i..][1..] == OperandsOf(n)[i + 1..];
      Ok(OperandsOut(rs, t.next))
  }

  ghost predicate OperandsOk(ops: seq<Option<Node>>, o: OperandsOut, c: nat) {
    && |o.results| == |ops|
    && c <= o.next
    && (forall j :: 0 <= j < |ops| ==> (ops[j].None? ==> o.results[j].Kept?))
    && (forall j :: 0 <= j < |ops| ==> FreshVar(o.results[j], c, o.next))
    && (ChangedCount(o.results) == 0 ==> o.next == c)
  }

  function VisitOperand(n: Node, i: nat, c: nat): (r: Result<ExprOut, Failure>)
    requires n.Call? || n.Concat?
    requires i < |OperandsOf(n)|
    ensures r.Ok? ==> ExprOk(r.value, c) && (OperandsOf(n)[i].None? ==> r.value.result.Kept?)
    decreases n, 0
  {
    if n.Concat? then ExprVisit(n.parts[i], c)
    else if i == 0 then ExprOpt(n.dispatch, c)
    else if i == 1 then ExprOpt(n.extension, c)
    else ExprOpt(n.args[i - 2], c)
  }

  /** An optional operand; an absent one is kept. */
  function ExprOpt(o: Option<Node>, c: nat): (r: Result<ExprOut, Failure>)
    ensures r.Ok? ==> ExprOk(r.value, c) && (o.None? ==> r.value.result.Kept?)
    decreases o, 0
  {
    if o.None? then Ok(ExprOut(Kept, c)) else ExprVisit(o.value, c)
  }

  /** The branches of a `when` from index `i` on: each condition with the
      expression visitor, then its body with the visitor of the context. */
  function VisitBranches(n: Node, i: nat, ctx: Context, c: nat): (r: Result<BranchesOut, Failure>)
    requires n.When? && i <= |n.branches|
    ensures r.Ok? ==> BranchesOk(n.branches[i..], ctx, r.value, c)
    decreases n, 1, |n.branches| - i
  {
    if i == |n.branches| then Ok(BranchesOut([], c))
    else
      var h :- VisitBranch(n.branches[i], ctx, c);
      var t :- VisitBranches(n, i + 1, ctx, h.next);
      var vs := [h.visit] + t.visits;
      assert vs[1..] == t.visits;
      assert n.branches[i..][1..] == n.branches[i + 1..];
      Ok(BranchesOut(vs, t.next))
  }

  ghost predicate BranchOk(b: Branch, ctx: Context, v: BranchVisit, lo: nat, hi: nat) {
    && FreshVar(v.cond, lo, hi)
    && (ctx.ExpressionContext? ==> FreshVar(v.body, lo, hi) && v.bodyNode == b.result)
  }

  ghost predicate BranchesOk(bs: seq<Branch>, ctx: Context, o: BranchesOut, c: nat) {
    && |o.visits| == |bs|
    && c <= o.next
    && (forall j :: 0 <= j < |bs| ==> BranchOk(bs[j], ctx, o.visits[j], c, o.next))
  }

  function VisitBranch(b: Branch, ctx: Context, c: nat): (r: Result<BranchOut, Failure>)
    ensures r.Ok? ==> c <= r.value.next && BranchOk(b, ctx, r.value.visit, c, r.value.next)
    decreases b
  {
    var co :- ExprVisit(b.cond, c);
    if ctx.StatementContext? then
      var bo :- StmtVisit(b.result, co.next);
      Ok(BranchOut(BranchVisit(co.result, bo.result, bo.node), bo.next))
    else
      var bo :- ExprVisit(b.result, co.next);
      Ok(BranchOut(BranchVisit(co.result, bo.result, b.result), bo.next))
  }

  // ---------------------------------------------------------------------------
  // The statement visitor.

  /** `transformFlat` with `processStatement` over `s[i..hi]`: a kept statement
      stays (as updated in place), a changed one is replaced by its statements. */
  function LowerRange(s: seq<Node>, i: nat, hi: nat, c: nat): (r: Result<ListOut, Failure>)
    requires i <= hi <= |s|
    ensures r.Ok? ==> c <= r.value.next
    decreases s, 5, hi - i
  {
    if i == hi then Ok(ListOut([], c))
    else
      var h :- StmtVisit(s[i], c);
      var t :- LowerRange(s, i + 1, hi, h.next);
      Ok(ListOut(Emitted(h.result, h.node) + t.stmts, t.next))
  }

  function StmtVisit(n: Node, c: nat): (r: Result<StmtOut, Failure>)
    ensures r.Ok? ==> c <= r.value.next
    decreases n, 3
  {
    match n
    case Container(k, s) =>
      var l :- LowerRange(s, 0, |s|, c);
      Ok(StmtOut(Kept, Container(k, l.stmts), l.next))
    case Return(t, v) =>
      var o :- ExprVisit(v, c);
      Ok(Replace(o, n, Return(t, ValueOf(o.result, v))))
    case Throw(v) =>
      var o :- ExprVisit(v, c);
      Ok(Replace(o, n, Throw(ValueOf(o.result, v))))
    case VarDecl(sym, init) =>
      if init.None? then Ok(StmtOut(Kept, n, c))
      else
        var o :- ExprVisit(init.value, c);
        Ok(Replace(o, n, VarDecl(sym, Some(ValueOf(o.result, init.value)))))
    case FieldDecl(_, init) =>
      if init.None? then Ok(StmtOut(Kept, n, c))
      else
        var o :- ExprVisit(init.value, c);
        if o.result.Changed() then Err(FieldInitializerTodo) else Ok(StmtOut(Kept, n, o.next))
    case SetVariable(sym, v) =>
      var o :- ExprVisit(v, c);
      Ok(Replace(o, n, SetVariable(sym, ValueOf(o.result, v))))
    case SetField(f, recv, v) =>
      var ro :- ExprOpt(recv, c);
      var vo :- ExprVisit(v, ro.next);
      Ok(StmtSetField(n, ro, vo))
    case TypeOp(op, unit, a) =>
      var o :- ExprVisit(a, c);
      Ok(StmtTypeOp(n, o))
    case When(bs) =>
      var vb :- VisitBranches(n, 0, StatementContext, c);
      Ok(StmtWhen(bs, vb))
    case Jump(_, _) => Ok(StmtOut(Kept, n, c))
    case Loop(k, _, _, cond, body) =>
      if k == WhileLoop then
        var co :- ExprVisit(cond, c);
        var bo :- StmtOpt(body, co.next);
        WhileStep(n, co, bo)
      else
        var bo :- StmtOpt(body, c);
        var co :- ExprVisit(cond, bo.next);
        DoWhileStep(n, bo, co)
    case _ =>
      var o :- ExprVisit(n, c);
      Ok(StmtOut(o.result, n, o.next))
  }

  /** An optional loop body with the statement visitor. */
  function StmtOpt(o: Option<Node>, c: nat): (r: Result<OptOut, Failure>)
    ensures r.Ok? ==> c <= r.value.next && r.value.node.Some? == o.Some?
    ensures r.Ok? && o.None? ==> r.value.result.Kept?
    decreases o, 0
  {
    if o.None? then Ok(OptOut(Kept, None, c))
    else
      var s :- StmtVisit(o.value, c);
      Ok(OptOut(s.result, Some(s.node), s.next))
  }

  // ---------------------------------------------------------------------------
  // Assembling the statement visitor's answers from its children's outcomes.

  /** One value was needed (`visitReturn`, `visitThrow`, `visitVariable`,
      `visitSetVariable` of the statement visitor): kept when the value was
      kept, otherwise the value's statements followed by the rebuilt node. */
  function Replace(o: ExprOut, n: Node, rebuilt: Node): (r: StmtOut)
    ensures r.next == o.next && r.node == n
    ensures o.result.Kept? ==> r.result.Kept?
    ensures o.result.Changed() ==> r.result == Decomposed(o.result.stmts + [rebuilt], None)
  {
    if o.result.Kept? then StmtOut(Kept, n, o.next)
    else StmtOut(Decomposed(o.result.stmts + [rebuilt], None), n, o.next)
  }

  /** `visitSetField`: receiver and value are visited in that order and their
      statements emitted in that order; neither is captured in a temporary. */
  function StmtSetField(n: Node, ro: ExprOut, vo: ExprOut): (r: StmtOut)
    requires n.SetField?
    requires n.receiver.None? ==> ro.result.Kept?
    requires FreshVar(ro.result, 0, ro.next) && FreshVar(vo.result, 0, vo.next)
    ensures r.next == vo.next && r.node == n
    ensures r.result.Kept? <==> ro.result.Kept? && vo.result.Kept?
    ensures r.result.Changed() ==>
      && r.result.Decomposed? && r.result.resultVar.None?
      && r.result.stmts == Prelude(ro.result) + Prelude(vo.result)
                           + [SetField(n.field, if n.receiver.None? then None else Some(ValueOf(ro.result, n.receiver.value)),
                                       ValueOf(vo.result, n.value))]
  {
    if ro.result.Kept? && vo.result.Kept? then StmtOut(Kept, n, vo.next)
    else
      var recv := if n.receiver.None? then None else Some(ValueOf(ro.result, n.receiver.value));
      StmtOut(Decomposed(Prelude(ro.result) + Prelude(vo.result) + [SetField(n.field, recv, ValueOf(vo.result, n.value))], None), n, vo.next)
  }

  /** `visitTypeOperator` of the statement visitor: the operator is rebuilt on
      the argument's value; unless its type is Unit its value is kept in a new
      temporary, made after the argument was visited. */
  function StmtTypeOp(n: Node, o: ExprOut): (r: StmtOut)
    requires n.TypeOp?
    requires FreshVar(o.result, 0, o.next)
    ensures o.result.Kept? ==> r == StmtOut(Kept, n, o.next)
    ensures o.result.Changed() ==> r.result.Decomposed? && r.node == n
    ensures o.result.Changed() && n.unitTyped ==> r.next == o.next && r.result.resultVar.None?
    ensures o.result.Changed() && !n.unitTyped ==> r.next == o.next + 1 && r.result.resultVar == Some(Temp(o.next))
    ensures o.result.Changed() && n.unitTyped ==>
      r.result.stmts == o.result.stmts + [TypeOp(n.op, true, ValueOf(o.result, n.arg))]
    ensures o.result.Changed() && !n.unitTyped ==>
      r.result.stmts == o.result.stmts + [VarDecl(Temp(o.next), Some(TypeOp(n.op, false, ValueOf(o.result, n.arg))))]
  {
    if o.result.Kept? then StmtOut(Kept, n, o.next)
    else
      var op := TypeOp(n.op, n.unitTyped, ValueOf(o.result, n.arg));
      if n.unitTyped then StmtOut(Decomposed(o.result.stmts + [op], None), n, o.next)
      else StmtOut(Decomposed(o.result.stmts + [VarDecl(Temp(o.next), Some(op))], Some(Temp(o.next))), n, o.next + 1)
  }

  /** `visitWhen` of the statement visitor. */
  function StmtWhen(bs: seq<Branch>, vb: BranchesOut): (r: StmtOut)
    requires |vb.visits| == |bs| && VisitsWellFormed(StatementContext, vb.visits)
    ensures r.next == vb.next
    ensures r.result.Kept? <==> !AnyChanged(vb.visits)
  {
    if !AnyChanged(vb.visits) then StmtOut(Kept, When(InPlaceBranches(bs, vb.visits)), vb.next)
    else StmtOut(Decomposed([AssembleWhen(StatementContext, bs, vb.visits)], None), When(bs), vb.next)
  }

  // ---------------------------------------------------------------------------
  // Operand capture (`mapArguments` and `prepareArgument`).

  datatype Prepared = Prepared(stmts: seq<Node>, value: Node, next: nat)
  datatype Mapped = Mapped(stmts: seq<Node>, operands: seq<Option<Node>>, next: nat)

  /** `prepareArgument`: a captured operand is stored in a new temporary that is read in its place. */
  function PrepareArgument(arg: Node, needWrap: bool, c: nat): (r: Prepared)
    ensures needWrap ==> r == Prepared([VarDecl(Temp(c), Some(arg))], GetValue(Temp(c)), c + 1)
    ensures !needWrap ==> r == Prepared([], arg, c)
  {
    if needWrap then Prepared([VarDecl(Temp(c), Some(arg))], GetValue(Temp(c)), c + 1) else Prepared([], arg, c)
  }

  /** Each changed outcome belongs to a present operand and names its result. */
  ghost predicate Produced(ops: seq<Option<Node>>, rs: seq<Visit>) {
    && |rs| == |ops|
    && forall j :: 0 <= j < |rs| ==> (rs[j].Changed() ==> ops[j].Some? && rs[j].resultVar.Some?)
  }

  /** `mapArguments`: `decomposed` counts the changed operands already passed;
      an operand is captured while fewer than `toDecompose` have been passed. */
  function MapArguments(ops: seq<Option<Node>>, rs: seq<Visit>, toDecompose: nat, decomposed: nat, c: nat): (r: Mapped)
    requires Produced(ops, rs)
    ensures |r.operands| == |ops| && c <= r.next
    decreases |ops|
  {
    if |ops| == 0 then Mapped([], [], c)
    else
      var needWrap := decomposed < toDecompose;
      var passed := if rs[0].Changed() then decomposed + 1 else decomposed;
      if ops[0].None? then
        var t := MapArguments(ops[1..], rs[1..], toDecompose, passed, c);
        Mapped(t.stmts, [None] + t.operands, t.next)
      else
        var p := PrepareArgument(ValueOf(rs[0], ops[0].value), needWrap, c);
        var t := MapArguments(ops[1..], rs[1..], toDecompose, passed, p.next);
        Mapped(Prelude(rs[0]) + p.stmts + t.stmts, [Some(p.value)] + t.operands, t.next)
  }

  /** The call or concatenation with its operands replaced. */
  function Rebuild(n: Node, ops: seq<Option<Node>>): Node
    requires n.Call? || n.Concat?
    requires n.Call? ==> |ops| >= 2
  {
    if n.Call? then Call(n.callee, ops[0], ops[1], ops[2..])
    else Concat(seq(|ops|, i requires 0 <= i < |ops| => if ops[i].Some? then ops[i].value else NullConst))
  }

  // ---------------------------------------------------------------------------
  // `processWhen`.

  /** Each changed condition, and in expression position each changed body, names its result. */
  ghost predicate VisitsWellFormed(ctx: Context, vs: seq<BranchVisit>) {
    forall j :: 0 <= j < |vs| ==>
      && (vs[j].cond.Changed() ==> vs[j].cond.resultVar.Some?)
      && (ctx.ExpressionContext? && vs[j].body.Changed() ==> vs[j].body.resultVar.Some?)
  }

  predicate CondsChanged(vs: seq<BranchVisit>) {
    exists j :: 0 <= j < |vs| && vs[j].cond.Changed()
  }

  predicate AnyChanged(vs: seq<BranchVisit>) {
    exists j :: 0 <= j < |vs| && (vs[j].cond.Changed() || vs[j].body.Changed())
  }

  /** The kept `when` of the statement visitor, its bodies as lowered in place. */
  function InPlaceBranches(bs: seq<Branch>, vs: seq<BranchVisit>): (r: seq<Branch>)
    requires |vs| == |bs|
    ensures |r| == |bs|
    ensures forall j :: 0 <= j < |bs| ==> r[j] == Branch(bs[j].isElse, bs[j].cond, vs[j].bodyNode)
  {
    seq(|bs|, j requires 0 <= j < |bs| => Branch(bs[j].isElse, bs[j].cond, vs[j].bodyNode))
  }

  /** `bodyBuilder`: in statement position the body's own statements; in
      expression position its statements followed by the assignment of its
      value to the collective temporary. */
  function BodyBuilder(ctx: Context, v: Visit, body: Node): seq<Node>
    requires ctx.ExpressionContext? && v.Changed() ==> v.resultVar.Some?
  {
    match ctx
    case StatementContext => Emitted(v, body)
    case ExpressionContext(coll) => Prelude(v) + [SetVariable(coll, ValueOf(v, body))]
  }

  /** The statement replacing a `when` once its branches are visited: an if/else
      chain in a block when some condition changed, otherwise a `when` with the
      original conditions and block bodies. */
  function AssembleWhen(ctx: Context, bs: seq<Branch>, vs: seq<BranchVisit>): Node
    requires |vs| == |bs| && VisitsWellFormed(ctx, vs)
  {
    if CondsChanged(vs) then Container(Block, Chain(ctx, bs, vs, 0))
    else When(BlockBodies(ctx, bs, vs))
  }

  /** The branches with their original conditions and their bodies built into blocks. */
  function BlockBodies(ctx: Context, bs: seq<Branch>, vs: seq<BranchVisit>): seq<Branch>
    requires |vs| == |bs| && VisitsWellFormed(ctx, vs)
  {
    seq(|bs|, j requires 0 <= j < |bs| =>
          Branch(bs[j].isElse, bs[j].cond, Container(Block, BodyBuilder(ctx, vs[j].body, vs[j].bodyNode))))
  }

  /** The fold of `processWhen` from branch `i` on: the condition's statements,
      then `if (c) { body } else { <rest of the chain> }`; an else branch gets
      no else part, so the branches after it are left out. */
  function Chain(ctx: Context, bs: seq<Branch>, vs: seq<BranchVisit>, i: nat): seq<Node>
    requires |vs| == |bs| && i <= |bs| && VisitsWellFormed(ctx, vs)
    decreases |bs| - i
  {
    if i == |bs| then []
    else
      var elsePart := if bs[i].isElse then None else Some(Container(Block, Chain(ctx, bs, vs, i + 1)));
      ChainLink(ctx, vs[i], bs[i].cond, elsePart)
  }

  /** One link of the chain: the condition's statements, then the `if` testing
      its value, with the body in a block and the rest of the chain as `else`. */
  function ChainLink(ctx: Context, v: BranchVisit, cond: Node, elsePart: Option<Node>): seq<Node>
    requires v.cond.Changed() ==> v.cond.resultVar.Some?
    requires ctx.ExpressionContext? && v.body.Changed() ==> v.body.resultVar.Some?
  {
    Prelude(v.cond) + [IfThenElse(ValueOf(v.cond, cond), Container(Block, BodyBuilder(ctx, v.body, v.bodyNode)), elsePart)]
  }

  // ---------------------------------------------------------------------------
  // Loops.

  /** `visitWhileLoop` once the condition and then the body have been visited. */
  function WhileStep(n: Node, co: ExprOut, bo: OptOut): (r: Result<StmtOut, Failure>)
    requires n.Loop? && FreshVar(co.result, 0, co.next)
    ensures r.Ok? ==> r.value.next == bo.next
  {
    if bo.result.Changed() then Err(LoopBodyNotKept)
    else if co.result.Kept? then Ok(StmtOut(Kept, Loop(n.loopKind, n.id, n.loopLabel, n.cond, bo.node), bo.next))
    else if bo.node.None? then Err(MissingLoopBody)
    else Ok(StmtOut(Decomposed(RewriteWhile(n.id, n.loopLabel, co.result.stmts, co.result.resultVar.value, bo.node.value), None), n, bo.next))
  }

  /** The `while` rewrite: hoisted declarations, then
      `while (true) { condStmts; if (!cv) break; body }` with every jump to the
      old loop redirected to the new one. */
  function RewriteWhile(id: LoopId, lab: Option<Label>, condStmts: seq<Node>, cv: VarSym, body: Node): seq<Node> {
    var split := ConditionSplitter.SplitList(condStmts);
    split.hoisted + [RewrittenWhileLoop(id, lab, split.stmts, cv, body)]
  }

  /** The loop replacing a `while`: condition `true`, its body the condition's
      remaining statements, the exit test and the old body, with jumps to the
      old loop redirected to the new one. */
  function RewrittenWhileLoop(id: LoopId, lab: Option<Label>, stmts: seq<Node>, cv: VarSym, body: Node): Node {
    var newBody := Container(Block, stmts + [ExitTest(cv, id), body]);
    Loop(WhileLoop, Rewritten(id), lab, TrueConst, Some(Retarget(Updater(id, Rewritten(id), Rewritten(id)), newBody)))
  }

  /** The exit test the `while` rewrite puts after the condition's statements. */
  function ExitTest(cv: VarSym, id: LoopId): Node {
    IfThenElse(Call(BooleanNot, None, None, [Some(GetValue(cv))]), Container(Block, [Jump(BreakJump, id)]), None)
  }

  /** `visitDoWhileLoop` once the body and then the condition have been visited. */
  function DoWhileStep(n: Node, bo: OptOut, co: ExprOut): (r: Result<StmtOut, Failure>)
    requires n.Loop? && FreshVar(co.result, 0, co.next)
    ensures r.Ok? ==> co.next <= r.value.next <= co.next + 2
  {
    if bo.result.Changed() then Err(LoopBodyNotKept)
    else if co.result.Kept? then Ok(StmtOut(Kept, Loop(n.loopKind, n.id, n.loopLabel, n.cond, bo.node), co.next))
    else if bo.node.None? then Err(MissingLoopBody)
    else
      var w := RewriteDoWhile(n.id, n.loopLabel, co.result.stmts, co.result.resultVar.value, bo.node.value, co.next);
      Ok(StmtOut(Decomposed(w.stmts, None), n, w.next))
  }

  /** The `do-while` rewrite: hoisted declarations, then
      `outer: do { inner: do { body } while (false); condStmts } while (cv)`.
      The inner label is made first; the outer loop keeps the original label
      or gets the next one.  Jumps to the old loop in the body break out of the
      outer loop and continue with the inner one. */
  function RewriteDoWhile(id: LoopId, lab: Option<Label>, condStmts: seq<Node>, cv: VarSym, body: Node, c: nat): ListOut {
    var split := ConditionSplitter.SplitList(condStmts);
    ListOut(split.hoisted + [DoWhileOuter(id, lab, split.stmts, cv, body, c)], if lab.Some? then c + 1 else c + 2)
  }

  /** The inner loop of the `do-while` rewrite: labelled with the label made
      first, condition `false`, around the redirected body. */
  function DoWhileInner(id: LoopId, body: Node, c: nat): Node {
    Loop(DoWhileLoop, BodyOnce(id), Some(GeneratedLabel(c)), FalseConst, Some(Retarget(Updater(id, Rewritten(id), BodyOnce(id)), body)))
  }

  /** The outer loop of the `do-while` rewrite: the original label or the
      label made second, around the inner loop and the condition's remaining
      statements. */
  function DoWhileOuter(id: LoopId, lab: Option<Label>, stmts: seq<Node>, cv: VarSym, body: Node, c: nat): Node {
    var outerLabel := if lab.Some? then lab.value else GeneratedLabel(c + 1);
    Loop(DoWhileLoop, Rewritten(id), Some(outerLabel), GetValue(cv), Some(Container(Block, [DoWhileInner(id, body, c)] + stmts)))
  }

  // ---------------------------------------------------------------------------
  // The pass.

  /** `lower`: the counter starts at 0 for every function; a block body is
      lowered statement by statement, any other body is left alone. */
  function Lower(f: IrFunction): (r: Result<IrFunction, Failure>)
    ensures r.Ok? ==> r.value.id == f.id && r.value.body.Some? == f.body.Some?
  {
    match f.body
    case Some(BlockBody(s)) =>
      var l :- LowerRange(s, 0, |s|, 0);
      Ok(IrFunction(f.id, Some(BlockBody(l.stmts))))
    case _ => Ok(f)
  }
}

=== FILE: break_continue_updater.dfy ===
/** `BreakContinueUpdater`: after a loop has been replaced, every `break` that
    named the old loop must name `breakLoop` and every `continue` that named
    it must name `continueLoop`.  The walk visits the whole subtree, nested
    loops included, and touches nothing but those jumps. */
module BreakContinueUpdater {
  import opened Wrappers
  import opened Ir

  /** A jump as the tree records it: its kind and the id of the loop it names. */
  datatype JumpRef = JumpRef(kind: JumpKind, loop: LoopId)

  /** `BreakContinueUpdater(breakLoop, continueLoop)` applied with data `oldLoop`. */
  datatype Updater = Updater(oldLoop: LoopId, breakLoop: LoopId, continueLoop: LoopId)

  // ---------------------------------------------------------------------------
  // Reference view: the jumps of a tree, in tree order.

  function Jumps(n: Node): seq<JumpRef> {
    match n
    case VarDecl(_, init) => JumpsOpt(init)
    case FieldDecl(_, init) => JumpsOpt(init)
    case Const(_) => []
    case GetValue(_) => []
    case SetVariable(_, v) => Jumps(v)
    case GetField(_, r) => JumpsOpt(r)
    case SetField(_, r, v) => JumpsOpt(r) + Jumps(v)
    case Call(_, d, e, args) => JumpsOpt(d) + JumpsOpt(e) + JumpsOpts(args)
    case Concat(parts) => JumpsList(parts)
    case TypeOp(_, _, a) => Jumps(a)
    case Container(_, s) => JumpsList(s)
    case When(bs) => JumpsBranches(bs)
    case Return(_, v) => Jumps(v)
    case Throw(v) => Jumps(v)
    case Jump(k, l) => [JumpRef(k, l)]
    case Loop(_, _, _, c, b) => Jumps(c) + JumpsOpt(b)
  }

  function JumpsOpt(o: Option<Node>): seq<JumpRef> {
    if o.Some? then Jumps(o.value) else []
  }

  function JumpsList(s: seq<Node>): seq<JumpRef> {
    if |s| == 0 then [] else Jumps(s[0]) + JumpsList(s[1..])
  }

  function JumpsOpts(s: seq<Option<Node>>): seq<JumpRef> {
    if |s| == 0 then [] else JumpsOpt(s[0]) + JumpsOpts(s[1..])
  }

  function JumpsBranch(b: Branch): seq<JumpRef> {
    Jumps(b.cond) + Jumps(b.result)
  }

  function JumpsBranches(bs: seq<Branch>): seq<JumpRef> {
    if |bs| == 0 then [] else JumpsBranch(bs[0]) + JumpsBranches(bs[1..])
  }

  /** What the updater does to one jump. */
  function Redirect(u: Updater, j: JumpRef): JumpRef {
    if j.loop != u.oldLoop then j
    else if j.kind == BreakJump then JumpRef(BreakJump, u.breakLoop)
    else JumpRef(ContinueJump, u.continueLoop)
  }

  /** `out` is `js` with every jump redirected, position by position. */
  ghost predicate RedirectedFrom(u: Updater, out: seq<JumpRef>, js: seq<JumpRef>) {
    |out| == |js| && forall i :: 0 <= i < |js| ==> out[i] == Redirect(u, js[i])
  }

  // ---------------------------------------------------------------------------
  // The walk.

  lemma RedirectedAppend(u: Updater, o1: seq<JumpRef>, j1: seq<JumpRef>, o2: seq<JumpRef>, j2: seq<JumpRef>)
    requires RedirectedFrom(u, o1, j1) && RedirectedFrom(u, o2, j2)
    ensures RedirectedFrom(u, o1 + o2, j1 + j2)
  {
  }

  function Retarget(u: Updater, n: Node): (r: Node)
    ensures RedirectedFrom(u, Jumps(r), Jumps(n))
  {
    match n
    case VarDecl(s, init) => VarDecl(s, RetargetOpt(u, init))
    case FieldDecl(f, init) => FieldDecl(f, RetargetOpt(u, init))
    case Const(_) => n
    case GetValue(_) => n
    case SetVariable(s, v) => SetVariable(s, Retarget(u, v))
    case GetField(f, r) => GetField(f, RetargetOpt(u, r))
    case SetField(f, r, v) =>
      var r', v' := RetargetOpt(u, r), Retarget(u, v);
      RedirectedAppend(u, JumpsOpt(r'), JumpsOpt(r), Jumps(v'), Jumps(v));
      SetField(f, r', v')
    case Call(c, d, e, args) =>
      var d', e', args' := RetargetOpt(u, d), RetargetOpt(u, e), RetargetOpts(u, args);
      RedirectedAppend(u, JumpsOpt(d'), JumpsOpt(d), JumpsOpt(e'), JumpsOpt(e));
      RedirectedAppend(u, JumpsOpt(d') + JumpsOpt(e'), JumpsOpt(d) + JumpsOpt(e), JumpsOpts(args'), JumpsOpts(args));
      Call(c, d', e', args')
    case Concat(parts) => Concat(RetargetList(u, parts))
    case TypeOp(op, unit, a) => TypeOp(op, unit, Retarget(u, a))
    case Container(k, s) => Container(k, RetargetList(u, s))
    case When(bs) => When(RetargetBranches(u, bs))
    case Return(t, v) => Return(t, Retarget(u, v))
    case Throw(v) => Throw(Retarget(u, v))
    case Jump(k, l) =>
      if l != u.oldLoop then n
      else if k == BreakJump then Jump(k, u.breakLoop)
      else Jump(k, u.continueLoop)
    case Loop(k, id, lab, c, b) =>
      var c', b' := Retarget(u, c), RetargetOpt(u, b);
      RedirectedAppend(u, Jumps(c'), Jumps(c), JumpsOpt(b'), JumpsOpt(b));
      Loop(k, id, lab, c', b')
  }

  function RetargetOpt(u: Updater, o: Option<Node>): (r: Option<Node>)
    ensures r.Some? == o.Some?
    ensures RedirectedFrom(u, JumpsOpt(r), JumpsOpt(o))
  {
    if o.Some? then Some(Retarget(u, o.value)) else None
  }

  function RetargetList(u: Updater, s: seq<Node>): (r: seq<Node>)
    ensures |r| == |s|
    ensures RedirectedFrom(u, JumpsList(r), JumpsList(s))
  {
    if |s| == 0 then []
    else
      var h, t := Retarget(u, s[0]), RetargetList(u, s[1..]);
      var r := [h] + t;
      assert r[0] == h && r[1..] == t;
      RedirectedAppend(u, Jumps(h), Jumps(s[0]), JumpsList(t), JumpsList(s[1..]));
      r
  }

  function RetargetOpts(u: Updater, s: seq<Option<Node>>): (r: seq<Option<Node>>)
    ensures |r| == |s|
    ensures RedirectedFrom(u, JumpsOpts(r), JumpsOpts(s))
  {
    if |s| == 0 then []
    else
      var h, t := RetargetOpt(u, s[0]), RetargetOpts(u, s[1..]);
      var r := [h] + t;
      assert r[0] == h && r[1..] == t;
      RedirectedAppend(u, JumpsOpt(h), JumpsOpt(s[0]), JumpsOpts(t), JumpsOpts(s[1..]));
      r
  }

  function RetargetBranch(u: Updater, b: Branch): (r: Branch)
    ensures r.isElse == b.isElse
    ensures RedirectedFrom(u, JumpsBranch(r), JumpsBranch(b))
  {
    var c, res := Retarget(u, b.cond), Retarget(u, b.result);
    RedirectedAppend(u, Jumps(c), Jumps(b.cond), Jumps(res), Jumps(b.result));
    Branch(b.isElse, c, res)
  }

  function RetargetBranches(u: Updater, bs: seq<Branch>): (r: seq<Branch>)
    ensures |r| == |bs|
    ensures RedirectedFrom(u, JumpsBranches(r), JumpsBranches(bs))
  {
    if |bs| == 0 then []
    else
      var h, t := RetargetBranch(u, bs[0]), RetargetBranches(u, bs[1..]);
      var r := [h] + t;
      assert r[0] == h && r[1..] == t;
      RedirectedAppend(u, JumpsBranch(h), JumpsBranch(bs[0]), JumpsBranches(t), JumpsBranches(bs[1..]));
      r
  }

  // ---------------------------------------------------------------------------
  // The walk neither adds nor removes declarations or labels.

  lemma {:induction false} RetargetKeepsNames(u: Updater, n: Node)
    ensures GenNames(Retarget(u, n)) == GenNames(n)
    decreases n, 1
  {
    if n.VarDecl? || n.FieldDecl? || n.SetVariable? || n.GetField? || n.SetField? {
      RetargetAccessKeepsNames(u, n);
    } else if n.Call? || n.Concat? || n.TypeOp? || n.Container? || n.When? {
      RetargetOperandsKeepsNames(u, n);
    } else {
      RetargetControlKeepsNames(u, n);
    }
  }

  /** `RetargetKeepsNames` for declarations, assignments and field accesses. */
  lemma {:induction false} RetargetAccessKeepsNames(u: Updater, n: Node)
    requires n.VarDecl? || n.FieldDecl? || n.SetVariable? || n.GetField? || n.SetField?
    ensures GenNames(Retarget(u, n)) == GenNames(n)
    decreases n, 0
  {
    match n
    case VarDecl(s, init) =>
      RetargetOptKeepsNames(u, init);
      assert Retarget(u, n) == VarDecl(s, RetargetOpt(u, init));
    case FieldDecl(f, init) =>
      RetargetOptKeepsNames(u, init);
      assert Retarget(u, n) == FieldDecl(f, RetargetOpt(u, init));
    case SetVariable(s, v) =>
      RetargetKeepsNames(u, v);
      assert Retarget(u, n) == SetVariable(s, Retarget(u, v));
    case GetField(f, r) =>
      RetargetOptKeepsNames(u, r);
      assert Retarget(u, n) == GetField(f, RetargetOpt(u, r));
    case SetField(f, r, v) =>
      RetargetOptKeepsNames(u, r); RetargetKeepsNames(u, v);
      assert Retarget(u, n) == SetField(f, RetargetOpt(u, r), Retarget(u, v));
  }

  /** `RetargetKeepsNames` for calls, concatenations, type operators, containers and `when`. */
  lemma {:induction false} RetargetOperandsKeepsNames(u: Updater, n: Node)
    requires n.Call? || n.Concat? || n.TypeOp? || n.Container? || n.When?
    ensures GenNames(Retarget(u, n)) == GenNames(n)
    decreases n, 0
  {
    match n
    case Call(c, d, e, args) =>
      RetargetOptKeepsNames(u, d); RetargetOptKeepsNames(u, e); RetargetOptsKeepsNames(u, args);
      RetargetCallKeepsNames(u, n);
    case Concat(parts) => RetargetListKeepsNames(u, parts); RetargetConcatKeepsNames(u, n);
    case TypeOp(_, _, a) => RetargetKeepsNames(u, a); RetargetTypeOpKeepsNames(u, n);
    case Container(_, st) => RetargetListKeepsNames(u, st); RetargetContainerKeepsNames(u, n);
    case When(bs) => RetargetBranchesKeepsNames(u, bs); RetargetWhenKeepsNames(u, n);
  }

  /** The `Concat` step of `RetargetKeepsNames`, given the fact for its parts. */
  lemma RetargetConcatKeepsNames(u: Updater, n: Node)
    requires n.Concat? && GenNamesList(RetargetList(u, n.parts)) == GenNamesList(n.parts)
    ensures GenNames(Retarget(u, n)) == GenNames(n)
  {
    var p := RetargetList(u, n.parts);
    assert Retarget(u, n) == Concat(p);
    assert GenNames(Concat(p)) == GenNamesList(p);
  }

  /** The type-operator step of `RetargetKeepsNames`, given the fact for its operand. */
  lemma RetargetTypeOpKeepsNames(u: Updater, n: Node)
    requires n.TypeOp? && GenNames(Retarget(u, n.arg)) == GenNames(n.arg)
    ensures GenNames(Retarget(u, n)) == GenNames(n)
  {
    var a := Retarget(u, n.arg);
    assert Retarget(u, n) == TypeOp(n.op, n.unitTyped, a);
    assert GenNames(TypeOp(n.op, n.unitTyped, a)) == GenNames(a);
  }

  /** The container step of `RetargetKeepsNames`, given the fact for its statements. */
  lemma RetargetContainerKeepsNames(u: Updater, n: Node)
    requires n.Container? && GenNamesList(RetargetList(u, n.stmts)) == GenNamesList(n.stmts)
    ensures GenNames(Retarget(u, n)) == GenNames(n)
  {
    var st := RetargetList(u, n.stmts);
    assert Retarget(u, n) == Container(n.kind, st);
    assert GenNames(Container(n.kind, st)) == GenNamesList(st);
  }

  /** The `when` step of `RetargetKeepsNames`, given the fact for its branches. */
  lemma RetargetWhenKeepsNames(u: Updater, n: Node)
    requires n.When? && GenNamesBranches(RetargetBranches(u, n.branches)) == GenNamesBranches(n.branches)
    ensures GenNames(Retarget(u, n)) == GenNames(n)
  {
    var bs := RetargetBranches(u, n.branches);
    assert Retarget(u, n) == When(bs);
    assert GenNames(When(bs)) == GenNamesBranches(bs);
  }

  /** The `Call` step of `RetargetKeepsNames`, given the facts for its operands. */
  lemma RetargetCallKeepsNames(u: Updater, n: Node)
    requires n.Call?
    requires GenNamesOpt(RetargetOpt(u, n.dispatch)) == GenNamesOpt(n.dispatch)
    requires GenNamesOpt(RetargetOpt(u, n.extension)) == GenNamesOpt(n.extension)
    requires GenNamesOpts(RetargetOpts(u, n.args)) == GenNamesOpts(n.args)
    ensures GenNames(Retarget(u, n)) == GenNames(n)
  {
    var d', e', args' := RetargetOpt(u, n.dispatch), RetargetOpt(u, n.extension), RetargetOpts(u, n.args);
    assert Retarget(u, n) == Call(n.callee, d', e', args');
    assert GenNames(Call(n.callee, d', e', args')) == GenNamesOpt(d') + GenNamesOpt(e') + GenNamesOpts(args');
    assert GenNames(n) == GenNamesOpt(n.dispatch) + GenNamesOpt(n.extension) + GenNamesOpts(n.args);
  }

  /** `RetargetKeepsNames` for leaves, exits, jumps and loops. */
  lemma {:induction false} RetargetControlKeepsNames(u: Updater, n: Node)
    requires !(n.VarDecl? || n.FieldDecl? || n.SetVariable? || n.GetField? || n.SetField?)
    requires !(n.Call? || n.Concat? || n.TypeOp? || n.Container? || n.When?)
    ensures GenNames(Retarget(u, n)) == GenNames(n)
    decreases n, 0
  {
    match n
    case Return(t, v) =>
      RetargetKeepsNames(u, v);
      assert Retarget(u, n) == Return(t, Retarget(u, v));
    case Throw(v) =>
      RetargetKeepsNames(u, v);
      assert Retarget(u, n) == Throw(Retarget(u, v));
    case Loop(k, id, lab, c, b) =>
      RetargetKeepsNames(u, c); RetargetOptKeepsNames(u, b);
      assert Retarget(u, n) == Loop(k, id, lab, Retarget(u, c), RetargetOpt(u, b));
    case _ =>
  }

  lemma {:induction false} RetargetOptKeepsNames(u: Updater, o: Option<Node>)
    ensures GenNamesOpt(RetargetOpt(u, o)) == GenNamesOpt(o)
    decreases o
  {
    if o.Some? {
      RetargetKeepsNames(u, o.value);
    }
  }

  lemma {:induction false} RetargetListKeepsNames(u: Updater, s: seq<Node>)
    ensures GenNamesList(RetargetList(u, s)) == GenNamesList(s)
    decreases s
  {
    if |s| > 0 {
      var r := RetargetList(u, s);
      assert r[0] == Retarget(u, s[0]) && r[1..] == RetargetList(u, s[1..]);
      RetargetKeepsNames(u, s[0]);
      RetargetListKeepsNames(u, s[1..]);
    }
  }

  lemma {:induction false} RetargetOptsKeepsNames(u: Updater, s: seq<Option<Node>>)
    ensures GenNamesOpts(RetargetOpts(u, s)) == GenNamesOpts(s)
    decreases s
  {
    if |s| > 0 {
      var r := RetargetOpts(u, s);
      assert r[0] == RetargetOpt(u, s[0]) && r[1..] == RetargetOpts(u, s[1..]);
      RetargetOptKeepsNames(u, s[0]);
      RetargetOptsKeepsNames(u, s[1..]);
    }
  }

  lemma {:induction false} RetargetBranchesKeepsNames(u: Updater, bs: seq<Branch>)
    ensures GenNamesBranches(RetargetBranches(u, bs)) == GenNamesBranches(bs)
    decreases bs
  {
    if |bs| > 0 {
      var r := RetargetBranches(u, bs);
      assert r[0] == RetargetBranch(u, bs[0]) && r[1..] == RetargetBranches(u, bs[1..]);
      RetargetBranchKeepsNames(u, bs[0]);
      RetargetBranchesKeepsNames(u, bs[1..]);
    }
  }

  lemma {:induction false} RetargetBranchKeepsNames(u: Updater, b: Branch)
    ensures GenNamesBranch(RetargetBranch(u, b)) == GenNamesBranch(b)
    decreases b
  {
    RetargetKeepsNames(u, b.cond);
    RetargetKeepsNames(u, b.result);
  }

  /** Once the walk is done, no jump names the old loop any more (provided
      neither replacement is the old loop itself), and a jump that named any
      other loop still names it. */
  lemma RetargetLeavesNoJumpToOld(u: Updater, n: Node)
    requires u.breakLoop != u.oldLoop && u.continueLoop != u.oldLoop
    ensures forall j :: j in Jumps(Retarget(u, n)) ==> j.loop != u.oldLoop
    ensures forall i :: 0 <= i < |Jumps(n)| && Jumps(n)[i].loop != u.oldLoop ==>
              Jumps(Retarget(u, n))[i] == Jumps(n)[i]
  {
    var out := Jumps(Retarget(u, n));
    forall j | j in out
      ensures j.loop != u.oldLoop
    {
      var i :| 0 <= i < |out| && out[i] == j;
    }
  }

  // ---------------------------------------------------------------------------
  // Nothing but the jumps to the old loop changes.

  /** No jump in `js` names loop `id`. */
  ghost predicate NoJumpTo(js: seq<JumpRef>, id: LoopId) {
    forall i :: 0 <= i < |js| ==> js[i].loop != id
  }

  lemma NoJumpToParts(a: seq<JumpRef>, b: seq<JumpRef>, id: LoopId)
    requires NoJumpTo(a + b, id)
    ensures NoJumpTo(a, id) && NoJumpTo(b, id)
  {
    assert forall i :: 0 <= i < |a| ==> a[i] == (a + b)[i];
    assert forall i :: 0 <= i < |b| ==> b[i] == (a + b)[|a| + i];
  }

  /** A tree in which no jump names the old loop comes back unchanged. */
  lemma {:induction false} RetargetIdentity(u: Updater, n: Node)
    requires NoJumpTo(Jumps(n), u.oldLoop)
    ensures Retarget(u, n) == n
  {
    match n
    case VarDecl(_, init) => RetargetOptIdentity(u, init);
    case FieldDecl(_, init) => RetargetOptIdentity(u, init);
    case Const(_) =>
    case GetValue(_) =>
    case SetVariable(_, v) => RetargetIdentity(u, v);
    case GetField(_, r) => RetargetOptIdentity(u, r);
    case SetField(_, r, v) =>
      NoJumpToParts(JumpsOpt(r), Jumps(v), u.oldLoop);
      RetargetOptIdentity(u, r); RetargetIdentity(u, v);
    case Call(_, d, e, args) =>
      NoJumpToParts(JumpsOpt(d) + JumpsOpt(e), JumpsOpts(args), u.oldLoop);
      NoJumpToParts(JumpsOpt(d), JumpsOpt(e), u.oldLoop);
      RetargetOptIdentity(u, d); RetargetOptIdentity(u, e); RetargetOptsIdentity(u, args);
    case Concat(parts) => RetargetListIdentity(u, parts);
    case TypeOp(_, _, a) => RetargetIdentity(u, a);
    case Container(_, s) => RetargetListIdentity(u, s);
    case When(bs) => RetargetBranchesIdentity(u, bs);
    case Return(_, v) => RetargetIdentity(u, v);
    case Throw(v) => RetargetIdentity(u, v);
    case Jump(_, _) => assert Jumps(n)[0].loop != u.oldLoop;
    case Loop(_, _, _, c, b) =>
      NoJumpToParts(Jumps(c), JumpsOpt(b), u.oldLoop);
      RetargetIdentity(u, c); RetargetOptIdentity(u, b);
  }

  lemma {:induction false} RetargetOptIdentity(u: Updater, o: Option<Node>)
    requires NoJumpTo(JumpsOpt(o), u.oldLoop)
    ensures RetargetOpt(u, o) == o
  {
    if o.Some? {
      RetargetIdentity(u, o.value);
    }
  }

  lemma {:induction false} RetargetListIdentity(u: Updater, s: seq<Node>)
    requires NoJumpTo(JumpsList(s), u.oldLoop)
    ensures RetargetList(u, s) == s
  {
    if |s| > 0 {
      NoJumpToParts(Jumps(s[0]), JumpsList(s[1..]), u.oldLoop);
      RetargetIdentity(u, s[0]);
      RetargetListIdentity(u, s[1..]);
      assert [s[0]] + s[1..] == s;
    }
  }

  lemma {:induction false} RetargetOptsIdentity(u: Updater, s: seq<Option<Node>>)
    requires NoJumpTo(JumpsOpts(s), u.oldLoop)
    ensures RetargetOpts(u, s) == s
  {
    if |s| > 0 {
      NoJumpToParts(JumpsOpt(s[0]), JumpsOpts(s[1..]), u.oldLoop);
      RetargetOptIdentity(u, s[0]);
      RetargetOptsIdentity(u, s[1..]);
      assert [s[0]] + s[1..] == s;
    }
  }

  lemma {:induction false} RetargetBranchesIdentity(u: Updater, bs: seq<Branch>)
    requires NoJumpTo(JumpsBranches(bs), u.oldLoop)
    ensures RetargetBranches(u, bs) == bs
  {
    if |bs| > 0 {
      NoJumpToParts(JumpsBranch(bs[0]), JumpsBranches(bs[1..]), u.oldLoop);
      RetargetBranchIdentity(u, bs[0]);
      RetargetBranchesIdentity(u, bs[1..]);
      assert [bs[0]] + bs[1..] == bs;
    }
  }

  lemma {:induction false} RetargetBranchIdentity(u: Updater, b: Branch)
    requires NoJumpTo(JumpsBranch(b), u.oldLoop)
    ensures RetargetBranch(u, b) == b
  {
    NoJumpToParts(Jumps(b.cond), Jumps(b.result), u.oldLoop);
    RetargetIdentity(u, b.cond);
    RetargetIdentity(u, b.result);
  }

  /** Retargeting a list is retargeting its two halves. */
  lemma {:induction false} RetargetListSplit(u: Updater, a: seq<Node>, b: seq<Node>)
    ensures RetargetList(u, a + b) == RetargetList(u, a) + RetargetList(u, b)
    decreases |a|
  {
    if |a| == 0 {
      assert a + b == b;
    } else {
      ConcatTail(a, b);
      RetargetListSplit(u, a[1..], b);
      RetargetListCons(u, a + b);
      RetargetListCons(u, a);
      ConsAssoc(Retarget(u, a[0]), RetargetList(u, a + b), RetargetList(u, a[1..] + b), RetargetList(u, a),
                RetargetList(u, a[1..]), RetargetList(u, b));
    }
  }

  lemma ConsAssoc(x: Node, whole: seq<Node>, p: seq<Node>, left: seq<Node>, q: seq<Node>, r: seq<Node>)
    requires whole == [x] + p && p == q + r && left == [x] + q
    ensures whole == left + r
  {
  }

  lemma ConcatTail(a: seq<Node>, b: seq<Node>)
    requires |a| > 0
    ensures (a + b)[0] == a[0] && (a + b)[1..] == a[1..] + b
  {
  }

  lemma RetargetListCons(u: Updater, s: seq<Node>)
    requires |s| > 0
    ensures RetargetList(u, s) == [Retarget(u, s[0])] + RetargetList(u, s[1..])
  {
  }

  // ---------------------------------------------------------------------------
  // Only jump targets change: with every jump sent to one fixed loop, a tree
  // and its retargeted copy are equal.

  /** The loop every jump names once jump targets are erased. */
  const ErasedLoop: LoopId := SourceLoop(0)

  /** The tree with every `break` and `continue` naming `ErasedLoop`. */
  function EraseJumps(n: Node): Node {
    match n
    case VarDecl(s, init) => VarDecl(s, EraseOpt(init))
    case FieldDecl(f, init) => FieldDecl(f, EraseOpt(init))
    case Const(_) => n
    case GetValue(_) => n
    case SetVariable(s, v) => SetVariable(s, EraseJumps(v))
    case GetField(f, r) => GetField(f, EraseOpt(r))
    case SetField(f, r, v) => SetField(f, EraseOpt(r), EraseJumps(v))
    case Call(c, d, e, args) => Call(c, EraseOpt(d), EraseOpt(e), EraseOpts(args))
    case Concat(parts) => Concat(EraseList(parts))
    case TypeOp(op, unit, a) => TypeOp(op, unit, EraseJumps(a))
    case Container(k, s) => Container(k, EraseList(s))
    case When(bs) => When(EraseBranches(bs))
    case Return(t, v) => Return(t, EraseJumps(v))
    case Throw(v) => Throw(EraseJumps(v))
    case Jump(k, _) => Jump(k, ErasedLoop)
    case Loop(k, id, lab, c, b) => Loop(k, id, lab, EraseJumps(c), EraseOpt(b))
  }

  function EraseOpt(o: Option<Node>): Option<Node> {
    if o.Some? then Some(EraseJumps(o.value)) else None
  }

  function EraseList(s: seq<Node>): seq<Node> {
    if |s| == 0 then [] else [EraseJumps(s[0])] + EraseList(s[1..])
  }

  function EraseOpts(s: seq<Option<Node>>): seq<Option<Node>> {
    if |s| == 0 then [] else [EraseOpt(s[0])] + EraseOpts(s[1..])
  }

  function EraseBranch(b: Branch): Branch {
    Branch(b.isElse, EraseJumps(b.cond), EraseJumps(b.result))
  }

  function EraseBranches(bs: seq<Branch>): seq<Branch> {
    if |bs| == 0 then [] else [EraseBranch(bs[0])] + EraseBranches(bs[1..])
  }

  /** The updater changes nothing but the loops jumps name: kinds of nodes,
      symbols, labels, loop ids, operand order and every jump's kind stay. */
  lemma {:induction false} RetargetOnlyJumps(u: Updater, n: Node)
    ensures EraseJumps(Retarget(u, n)) == EraseJumps(n)
  {
    match n
    case VarDecl(_, init) => RetargetOptOnlyJumps(u, init);
    case FieldDecl(_, init) => RetargetOptOnlyJumps(u, init);
    case Const(_) =>
    case GetValue(_) =>
    case SetVariable(_, v) => RetargetOnlyJumps(u, v);
    case GetField(_, r) => RetargetOptOnlyJumps(u, r);
    case SetField(_, r, v) => RetargetOptOnlyJumps(u, r); RetargetOnlyJumps(u, v);
    case Call(_, d, e, args) =>
      RetargetOptOnlyJumps(u, d); RetargetOptOnlyJumps(u, e); RetargetOptsOnlyJumps(u, args);
    case Concat(parts) => RetargetListOnlyJumps(u, parts);
    case TypeOp(_, _, a) => RetargetOnlyJumps(u, a);
    case Container(_, st) => RetargetListOnlyJumps(u, st);
    case When(bs) => RetargetBranchesOnlyJumps(u, bs);
    case Return(_, v) => RetargetOnlyJumps(u, v);
    case Throw(v) => RetargetOnlyJumps(u, v);
    case Jump(_, _) =>
    case Loop(_, _, _, c, b) => RetargetOnlyJumps(u, c); RetargetOptOnlyJumps(u, b);
  }

  lemma {:induction false} RetargetOptOnlyJumps(u: Updater, o: Option<Node>)
    ensures EraseOpt(RetargetOpt(u, o)) == EraseOpt(o)
  {
    if o.Some? {
      RetargetOnlyJumps(u, o.value);
    }
  }

  lemma {:induction false} RetargetListOnlyJumps(u: Updater, s: seq<Node>)
    ensures EraseList(RetargetList(u, s)) == EraseList(s)
  {
    if |s| > 0 {
      var r := RetargetList(u, s);
      RetargetListCons(u, s);
      assert r[0] == Retarget(u, s[0]) && r[1..] == RetargetList(u, s[1..]);
      RetargetOnlyJumps(u, s[0]);
      RetargetListOnlyJumps(u, s[1..]);
    }
  }

  lemma {:induction false} RetargetOptsOnlyJumps(u: Updater, s: seq<Option<Node>>)
    ensures EraseOpts(RetargetOpts(u, s)) == EraseOpts(s)
  {
    if |s| > 0 {
      var r := RetargetOpts(u, s);
      assert r == [RetargetOpt(u, s[0])] + RetargetOpts(u, s[1..]);
      assert r[0] == RetargetOpt(u, s[0]) && r[1..] == RetargetOpts(u, s[1..]);
      RetargetOptOnlyJumps(u, s[0]);
      RetargetOptsOnlyJumps(u, s[1..]);
    }
  }

  lemma {:induction false} RetargetBranchesOnlyJumps(u: Updater, bs: seq<Branch>)
    ensures EraseBranches(RetargetBranches(u, bs)) == EraseBranches(bs)
  {
    if |bs| > 0 {
      var r := RetargetBranches(u, bs);
      assert r == [RetargetBranch(u, bs[0])] + RetargetBranches(u, bs[1..]);
      assert r[0] == RetargetBranch(u, bs[0]) && r[1..] == RetargetBranches(u, bs[1..]);
      RetargetBranchOnlyJumps(u, bs[0]);
      RetargetBranchesOnlyJumps(u, bs[1..]);
    }
  }

  lemma {:induction false} RetargetBranchOnlyJumps(u: Updater, b: Branch)
    ensures EraseBranch(RetargetBranch(u, b)) == EraseBranch(b)
  {
    RetargetOnlyJumps(u, b.cond);
    RetargetOnlyJumps(u, b.result);
  }
}

=== FILE: condition_splitter.dfy ===
/** `ConditionSplitter`: the statements a decomposed loop condition produced
    are moved into the loop body, but the variables they declare must stay
    visible across iterations.  Every declaration found in a statement list,
    nested containers included, is moved to a list of hoisted declarations
    without its initializer; where it stood, an assignment of the initializer
    takes its place, or nothing when it had none.  An initializer that moves
    into such an assignment is not searched. */
module ConditionSplitter {
  import opened Wrappers
  import opened Ir

  /** The hoisted declarations and the rewritten statement list. */
  datatype Split = Split(hoisted: seq<Node>, stmts: seq<Node>)

  /** The hoisted declarations and the rewritten node. */
  datatype SplitOne = SplitOne(hoisted: seq<Node>, node: Node)

  /** Every element is a declaration without initializer. */
  ghost predicate BareDecls(s: seq<Node>) {
    forall i :: 0 <= i < |s| ==> s[i].VarDecl? && s[i].init.None?
  }

  /** `run`: `transformFlat` with `lowerStatements` over a statement list. */
  function SplitList(s: seq<Node>): (r: Split)
    ensures BareDecls(r.hoisted)
    ensures forall i :: 0 <= i < |r.stmts| ==> !r.stmts[i].VarDecl?
  {
    if |s| == 0 then Split([], [])
    else
      var h := SplitStatement(s[0]);
      var t := SplitList(s[1..]);
      Split(h.hoisted + t.hoisted, h.stmts + t.stmts)
  }

  /** `lowerStatements`: a declaration becomes an assignment of its initializer
      (or disappears) and is hoisted; any other statement is searched. */
  function SplitStatement(n: Node): (r: Split)
    ensures BareDecls(r.hoisted)
    ensures forall i :: 0 <= i < |r.stmts| ==> !r.stmts[i].VarDecl?
    decreases n, 1
  {
    match n
    case VarDecl(sym, init) =>
      Split([VarDecl(sym, None)], if init.Some? then [SetVariable(sym, init.value)] else [])
    case _ =>
      var o := SplitNode(n);
      Split(o.hoisted, [o.node])
  }

  /** The transformer's walk over one node: containers get their statement lists
      split, every other node has its children walked in place. */
  function SplitNode(n: Node): (r: SplitOne)
    ensures BareDecls(r.hoisted)
    decreases n, 0
  {
    match n
    case VarDecl(sym, init) =>
      var o := SplitOpt(init);
      SplitOne(o.hoisted, VarDecl(sym, o.node))
    case FieldDecl(f, init) =>
      var o := SplitOpt(init);
      SplitOne(o.hoisted, FieldDecl(f, o.node))
    case Const(_) => SplitOne([], n)
    case GetValue(_) => SplitOne([], n)
    case SetVariable(sym, v) =>
      var o := SplitNode(v);
      SplitOne(o.hoisted, SetVariable(sym, o.node))
    case GetField(f, recv) =>
      var o := SplitOpt(recv);
      SplitOne(o.hoisted, GetField(f, o.node))
    case SetField(f, recv, v) =>
      var o1 := SplitOpt(recv);
      var o2 := SplitNode(v);
      SplitOne(o1.hoisted + o2.hoisted, SetField(f, o1.node, o2.node))
    case Call(callee, d, e, args) =>
      var o1 := SplitOpt(d);
      var o2 := SplitOpt(e);
      var o3 := SplitOpts(args);
      SplitOne(o1.hoisted + o2.hoisted + o3.hoisted, Call(callee, o1.node, o2.node, o3.nodes))
    case Concat(parts) =>
      var o := SplitEach(parts);
      SplitOne(o.hoisted, Concat(o.stmts))
    case TypeOp(op, unit, a) =>
      var o := SplitNode(a);
      SplitOne(o.hoisted, TypeOp(op, unit, o.node))
    case Container(k, s) =>
      var o := SplitList(s);
      SplitOne(o.hoisted, Container(k, o.stmts))
    case When(bs) =>
      var o := SplitBranches(bs);
      SplitOne(o.hoisted, When(o.branches))
    case Return(t, v) =>
      var o := SplitNode(v);
      SplitOne(o.hoisted, Return(t, o.node))
    case Throw(v) =>
      var o := SplitNode(v);
      SplitOne(o.hoisted, Throw(o.node))
    case Jump(_, _) => SplitOne([], n)
    case Loop(k, id, lab, c, b) =>
      var oc := SplitNode(c);
      var ob := SplitOpt(b);
      SplitOne(if k == WhileLoop then oc.hoisted + ob.hoisted else ob.hoisted + oc.hoisted,
               Loop(k, id, lab, oc.node, ob.node))
  }

  datatype SplitOptOut = SplitOptOut(hoisted: seq<Node>, node: Option<Node>)
  datatype SplitOptsOut = SplitOptsOut(hoisted: seq<Node>, nodes: seq<Option<Node>>)
  datatype SplitBranchesOut = SplitBranchesOut(hoisted: seq<Node>, branches: seq<Branch>)

  function SplitOpt(o: Option<Node>): (r: SplitOptOut)
    ensures BareDecls(r.hoisted)
    ensures r.node.Some? == o.Some?
  {
    if o.Some? then
      var x := SplitNode(o.value);
      SplitOptOut(x.hoisted, Some(x.node))
    else SplitOptOut([], None)
  }

  /** Expression operands walked in place (not a statement list: no declaration is replaced). */
  function SplitEach(s: seq<Node>): (r: Split)
    ensures BareDecls(r.hoisted)
    ensures |r.stmts| == |s|
  {
    if |s| == 0 then Split([], [])
    else
      var h := SplitNode(s[0]);
      var t := SplitEach(s[1..]);
      Split(h.hoisted + t.hoisted, [h.node] + t.stmts)
  }

  function SplitOpts(s: seq<Option<Node>>): (r: SplitOptsOut)
    ensures BareDecls(r.hoisted)
    ensures |r.nodes| == |s|
  {
    if |s| == 0 then SplitOptsOut([], [])
    else
      var h := SplitOpt(s[0]);
      var t := SplitOpts(s[1..]);
      SplitOptsOut(h.hoisted + t.hoisted, [h.node] + t.nodes)
  }

  function SplitBranch(b: Branch): (r: SplitBranchesOut)
    ensures BareDecls(r.hoisted)
    ensures |r.branches| == 1
  {
    var c := SplitNode(b.cond);
    var res := SplitNode(b.result);
    SplitBranchesOut(c.hoisted + res.hoisted, [Branch(b.isElse, c.node, res.node)])
  }

  function SplitBranches(bs: seq<Branch>): (r: SplitBranchesOut)
    ensures BareDecls(r.hoisted)
    ensures |r.branches| == |bs|
  {
    if |bs| == 0 then SplitBranchesOut([], [])
    else
      var h := SplitBranch(bs[0]);
      var t := SplitBranches(bs[1..]);
      SplitBranchesOut(h.hoisted + t.hoisted, h.branches + t.branches)
  }

  // ---------------------------------------------------------------------------
  // Reference view: the declarations the walk will find, in the order it meets them.

  function SitesList(s: seq<Node>): seq<VarSym> {
    if |s| == 0 then []
    else (if s[0].VarDecl? then [s[0].sym] else Sites(s[0])) + SitesList(s[1..])
  }

  function Sites(n: Node): seq<VarSym> {
    match n
    case VarDecl(_, init) => SitesOpt(init)
    case FieldDecl(_, init) => SitesOpt(init)
    case Const(_) => []
    case GetValue(_) => []
    case SetVariable(_, v) => Sites(v)
    case GetField(_, r) => SitesOpt(r)
    case SetField(_, r, v) => SitesOpt(r) + Sites(v)
    case Call(_, d, e, args) => SitesOpt(d) + SitesOpt(e) + SitesOpts(args)
    case Concat(parts) => SitesEach(parts)
    case TypeOp(_, _, a) => Sites(a)
    case Container(_, s) => SitesList(s)
    case When(bs) => SitesBranches(bs)
    case Return(_, v) => Sites(v)
    case Throw(v) => Sites(v)
    case Jump(_, _) => []
    case Loop(k, _, _, c, b) => if k == WhileLoop then Sites(c) + SitesOpt(b) else SitesOpt(b) + Sites(c)
  }

  function SitesOpt(o: Option<Node>): seq<VarSym> {
    if o.Some? then Sites(o.value) else []
  }

  function SitesEach(s: seq<Node>): seq<VarSym> {
    if |s| == 0 then [] else Sites(s[0]) + SitesEach(s[1..])
  }

  function SitesOpts(s: seq<Option<Node>>): seq<VarSym> {
    if |s| == 0 then [] else SitesOpt(s[0]) + SitesOpts(s[1..])
  }

  function SitesBranch(b: Branch): seq<VarSym> {
    Sites(b.cond) + Sites(b.result)
  }

  function SitesBranches(bs: seq<Branch>): seq<VarSym> {
    if |bs| == 0 then [] else SitesBranch(bs[0]) + SitesBranches(bs[1..])
  }

  /** The symbols of a list of declarations. */
  function Syms(s: seq<Node>): seq<VarSym>
    requires forall i :: 0 <= i < |s| ==> s[i].VarDecl?
  {
    seq(|s|, i requires 0 <= i < |s| => s[i].sym)
  }

  lemma SymsAppend(a: seq<Node>, b: seq<Node>)
    requires BareDecls(a) && BareDecls(b)
    ensures BareDecls(a + b)
    ensures Syms(a + b) == Syms(a) + Syms(b)
  {
  }

  // ---------------------------------------------------------------------------
  // The hoisted declarations are exactly the declarations of the reference
  // view, in the same order, each stripped of its initializer.

  lemma {:induction false} SplitListHoistsSites(s: seq<Node>)
    ensures Syms(SplitList(s).hoisted) == SitesList(s)
  {
    if |s| > 0 {
      SplitStatementHoistsSites(s[0]);
      SplitListHoistsSites(s[1..]);
      SymsAppend(SplitStatement(s[0]).hoisted, SplitList(s[1..]).hoisted);
    }
  }

  lemma {:induction false} SplitStatementHoistsSites(n: Node)
    ensures Syms(SplitStatement(n).hoisted) == if n.VarDecl? then [n.sym] else Sites(n)
    decreases n, 1
  {
    if !n.VarDecl? {
      SplitNodeHoistsSites(n);
    }
  }

  lemma {:induction false} SplitNodeHoistsSites(n: Node)
    ensures Syms(SplitNode(n).hoisted) == Sites(n)
    decreases n, 0
  {
    match n
    case VarDecl(_, init) => SplitOptHoistsSites(init);
    case FieldDecl(_, init) => SplitOptHoistsSites(init);
    case Const(_) =>
    case GetValue(_) =>
    case SetVariable(_, v) => SplitNodeHoistsSites(v);
    case GetField(_, r) => SplitOptHoistsSites(r);
    case SetField(_, r, v) =>
      SplitOptHoistsSites(r); SplitNodeHoistsSites(v);
      SymsAppend(SplitOpt(r).hoisted, SplitNode(v).hoisted);
    case Call(_, d, e, args) =>
      SplitOptHoistsSites(d); SplitOptHoistsSites(e); SplitOptsHoistsSites(args);
      SymsAppend(SplitOpt(d).hoisted, SplitOpt(e).hoisted);
      SymsAppend(SplitOpt(d).hoisted + SplitOpt(e).hoisted, SplitOpts(args).hoisted);
    case Concat(parts) => SplitEachHoistsSites(parts);
    case TypeOp(_, _, a) => SplitNodeHoistsSites(a);
    case Container(_, st) => SplitListHoistsSites(st);
    case When(bs) => SplitBranchesHoistsSites(bs);
    case Return(_, v) => SplitNodeHoistsSites(v);
    case Throw(v) => SplitNodeHoistsSites(v);
    case Jump(_, _) =>
    case Loop(_, _, _, c, b) =>
      SplitNodeHoistsSites(c); SplitOptHoistsSites(b);
      SymsAppend(SplitNode(c).hoisted, SplitOpt(b).hoisted);
      SymsAppend(SplitOpt(b).hoisted, SplitNode(c).hoisted);
  }

  lemma {:induction false} SplitOptHoistsSites(o: Option<Node>)
    ensures Syms(SplitOpt(o).hoisted) == SitesOpt(o)
  {
    if o.Some? {
      SplitNodeHoistsSites(o.value);
    }
  }

  lemma {:induction false} SplitEachHoistsSites(s: seq<Node>)
    ensures Syms(SplitEach(s).hoisted) == SitesEach(s)
  {
    if |s| > 0 {
      SplitNodeHoistsSites(s[0]);
      SplitEachHoistsSites(s[1..]);
      SymsAppend(SplitNode(s[0]).hoisted, SplitEach(s[1..]).hoisted);
    }
  }

  lemma {:induction false} SplitOptsHoistsSites(s: seq<Option<Node>>)
    ensures Syms(SplitOpts(s).hoisted) == SitesOpts(s)
  {
    if |s| > 0 {
      SplitOptHoistsSites(s[0]);
      SplitOptsHoistsSites(s[1..]);
      SymsAppend(SplitOpt(s[0]).hoisted, SplitOpts(s[1..]).hoisted);
    }
  }

  lemma {:induction false} SplitBranchHoistsSites(b: Branch)
    ensures Syms(SplitBranch(b).hoisted) == SitesBranch(b)
  {
    SplitNodeHoistsSites(b.cond);
    SplitNodeHoistsSites(b.result);
    SymsAppend(SplitNode(b.cond).hoisted, SplitNode(b.result).hoisted);
  }

  lemma {:induction false} SplitBranchesHoistsSites(bs: seq<Branch>)
    ensures Syms(SplitBranches(bs).hoisted) == SitesBranches(bs)
  {
    if |bs| > 0 {
      SplitBranchHoistsSites(bs[0]);
      SplitBranchesHoistsSites(bs[1..]);
      SymsAppend(SplitBranch(bs[0]).hoisted, SplitBranches(bs[1..]).hoisted);
    }
  }

  // ---------------------------------------------------------------------------
  // What stays at each site: a declaration with an initializer becomes the
  // assignment of that initializer to the same variable, one without
  // disappears, and the statements around it are split on their own.

  /** Splitting a list is splitting its two halves. */
  lemma {:induction false} SplitListAppend(a: seq<Node>, b: seq<Node>)
    ensures SplitList(a + b) == Split(SplitList(a).hoisted + SplitList(b).hoisted, SplitList(a).stmts + SplitList(b).stmts)
    decreases |a|
  {
    if |a| == 0 {
      assert a + b == b;
    } else {
      assert (a + b)[0] == a[0] && (a + b)[1..] == a[1..] + b;
      SplitListAppend(a[1..], b);
      SplitListCons(a + b);
      SplitListCons(a);
      var h, t, tb := SplitStatement(a[0]), SplitList(a[1..]), SplitList(b);
      NodesAssoc(h.hoisted, t.hoisted, tb.hoisted);
      NodesAssoc(h.stmts, t.stmts, tb.stmts);
    }
  }

  lemma SplitListCons(s: seq<Node>)
    requires |s| > 0
    ensures SplitList(s) == Split(SplitStatement(s[0]).hoisted + SplitList(s[1..]).hoisted,
                                  SplitStatement(s[0]).stmts + SplitList(s[1..]).stmts)
  {
  }

  lemma NodesAssoc(x: seq<Node>, y: seq<Node>, z: seq<Node>)
    ensures x + (y + z) == (x + y) + z
  {
  }

  /** A declaration in a statement list: its bare form is hoisted between the
      declarations hoisted from before and after it, and in the statements it
      leaves `x = init` when it had an initializer and nothing otherwise; the
      initializer itself is moved as it is. */
  lemma SplitListAtDeclaration(pre: seq<Node>, x: VarSym, init: Option<Node>, post: seq<Node>)
    ensures var r := SplitList(pre + [VarDecl(x, init)] + post);
      var a, b := SplitList(pre), SplitList(post);
      && r.hoisted == a.hoisted + [VarDecl(x, None)] + b.hoisted
      && r.stmts == a.stmts + (if init.Some? then [SetVariable(x, init.value)] else []) + b.stmts
  {
    var d := VarDecl(x, init);
    assert pre + [d] + post == pre + ([d] + post);
    SplitListAppend(pre, [d] + post);
    assert ([d] + post)[0] == d && ([d] + post)[1..] == post;
    SplitListCons([d] + post);
  }

  /** A statement list with no declaration anywhere in it is left as it is. */
  lemma {:induction false} SplitListIdentity(s: seq<Node>)
    requires SitesList(s) == []
    ensures SplitList(s) == Split([], s)
  {
    if |s| > 0 {
      assert !s[0].VarDecl? && Sites(s[0]) == [] && SitesList(s[1..]) == [];
      SplitStatementIdentity(s[0]);
      SplitListIdentity(s[1..]);
      SplitListCons(s);
      assert [s[0]] + s[1..] == s;
    }
  }

  lemma {:induction false} SplitStatementIdentity(n: Node)
    requires !n.VarDecl? && Sites(n) == []
    ensures SplitStatement(n) == Split([], [n])
    decreases n, 1
  {
    SplitNodeIdentity(n);
  }

  lemma {:induction false} SplitNodeIdentity(n: Node)
    requires Sites(n) == []
    ensures SplitNode(n) == SplitOne([], n)
    decreases n, 0
  {
    match n
    case VarDecl(_, init) => SplitOptIdentity(init);
    case FieldDecl(_, init) => SplitOptIdentity(init);
    case Const(_) =>
    case GetValue(_) =>
    case SetVariable(_, v) => SplitNodeIdentity(v);
    case GetField(_, r) => SplitOptIdentity(r);
    case SetField(_, r, v) => SplitOptIdentity(r); SplitNodeIdentity(v);
    case Call(_, d, e, args) => SplitOptIdentity(d); SplitOptIdentity(e); SplitOptsIdentity(args);
    case Concat(parts) => SplitEachIdentity(parts);
    case TypeOp(_, _, a) => SplitNodeIdentity(a);
    case Container(_, st) => SplitListIdentity(st);
    case When(bs) => SplitBranchesIdentity(bs);
    case Return(_, v) => SplitNodeIdentity(v);
    case Throw(v) => SplitNodeIdentity(v);
    case Jump(_, _) =>
    case Loop(_, _, _, c, b) => SplitNodeIdentity(c); SplitOptIdentity(b);
  }

  lemma {:induction false} SplitOptIdentity(o: Option<Node>)
    requires SitesOpt(o) == []
    ensures SplitOpt(o) == SplitOptOut([], o)
  {
    if o.Some? {
      SplitNodeIdentity(o.value);
    }
  }

  lemma {:induction false} SplitEachIdentity(s: seq<Node>)
    requires SitesEach(s) == []
    ensures SplitEach(s) == Split([], s)
  {
    if |s| > 0 {
      SplitNodeIdentity(s[0]);
      SplitEachIdentity(s[1..]);
      assert [s[0]] + s[1..] == s;
    }
  }

  lemma {:induction false} SplitOptsIdentity(s: seq<Option<Node>>)
    requires SitesOpts(s) == []
    ensures SplitOpts(s) == SplitOptsOut([], s)
  {
    if |s| > 0 {
      SplitOptIdentity(s[0]);
      SplitOptsIdentity(s[1..]);
      assert [s[0]] + s[1..] == s;
    }
  }

  lemma {:induction false} SplitBranchIdentity(b: Branch)
    requires SitesBranch(b) == []
    ensures SplitBranch(b) == SplitBranchesOut([], [b])
  {
    SplitNodeIdentity(b.cond);
    SplitNodeIdentity(b.result);
  }

  lemma {:induction false} SplitBranchesIdentity(bs: seq<Branch>)
    requires SitesBranches(bs) == []
    ensures SplitBranches(bs) == SplitBranchesOut([], bs)
  {
    if |bs| > 0 {
      SplitBranchIdentity(bs[0]);
      SplitBranchesIdentity(bs[1..]);
      assert [bs[0]] + bs[1..] == bs;
    }
  }

  // ---------------------------------------------------------------------------
  // Splitting only moves declarations: the generated names held by the
  // hoisted list and the rewritten statements together are those of the input.

  lemma {:induction false} SplitListKeepsNames(s: seq<Node>)
    ensures GenNamesList(SplitList(s).hoisted) + GenNamesList(SplitList(s).stmts) == GenNamesList(s)
  {
    if |s| > 0 {
      var h, t := SplitStatement(s[0]), SplitList(s[1..]);
      SplitStatementKeepsNames(s[0]);
      SplitListKeepsNames(s[1..]);
      GenNamesListAppend(h.hoisted, t.hoisted);
      GenNamesListAppend(h.stmts, t.stmts);
    }
  }

  lemma {:induction false} SplitStatementKeepsNames(n: Node)
    ensures GenNamesList(SplitStatement(n).hoisted) + GenNamesList(SplitStatement(n).stmts) == GenNames(n)
    decreases n, 2
  {
    if n.VarDecl? {
      GenNamesListSingle(VarDecl(n.sym, None));
      if n.init.Some? {
        GenNamesListSingle(SetVariable(n.sym, n.init.value));
      }
    } else {
      SplitNodeKeepsNames(n);
      GenNamesListSingle(SplitNode(n).node);
    }
  }

  lemma {:induction false} SplitNodeKeepsNames(n: Node)
    ensures GenNamesList(SplitNode(n).hoisted) + GenNames(SplitNode(n).node) == GenNames(n)
    decreases n, 1
  {
    if n.VarDecl? || n.FieldDecl? || n.SetVariable? || n.GetField? || n.SetField? || n.Call? {
      SplitAccessKeepsNames(n);
    } else if n.Loop? {
      SplitNodeKeepsNames(n.cond); SplitOptKeepsNames(n.body);
      SplitLoopKeepsNames(n);
    } else if n.Return? || n.Throw? {
      SplitNodeKeepsNames(n.value);
      SplitExitKeepsNames(n);
    } else {
      SplitOtherKeepsNames(n);
    }
  }

  /** `SplitNodeKeepsNames` for declarations, assignments, field accesses and calls. */
  lemma {:induction false} SplitAccessKeepsNames(n: Node)
    requires n.VarDecl? || n.FieldDecl? || n.SetVariable? || n.GetField? || n.SetField? || n.Call?
    ensures GenNamesList(SplitNode(n).hoisted) + GenNames(SplitNode(n).node) == GenNames(n)
    decreases n, 0
  {
    match n
    case VarDecl(_, init) => SplitOptKeepsNames(init);
    case FieldDecl(_, init) => SplitOptKeepsNames(init);
    case SetVariable(_, v) => SplitNodeKeepsNames(v);
    case GetField(_, r) => SplitOptKeepsNames(r);
    case SetField(_, r, v) =>
      SplitOptKeepsNames(r); SplitNodeKeepsNames(v);
      GenNamesListAppend(SplitOpt(r).hoisted, SplitNode(v).hoisted);
    case Call(_, d, e, args) =>
      SplitOptKeepsNames(d); SplitOptKeepsNames(e); SplitOptsKeepsNames(args);
      SplitCallKeepsNames(n);
  }

  /** `SplitNodeKeepsNames` for every other kind of node. */
  lemma {:induction false} SplitOtherKeepsNames(n: Node)
    requires !(n.VarDecl? || n.FieldDecl? || n.SetVariable? || n.GetField? || n.SetField? || n.Call? || n.Loop? || n.Return? || n.Throw?)
    ensures GenNamesList(SplitNode(n).hoisted) + GenNames(SplitNode(n).node) == GenNames(n)
    decreases n, 0
  {
    match n
    case Concat(parts) => SplitEachKeepsNames(parts); SplitConcatKeepsNames(n);
    case TypeOp(_, _, a) => SplitNodeKeepsNames(a); SplitTypeOpKeepsNames(n);
    case Container(_, st) => SplitListKeepsNames(st); SplitContainerKeepsNames(n);
    case When(bs) => SplitBranchesKeepsNames(bs); SplitWhenKeepsNames(n);
    case _ =>
  }

  /** The `Concat` step of `SplitNodeKeepsNames`, given the fact for its parts. */
  lemma SplitConcatKeepsNames(n: Node)
    requires n.Concat?
    requires GenNamesList(SplitEach(n.parts).hoisted) + GenNamesList(SplitEach(n.parts).stmts) == GenNamesList(n.parts)
    ensures GenNamesList(SplitNode(n).hoisted) + GenNames(SplitNode(n).node) == GenNames(n)
  {
    var o := SplitEach(n.parts);
    assert SplitNode(n) == SplitOne(o.hoisted, Concat(o.stmts));
    assert GenNames(Concat(o.stmts)) == GenNamesList(o.stmts);
    assert GenNames(n) == GenNamesList(n.parts);
  }

  /** The type-operator step of `SplitNodeKeepsNames`, given the fact for its operand. */
  lemma SplitTypeOpKeepsNames(n: Node)
    requires n.TypeOp?
    requires GenNamesList(SplitNode(n.arg).hoisted) + GenNames(SplitNode(n.arg).node) == GenNames(n.arg)
    ensures GenNamesList(SplitNode(n).hoisted) + GenNames(SplitNode(n).node) == GenNames(n)
  {
    var o := SplitNode(n.arg);
    assert SplitNode(n) == SplitOne(o.hoisted, TypeOp(n.op, n.unitTyped, o.node));
    assert GenNames(TypeOp(n.op, n.unitTyped, o.node)) == GenNames(o.node);
    assert GenNames(n) == GenNames(n.arg);
  }

  /** The container step of `SplitNodeKeepsNames`, given the fact for its statements. */
  lemma SplitContainerKeepsNames(n: Node)
    requires n.Container?
    requires GenNamesList(SplitList(n.stmts).hoisted) + GenNamesList(SplitList(n.stmts).stmts) == GenNamesList(n.stmts)
    ensures GenNamesList(SplitNode(n).hoisted) + GenNames(SplitNode(n).node) == GenNames(n)
  {
    var o := SplitList(n.stmts);
    assert SplitNode(n) == SplitOne(o.hoisted, Container(n.kind, o.stmts));
    assert GenNames(Container(n.kind, o.stmts)) == GenNamesList(o.stmts);
    assert GenNames(n) == GenNamesList(n.stmts);
  }

  /** The `when` step of `SplitNodeKeepsNames`, given the fact for its branches. */
  lemma SplitWhenKeepsNames(n: Node)
    requires n.When?
    requires GenNamesList(SplitBranches(n.branches).hoisted) + GenNamesBranches(SplitBranches(n.branches).branches) == GenNamesBranches(n.branches)
    ensures GenNamesList(SplitNode(n).hoisted) + GenNames(SplitNode(n).node) == GenNames(n)
  {
    var o := SplitBranches(n.branches);
    assert SplitNode(n) == SplitOne(o.hoisted, When(o.branches));
    assert GenNames(When(o.branches)) == GenNamesBranches(o.branches);
    assert GenNames(n) == GenNamesBranches(n.branches);
  }

  /** The `return`/`throw` step of `SplitNodeKeepsNames`, given the fact for the value. */
  lemma SplitExitKeepsNames(n: Node)
    requires n.Return? || n.Throw?
    requires GenNamesList(SplitNode(n.value).hoisted) + GenNames(SplitNode(n.value).node) == GenNames(n.value)
    ensures GenNamesList(SplitNode(n).hoisted) + GenNames(SplitNode(n).node) == GenNames(n)
  {
    var o := SplitNode(n.value);
    if n.Return? {
      assert SplitNode(n) == SplitOne(o.hoisted, Return(n.target, o.node));
      assert GenNames(Return(n.target, o.node)) == GenNames(o.node);
    } else {
      assert SplitNode(n) == SplitOne(o.hoisted, Throw(o.node));
      assert GenNames(Throw(o.node)) == GenNames(o.node);
    }
    assert GenNames(n) == GenNames(n.value);
  }

  /** The `Call` step of `SplitNodeKeepsNames`, given the facts for its operands. */
  lemma SplitCallKeepsNames(n: Node)
    requires n.Call?
    requires GenNamesList(SplitOpt(n.dispatch).hoisted) + GenNamesOpt(SplitOpt(n.dispatch).node) == GenNamesOpt(n.dispatch)
    requires GenNamesList(SplitOpt(n.extension).hoisted) + GenNamesOpt(SplitOpt(n.extension).node) == GenNamesOpt(n.extension)
    requires GenNamesList(SplitOpts(n.args).hoisted) + GenNamesOpts(SplitOpts(n.args).nodes) == GenNamesOpts(n.args)
    ensures GenNamesList(SplitNode(n).hoisted) + GenNames(SplitNode(n).node) == GenNames(n)
  {
    var o1, o2, o3 := SplitOpt(n.dispatch), SplitOpt(n.extension), SplitOpts(n.args);
    var node := Call(n.callee, o1.node, o2.node, o3.nodes);
    assert SplitNode(n) == SplitOne(o1.hoisted + o2.hoisted + o3.hoisted, node);
    assert GenNames(node) == GenNamesOpt(o1.node) + GenNamesOpt(o2.node) + GenNamesOpts(o3.nodes);
    assert GenNames(n) == GenNamesOpt(n.dispatch) + GenNamesOpt(n.extension) + GenNamesOpts(n.args);
    GenNamesListAppend(o1.hoisted, o2.hoisted);
    GenNamesListAppend(o1.hoisted + o2.hoisted, o3.hoisted);
    MultisetRegroupThree(GenNamesList(o1.hoisted), GenNamesOpt(o1.node), GenNamesList(o2.hoisted), GenNamesOpt(o2.node),
                         GenNamesList(o3.hoisted), GenNamesOpts(o3.nodes));
  }

  /** The `Loop` step of `SplitNodeKeepsNames`, given the facts for its children. */
  lemma SplitLoopKeepsNames(n: Node)
    requires n.Loop?
    requires GenNamesList(SplitNode(n.cond).hoisted) + GenNames(SplitNode(n.cond).node) == GenNames(n.cond)
    requires GenNamesList(SplitOpt(n.body).hoisted) + GenNamesOpt(SplitOpt(n.body).node) == GenNamesOpt(n.body)
    ensures GenNamesList(SplitNode(n).hoisted) + GenNames(SplitNode(n).node) == GenNames(n)
  {
    var oc, ob := SplitNode(n.cond), SplitOpt(n.body);
    var node := Loop(n.loopKind, n.id, n.loopLabel, oc.node, ob.node);
    var hoisted := if n.loopKind == WhileLoop then oc.hoisted + ob.hoisted else ob.hoisted + oc.hoisted;
    assert SplitNode(n) == SplitOne(hoisted, node);
    var l, hc, hb := LabelNames(n.loopLabel), GenNamesList(oc.hoisted), GenNamesList(ob.hoisted);
    assert GenNames(node) == l + GenNames(oc.node) + GenNamesOpt(ob.node);
    assert GenNames(n) == l + GenNames(n.cond) + GenNamesOpt(n.body);
    if n.loopKind == WhileLoop {
      GenNamesListAppend(oc.hoisted, ob.hoisted);
    } else {
      GenNamesListAppend(ob.hoisted, oc.hoisted);
    }
    assert GenNamesList(hoisted) == hc + hb;
    MultisetRegroup(l, hc, GenNames(oc.node), hb, GenNamesOpt(ob.node));
  }

  /** Regrouping the parts of two children split apart. */
  lemma MultisetRegroup(l: multiset<nat>, h1: multiset<nat>, n1: multiset<nat>, h2: multiset<nat>, n2: multiset<nat>)
    ensures (h1 + h2) + (l + n1 + n2) == l + (h1 + n1) + (h2 + n2)
  {
  }

  /** Regrouping the parts of three children split apart. */
  lemma MultisetRegroupThree(h1: multiset<nat>, n1: multiset<nat>, h2: multiset<nat>, n2: multiset<nat>,
                             h3: multiset<nat>, n3: multiset<nat>)
    ensures (h1 + h2 + h3) + (n1 + n2 + n3) == (h1 + n1) + (h2 + n2) + (h3 + n3)
  {
  }

  lemma {:induction false} SplitOptKeepsNames(o: Option<Node>)
    ensures GenNamesList(SplitOpt(o).hoisted) + GenNamesOpt(SplitOpt(o).node) == GenNamesOpt(o)
  {
    if o.Some? {
      SplitNodeKeepsNames(o.value);
    }
  }

  lemma {:induction false} SplitEachKeepsNames(s: seq<Node>)
    ensures GenNamesList(SplitEach(s).hoisted) + GenNamesList(SplitEach(s).stmts) == GenNamesList(s)
  {
    if |s| > 0 {
      var h, t := SplitNode(s[0]), SplitEach(s[1..]);
      SplitNodeKeepsNames(s[0]);
      SplitEachKeepsNames(s[1..]);
      GenNamesListAppend(h.hoisted, t.hoisted);
      var r := [h.node] + t.stmts;
      assert r[0] == h.node && r[1..] == t.stmts;
    }
  }

  lemma {:induction false} SplitOptsKeepsNames(s: seq<Option<Node>>)
    ensures GenNamesList(SplitOpts(s).hoisted) + GenNamesOpts(SplitOpts(s).nodes) == GenNamesOpts(s)
  {
    if |s| > 0 {
      var h, t := SplitOpt(s[0]), SplitOpts(s[1..]);
      SplitOptKeepsNames(s[0]);
      SplitOptsKeepsNames(s[1..]);
      GenNamesListAppend(h.hoisted, t.hoisted);
      var r := [h.node] + t.nodes;
      assert r[0] == h.node && r[1..] == t.nodes;
    }
  }

  lemma {:induction false} SplitBranchKeepsNames(b: Branch)
    ensures GenNamesList(SplitBranch(b).hoisted) + GenNamesBranches(SplitBranch(b).branches) == GenNamesBranch(b)
  {
    SplitNodeKeepsNames(b.cond);
    SplitNodeKeepsNames(b.result);
    GenNamesListAppend(SplitNode(b.cond).hoisted, SplitNode(b.result).hoisted);
    var r := SplitBranch(b).branches;
    assert r[1..] == [];
  }

  lemma {:induction false} SplitBranchesKeepsNames(bs: seq<Branch>)
    ensures GenNamesList(SplitBranches(bs).hoisted) + GenNamesBranches(SplitBranches(bs).branches) == GenNamesBranches(bs)
  {
    if |bs| > 0 {
      var h, t := SplitBranch(bs[0]), SplitBranches(bs[1..]);
      SplitBranchKeepsNames(bs[0]);
      SplitBranchesKeepsNames(bs[1..]);
      GenNamesListAppend(h.hoisted, t.hoisted);
      GenNamesBranchesAppend(h.branches, t.branches);
    }
  }
}

=== FILE: declaration_matcher.dfy ===
/** The greedy matcher of the JVM declaration searcher test: conditions are
    taken in order, each consumes the first remaining element that satisfies
    it, the first condition nothing satisfies stops the matching, and elements
    left over once every condition was served are reported.  A condition is a
    value of any type `C`; `holds(c, e)` says whether it accepts an element. */
module DeclarationMatcher {

  /** `MatchResult`: success, the first condition that found no element, or the leftovers. */
  datatype MatchResult<T, C> =
    | Matched
    | UnmatchedCondition(condition: C)
    | UnmatchedElements(elements: seq<T>)
  {
    /** The `succeed` flag each variant passes to the sealed base class. */
    predicate Succeed() {
      Matched?
    }
  }

  /** Index of the first element `c` accepts, or -1 (`find { condition(it) }`). */
  function FirstSatisfying<T, C>(es: seq<T>, c: C, holds: (C, T) -> bool): (r: int)
    ensures -1 <= r < |es|
    ensures r >= 0 ==> holds(c, es[r])
    ensures forall j :: 0 <= j < |es| && (r < 0 || j < r) ==> !holds(c, es[j])
  {
    if |es| == 0 then -1
    else if holds(c, es[0]) then 0
    else
      var k := FirstSatisfying(es[1..], c, holds);
      assert forall j :: 1 <= j < |es| ==> es[j] == es[1..][j - 1];
      if k < 0 then -1 else k + 1
  }

  /** The list with position `i` taken out. */
  function RemoveAt<T>(es: seq<T>, i: nat): (r: seq<T>)
    requires i < |es|
    ensures |r| == |es| - 1
    ensures multiset(r) + multiset{es[i]} == multiset(es)
  {
    assert es == es[..i] + [es[i]] + es[i + 1..];
    es[..i] + es[i + 1..]
  }

  /** `MutableList.remove(x)`: whether an element equal to `x` was found, and
      the list with the first such element taken out. */
  function RemoveFirstEqual<T(==)>(es: seq<T>, x: T): (r: (bool, seq<T>))
    ensures r.0 <==> x in es
    ensures !r.0 ==> r.1 == es
  {
    if |es| == 0 then (false, es)
    else if es[0] == x then (true, es[1..])
    else
      var t := RemoveFirstEqual(es[1..], x);
      (t.0, [es[0]] + t.1)
  }

  /** Removing the found element by equality takes out the element at the found
      position: any equal element before it would have been found first.  So the
      source's "cannot remove matched element" failure never happens. */
  lemma RemoveFoundElement<T, C>(es: seq<T>, c: C, holds: (C, T) -> bool)
    requires FirstSatisfying(es, c, holds) >= 0
    ensures var i := FirstSatisfying(es, c, holds);
      RemoveFirstEqual(es, es[i]) == (true, RemoveAt(es, i))
  {
    var i := FirstSatisfying(es, c, holds);
    forall j | 0 <= j < i
      ensures es[..i][j] != es[i]
    {
      assert !holds(c, es[j]);
    }
    RemoveFirstOccurrence(es, i);
  }

  /** Removal by equality takes out the element at `i` when no element before
      it is equal to it. */
  lemma {:induction false} RemoveFirstOccurrence<T>(es: seq<T>, i: nat)
    requires i < |es| && es[i] !in es[..i]
    ensures RemoveFirstEqual(es, es[i]) == (true, RemoveAt(es, i))
  {
    if i > 0 {
      var t := es[1..];
      assert es[0] == es[..i][0];
      assert t[i - 1] == es[i];
      assert t[..i - 1] == es[1..i];
      var before := es[..i];
      assert forall j :: 1 <= j < i ==> t[..i - 1][j - 1] == before[j];
      RemoveFirstOccurrence(t, i - 1);
      assert t[i..] == es[i + 1..];
      assert [es[0]] + (es[1..i] + es[i + 1..]) == es[..i] + es[i + 1..];
    } else {
      assert RemoveAt(es, 0) == es[1..];
    }
  }

  /** Reference definition of `matchElementsToConditions`. */
  function Match<T, C>(es: seq<T>, cs: seq<C>, holds: (C, T) -> bool): MatchResult<T, C>
    decreases |cs|
  {
    if |cs| == 0 then
      if |es| == 0 then Matched else UnmatchedElements(es)
    else
      var i := FirstSatisfying(es, cs[0], holds);
      if i < 0 then UnmatchedCondition(cs[0])
      else Match(RemoveAt(es, i), cs[1..], holds)
  }

  /** `matchElementsToConditions`, with the source's mutable lists and its removal by equality. */
  method MatchElementsToConditions<T(==), C>(elements: seq<T>, conditions: seq<C>, holds: (C, T) -> bool)
    returns (r: MatchResult<T, C>)
    ensures r == Match(elements, conditions, holds)
  {
    var checkList := conditions;
    var elementsToCheck := elements;
    while |checkList| > 0
      invariant Match(elementsToCheck, checkList, holds) == Match(elements, conditions, holds)
      decreases |checkList|
    {
      var condition := checkList[0];
      var i := FirstSatisfying(elementsToCheck, condition, holds);
      if i < 0 {
        return UnmatchedCondition(condition);
      }
      var matched := elementsToCheck[i];
      RemoveFoundElement(elementsToCheck, condition, holds);
      var (removed, rest) := RemoveFirstEqual(elementsToCheck, matched);
      assert removed;
      checkList := checkList[1..];
      elementsToCheck := rest;
    }
    if |elementsToCheck| == 0 {
      return Matched;
    }
    return UnmatchedElements(elementsToCheck);
  }

  /** `idx` lists strictly increasing positions of `big` that spell out `small`:
      `small` is `big` with some elements dropped, in the original order. */
  ghost predicate Embeds<T>(small: seq<T>, big: seq<T>, idx: seq<nat>) {
    && |idx| == |small|
    && (forall k :: 0 <= k < |idx| ==> idx[k] < |big| && big[idx[k]] == small[k])
    && (forall j, k :: 0 <= j < k < |idx| ==> idx[j] < idx[k])
  }

  /** What a run of the matcher amounts to.  The first `k` conditions each
      consumed one element they accept (`picked[j]` for condition `j`), and
      `left` holds the other elements in their original order.  If `k` falls
      short of the conditions, condition `k` accepts none of the leftovers and
      is reported; otherwise the run is `Matched` when nothing is left and
      reports exactly the leftovers when something is. */
  lemma {:induction false} MatchOutcome<T, C>(es: seq<T>, cs: seq<C>, holds: (C, T) -> bool)
    returns (k: nat, picked: seq<T>, left: seq<T>, idx: seq<nat>)
    ensures k <= |cs| && |picked| == k
    ensures forall j :: 0 <= j < k ==> holds(cs[j], picked[j])
    ensures multiset(picked) + multiset(left) == multiset(es)
    ensures Embeds(left, es, idx)
    ensures k < |cs| ==> Match(es, cs, holds) == UnmatchedCondition(cs[k])
    ensures k < |cs| ==> forall j :: 0 <= j < |left| ==> !holds(cs[k], left[j])
    ensures k == |cs| && |left| == 0 ==> Match(es, cs, holds) == Matched
    ensures k == |cs| && |left| > 0 ==> Match(es, cs, holds) == UnmatchedElements(left)
    decreases |cs|
  {
    if |cs| == 0 || FirstSatisfying(es, cs[0], holds) < 0 {
      k, picked, left := 0, [], es;
      idx := seq(|es|, j requires 0 <= j < |es| => j);
    } else {
      var rest := RemoveAt(es, FirstSatisfying(es, cs[0], holds));
      var k', picked', left', idx' := MatchOutcome(rest, cs[1..], holds);
      k, picked, left, idx := MatchOutcomeStep(es, cs, holds, k', picked', left', idx');
    }
  }

  /** The first condition takes its element; the rest of the run is on what remains. */
  lemma MatchOutcomeStep<T, C>(es: seq<T>, cs: seq<C>, holds: (C, T) -> bool,
                               k': nat, picked': seq<T>, left': seq<T>, idx': seq<nat>)
    returns (k: nat, picked: seq<T>, left: seq<T>, idx: seq<nat>)
    requires |cs| > 0 && FirstSatisfying(es, cs[0], holds) >= 0
    requires var rest := RemoveAt(es, FirstSatisfying(es, cs[0], holds));
      && k' <= |cs[1..]| && |picked'| == k'
      && (forall j :: 0 <= j < k' ==> holds(cs[1..][j], picked'[j]))
      && multiset(picked') + multiset(left') == multiset(rest)
      && Embeds(left', rest, idx')
      && (k' < |cs[1..]| ==> Match(rest, cs[1..], holds) == UnmatchedCondition(cs[1..][k']))
      && (k' < |cs[1..]| ==> forall j :: 0 <= j < |left'| ==> !holds(cs[1..][k'], left'[j]))
      && (k' == |cs[1..]| && |left'| == 0 ==> Match(rest, cs[1..], holds) == Matched)
      && (k' == |cs[1..]| && |left'| > 0 ==> Match(rest, cs[1..], holds) == UnmatchedElements(left'))
    ensures k <= |cs| && |picked| == k
    ensures forall j :: 0 <= j < k ==> holds(cs[j], picked[j])
    ensures multiset(picked) + multiset(left) == multiset(es)
    ensures Embeds(left, es, idx)
    ensures k < |cs| ==> Match(es, cs, holds) == UnmatchedCondition(cs[k])
    ensures k < |cs| ==> forall j :: 0 <= j < |left| ==> !holds(cs[k], left[j])
    ensures k == |cs| && |left| == 0 ==> Match(es, cs, holds) == Matched
    ensures k == |cs| && |left| > 0 ==> Match(es, cs, holds) == UnmatchedElements(left)
  {
    var i := FirstSatisfying(es, cs[0], holds);
    assert Match(es, cs, holds) == Match(RemoveAt(es, i), cs[1..], holds);
    k, picked, left := k' + 1, [es[i]] + picked', left';
    assert multiset(picked) == multiset{es[i]} + multiset(picked');
    idx := EmbedPastRemoved(es, i, left', idx');
    PickedFirst(cs, holds, es[i], picked');
    assert k' < |cs[1..]| ==> cs[1..][k'] == cs[k];
  }

  /** The condition served first, followed by those served after it. */
  lemma PickedFirst<T, C>(cs: seq<C>, holds: (C, T) -> bool, x: T, picked': seq<T>)
    requires 0 < |cs| && |picked'| < |cs| && holds(cs[0], x)
    requires forall j :: 0 <= j < |picked'| ==> holds(cs[1..][j], picked'[j])
    ensures forall j :: 0 <= j < |picked'| + 1 ==> holds(cs[j], ([x] + picked')[j])
  {
    forall j | 1 <= j < |picked'| + 1
      ensures holds(cs[j], ([x] + picked')[j])
    {
      assert cs[j] == cs[1..][j - 1] && ([x] + picked')[j] == picked'[j - 1];
    }
  }

  /** Positions in `es` with `i` removed are positions in `es`, shifted past `i`. */
  lemma EmbedPastRemoved<T>(es: seq<T>, i: nat, left: seq<T>, idx': seq<nat>) returns (idx: seq<nat>)
    requires i < |es| && Embeds(left, RemoveAt(es, i), idx')
    ensures Embeds(left, es, idx)
  {
    var rest := RemoveAt(es, i);
    idx := seq(|idx'|, j requires 0 <= j < |idx'| => if idx'[j] < i then idx'[j] else idx'[j] + 1);
    forall j | 0 <= j < |idx|
      ensures idx[j] < |es| && es[idx[j]] == left[j]
    {
      assert rest[idx'[j]] == left[j];
    }
  }

  /** `succeed` holds of `Matched` only. */
  lemma SucceedOnlyMatched<T, C>(r: MatchResult<T, C>)
    ensures r.Succeed() <==> r == Matched
  {
  }

  /** The two assertion failures `assertMatches` raises. */
  datatype AssertionFailure<T, C> =
    | NoElementMatches(elements: seq<T>, condition: C)
    | ElementsNotMatched(leftovers: seq<T>)

  /** `assertMatches`: passes on `Matched`, and otherwise fails with the
      condition the matcher reports (and every element) or with exactly the
      leftover elements it reports. */
  method AssertMatches<T(==), C>(elements: seq<T>, conditions: seq<C>, holds: (C, T) -> bool)
    returns (failure: Option<AssertionFailure<T, C>>)
    ensures failure.None? ==> |elements| == |conditions|
    ensures failure.None? <==> Match(elements, conditions, holds).Succeed()
    ensures failure.Some? && failure.value.NoElementMatches? ==>
      failure.value.elements == elements
      && exists k :: 0 <= k < |conditions| && failure.value.condition == conditions[k]
    ensures failure.Some? && failure.value.ElementsNotMatched? ==>
      |failure.value.leftovers| > 0 && multiset(failure.value.leftovers) <= multiset(elements)
    ensures Match(elements, conditions, holds).UnmatchedCondition? ==>
      failure == Some(NoElementMatches(elements, Match(elements, conditions, holds).condition))
    ensures Match(elements, conditions, holds).UnmatchedElements? ==>
      failure == Some(ElementsNotMatched(Match(elements, conditions, holds).elements))
  {
    var r := MatchElementsToConditions(elements, conditions, holds);
    var k, picked, left, idx := MatchOutcome(elements, conditions, holds);
    match r
    case UnmatchedCondition(c) =>
      failure := Some(NoElementMatches(elements, c));
    case UnmatchedElements(l) =>
      failure := Some(ElementsNotMatched(l));
    case Matched =>
      assert |multiset(elements)| == |multiset(picked)| + |multiset(left)|;
      failure := None;
  }

  datatype Option<T> = None | Some(value: T)
}

=== FILE: dependencies_txt.dfy ===
/** `DependenciesTxtBuilder`: assembles the description of a multi-module test
    project from a list of definitions.  A definition either defines a module
    (with flags choosing its compiler arguments) or declares a dependency
    between two modules (with flags choosing scope, `exported` and
    `expectedBy`).  Modules may be referenced before they are defined; each
    name is registered once, in the order first met, and defined at most once.
    Once every definition is read, each dependency is linked into the
    `dependencies` of its source module and the `usages` of its target, and
    each defined module records the targets of its `expectedBy` dependencies
    as `implementedModuleNames`.  The parser and file reading are replaced by
    the already parsed list of definitions. */
module DependenciesTxt {
  import opened Wrappers

  /** `K2MetadataCompilerArguments`, `K2JVMCompilerArguments`, `K2JSCompilerArguments`. */
  datatype ArgumentsKind = MetadataArguments | JvmArguments | JsArguments

  datatype FacetSettings = FacetSettings(
    useProjectSettings: bool,
    additionalArguments: string,
    compilerArguments: Option<ArgumentsKind>,
    implementedModuleNames: seq<string>)

  /** `JpsJavaDependencyScope`. */
  datatype Scope = Compile | Test | Runtime | Provided

  /** An attribute: a bare flag, or `key=value`. */
  datatype Attr = Flag(key: string) | KeyValue(key: string, value: string)

  /** `moduleDef` (`x [attrs]`) and `dependencyDef` (`x -> y [attrs]`, or `x ->`). */
  datatype Def =
    | ModuleDef(name: string, attrs: seq<Attr>)
    | DependencyDef(from: string, to: Option<string>, depAttrs: Option<seq<Attr>>)

  /** Modules are identified by name, so a dependency names its two ends. */
  datatype Dependency = Dependency(from: string, to: string, scope: Scope, expectedBy: bool, exported: bool)

  /** A module with no facet settings is one that was referenced but never defined. */
  datatype Module = Module(name: string, facet: Option<FacetSettings>, dependencies: seq<Dependency>, usages: seq<Dependency>)

  datatype DependenciesTxt = DependenciesTxt(fileName: string, modules: seq<Module>, dependencies: seq<Dependency>)

  /** `ModuleRef`: the name, whether it was defined, and the facet settings of its
      current `actual` module (none for the placeholder made on first reference). */
  datatype ModuleRef = ModuleRef(name: string, defined: bool, facet: Option<FacetSettings>)

  datatype DependencyBuilder = DependencyBuilder(from: string, to: string, scope: Scope, expectedBy: bool, exported: bool)

  /** The builder state: module references in insertion order (the source's
      `mutableMapOf` keeps insertion order) and the dependency builders. */
  datatype Builder = Builder(refs: seq<ModuleRef>, dependencies: seq<DependencyBuilder>)

  datatype Failure =
    | AlreadyDefined(name: string)
    | UnknownModuleFlag(key: string)
    | UnknownModuleProperty(key: string)
    | AttributesOnBareDependency
    | UnknownDependencyFlag(key: string)
    | UnknownDependencyProperty(key: string)

  const AdditionalArguments: string := "-version -Xmulti-platform"

  // ---------------------------------------------------------------------------
  // The registry of module references.

  /** Position of the reference named `name`, or -1. */
  function Find(refs: seq<ModuleRef>, name: string): (r: int)
    ensures -1 <= r < |refs|
    ensures r >= 0 ==> refs[r].name == name
    ensures r < 0 ==> forall i :: 0 <= i < |refs| ==> refs[i].name != name
  {
    if |refs| == 0 then -1
    else if refs[|refs| - 1].name == name then |refs| - 1
    else Find(refs[..|refs| - 1], name)
  }

  ghost predicate NamesDistinct(refs: seq<ModuleRef>) {
    forall i, j :: 0 <= i < j < |refs| ==> refs[i].name != refs[j].name
  }

  /** Registered names, and the ends of every dependency are registered. */
  ghost predicate Registered(b: Builder, name: string) {
    exists i :: 0 <= i < |b.refs| && b.refs[i].name == name
  }

  /** The builder's invariant: one reference per name, a reference has facet
      settings exactly when it was defined, every dependency end is registered. */
  ghost predicate Valid(b: Builder) {
    && NamesDistinct(b.refs)
    && (forall i :: 0 <= i < |b.refs| ==> (b.refs[i].defined <==> b.refs[i].facet.Some?))
    && (forall k :: 0 <= k < |b.dependencies| ==> Registered(b, b.dependencies[k].from) && Registered(b, b.dependencies[k].to))
  }

  /** `moduleRef(name)`, i.e. `modules.getOrPut(name) { ModuleRef(name) }`:
      the existing reference, or a new undefined one appended to the registry. */
  function ModuleRefOf(b: Builder, name: string): (r: (Builder, nat))
    requires Valid(b)
    ensures Valid(r.0)
    ensures r.1 < |r.0.refs| && r.0.refs[r.1].name == name
    ensures r.0.dependencies == b.dependencies
    ensures Find(b.refs, name) >= 0 ==> r.0 == b && r.1 == Find(b.refs, name)
    ensures Find(b.refs, name) < 0 ==> r.0.refs == b.refs + [ModuleRef(name, false, None)]
  {
    var i := Find(b.refs, name);
    if i >= 0 then (b, i)
    else
      var b' := Builder(b.refs + [ModuleRef(name, false, None)], b.dependencies);
      assert forall k :: 0 <= k < |b.refs| ==> b'.refs[k] == b.refs[k];
      assert forall n :: Registered(b, n) ==> Registered(b', n);
      (b', |b.refs|)
  }

  /** Asking for a reference a second time changes nothing. */
  lemma ModuleRefIdempotent(b: Builder, name: string)
    requires Valid(b)
    ensures ModuleRefOf(ModuleRefOf(b, name).0, name) == ModuleRefOf(b, name)
  {
    var (b1, i) := ModuleRefOf(b, name);
    var j := Find(b1.refs, name);
    assert b1.refs[j].name == b1.refs[i].name;
  }

  // ---------------------------------------------------------------------------
  // Attributes.

  /** One module attribute (`newModule`'s `accept` callback). */
  function ModuleFlag(a: Attr): Result<ArgumentsKind, Failure> {
    match a
    case KeyValue(key, _) => Err(UnknownModuleProperty(key))
    case Flag(key) =>
      if key == "common" then Ok(MetadataArguments)
      else if key == "jvm" then Ok(JvmArguments)
      else if key == "js" then Ok(JsArguments)
      else Err(UnknownModuleFlag(key))
  }

  /** The module attributes in order; each flag replaces the compiler arguments. */
  function ModuleArguments(attrs: seq<Attr>, current: Option<ArgumentsKind>): Result<Option<ArgumentsKind>, Failure> {
    if |attrs| == 0 then Ok(current)
    else
      var k :- ModuleFlag(attrs[0]);
      ModuleArguments(attrs[1..], Some(k))
  }

  /** Module attributes are accepted exactly when each is a known flag; then the
      last flag decides the compiler arguments, and with no attribute the
      current choice stays.  Otherwise the first bad attribute is reported. */
  lemma {:induction false} ModuleArgumentsLastWins(attrs: seq<Attr>, current: Option<ArgumentsKind>)
    ensures ModuleArguments(attrs, current).Ok? <==> forall i :: 0 <= i < |attrs| ==> ModuleFlag(attrs[i]).Ok?
    ensures ModuleArguments(attrs, current).Ok? && |attrs| == 0 ==> ModuleArguments(attrs, current).value == current
    ensures ModuleArguments(attrs, current).Ok? && |attrs| > 0 ==>
      ModuleArguments(attrs, current).value == Some(ModuleFlag(attrs[|attrs| - 1]).value)
    ensures ModuleArguments(attrs, current).Err? ==>
      exists i :: 0 <= i < |attrs| && ModuleFlag(attrs[i]).Err? && ModuleArguments(attrs, current).error == ModuleFlag(attrs[i]).error
                && forall j :: 0 <= j < i ==> ModuleFlag(attrs[j]).Ok?
  {
    if |attrs| > 0 {
      var h := ModuleFlag(attrs[0]);
      if h.Ok? {
        ModuleArgumentsLastWins(attrs[1..], Some(h.value));
        assert forall i :: 1 <= i < |attrs| ==> attrs[i] == attrs[1..][i - 1];
        if ModuleArguments(attrs, current).Err? {
          var i :| 0 <= i < |attrs[1..]| && ModuleFlag(attrs[1..][i]).Err? && ModuleArguments(attrs[1..], Some(h.value)).error == ModuleFlag(attrs[1..][i]).error
                   && forall j :: 0 <= j < i ==> ModuleFlag(attrs[1..][j]).Ok?;
          assert forall j :: 0 <= j < i + 1 ==> ModuleFlag(attrs[j]).Ok? by {
            forall j | 0 <= j < i + 1 ensures ModuleFlag(attrs[j]).Ok? {
              if j > 0 { assert attrs[j] == attrs[1..][j - 1]; }
            }
          }
        }
      } else {
        assert ModuleArguments(attrs, current).error == ModuleFlag(attrs[0]).error;
      }
    }
  }

  /** Scope, `expectedBy` and `exported` of a dependency being declared. */
  datatype DependencyFlags = DependencyFlags(scope: Scope, expectedBy: bool, exported: bool)

  const InitialFlags: DependencyFlags := DependencyFlags(Compile, false, false)

  /** One dependency attribute (`newDependency`'s `accept` callback). */
  function DependencyFlag(a: Attr, f: DependencyFlags): Result<DependencyFlags, Failure> {
    match a
    case KeyValue(key, _) => Err(UnknownDependencyProperty(key))
    case Flag(key) =>
      if key == "exported" then Ok(f.(exported := true))
      else if key == "compile" then Ok(f.(scope := Compile))
      else if key == "test" then Ok(f.(scope := Test))
      else if key == "runtime" then Ok(f.(scope := Runtime))
      else if key == "provided" then Ok(f.(scope := Provided))
      else if key == "expectedBy" then Ok(f.(expectedBy := true))
      else Err(UnknownDependencyFlag(key))
  }

  function DependencyAttributes(attrs: seq<Attr>, f: DependencyFlags): Result<DependencyFlags, Failure> {
    if |attrs| == 0 then Ok(f)
    else
      var g :- DependencyFlag(attrs[0], f);
      DependencyAttributes(attrs[1..], g)
  }

  /** The scope named by a flag, if it names one. */
  function ScopeFlag(a: Attr): Option<Scope> {
    if !a.Flag? then None
    else if a.key == "compile" then Some(Compile)
    else if a.key == "test" then Some(Test)
    else if a.key == "runtime" then Some(Runtime)
    else if a.key == "provided" then Some(Provided)
    else None
  }

  predicate KnownDependencyFlag(a: Attr) {
    a.Flag? && (a.key == "exported" || ScopeFlag(a).Some? || a.key == "expectedBy")
  }

  /** The scope the last scope flag of `attrs` names, or `s` when there is none. */
  function LastScope(attrs: seq<Attr>, s: Scope): Scope {
    if |attrs| == 0 then s
    else if ScopeFlag(attrs[|attrs| - 1]).Some? then ScopeFlag(attrs[|attrs| - 1]).value
    else LastScope(attrs[..|attrs| - 1], s)
  }

  lemma LastScopeFront(attrs: seq<Attr>, s: Scope)
    requires |attrs| > 0
    ensures LastScope(attrs, s) == LastScope(attrs[1..], if ScopeFlag(attrs[0]).Some? then ScopeFlag(attrs[0]).value else s)
    decreases |attrs|
  {
    if |attrs| > 1 {
      assert attrs[1..][..|attrs[1..]| - 1] == attrs[..|attrs| - 1][1..];
      LastScopeFront(attrs[..|attrs| - 1], s);
    }
  }

  /** Dependency attributes are accepted exactly when each is a known flag; the
      last scope flag wins (the scope given stays when there is none), and
      `exported` / `expectedBy` hold when given or when their flag occurs. */
  lemma {:induction false} DependencyAttributesMeaning(attrs: seq<Attr>, f: DependencyFlags)
    ensures DependencyAttributes(attrs, f).Ok? <==> forall i :: 0 <= i < |attrs| ==> KnownDependencyFlag(attrs[i])
    ensures DependencyAttributes(attrs, f).Ok? ==>
      && DependencyAttributes(attrs, f).value.scope == LastScope(attrs, f.scope)
      && (DependencyAttributes(attrs, f).value.exported <==> f.exported || exists i :: 0 <= i < |attrs| && attrs[i] == Flag("exported"))
      && (DependencyAttributes(attrs, f).value.expectedBy <==> f.expectedBy || exists i :: 0 <= i < |attrs| && attrs[i] == Flag("expectedBy"))
  {
    if |attrs| > 0 {
      var h := DependencyFlag(attrs[0], f);
      assert h.Ok? <==> KnownDependencyFlag(attrs[0]);
      assert forall i :: 1 <= i < |attrs| ==> attrs[i] == attrs[1..][i - 1];
      if h.Ok? {
        DependencyAttributesMeaning(attrs[1..], h.value);
        LastScopeFront(attrs, f.scope);
        assert h.value.scope == if ScopeFlag(attrs[0]).Some? then ScopeFlag(attrs[0]).value else f.scope;
        assert h.value.exported <==> f.exported || attrs[0] == Flag("exported");
        assert h.value.expectedBy <==> f.expectedBy || attrs[0] == Flag("expectedBy");
      }
    }
  }

  // ---------------------------------------------------------------------------
  // Definitions.

  /** `newModule`: registers the name, refuses a second definition, marks the
      reference defined with fresh facet settings, then applies the flags. */
  function NewModule(b: Builder, name: string, attrs: seq<Attr>): (r: Result<(Builder, Module), Failure>)
    requires Valid(b)
    ensures r.Ok? ==> Valid(r.value.0)
  {
    var (b1, i) := ModuleRefOf(b, name);
    if b1.refs[i].defined then Err(AlreadyDefined(name))
    else
      var args :- ModuleArguments(attrs, None);
      var facet := FacetSettings(false, AdditionalArguments, args, []);
      var b2 := Builder(b1.refs[i := ModuleRef(name, true, Some(facet))], b1.dependencies);
      assert forall n :: Registered(b1, n) ==> Registered(b2, n) by {
        forall n | Registered(b1, n) ensures Registered(b2, n) {
          var k :| 0 <= k < |b1.refs| && b1.refs[k].name == n;
          assert b2.refs[k].name == n;
        }
      }
      Ok((b2, Module(name, Some(facet), [], [])))
  }

  /** The compiler arguments the module flags choose: the last flag's, or none
      without flags. */
  function ChosenArguments(attrs: seq<Attr>): Option<ArgumentsKind>
    requires forall k :: 0 <= k < |attrs| ==> ModuleFlag(attrs[k]).Ok?
  {
    if |attrs| == 0 then None else Some(ModuleFlag(attrs[|attrs| - 1]).value)
  }

  /** Whether `name` is already defined in the registry. */
  predicate IsDefined(b: Builder, name: string) {
    Find(b.refs, name) >= 0 && b.refs[Find(b.refs, name)].defined
  }

  /** Defining a module: a name already defined fails with `AlreadyDefined`.
      Otherwise the definition fails exactly when some attribute is not a
      known module flag, with the first bad attribute's error; on success the
      module has the name, no links yet, and facet settings that do not use
      the project's, carry the fixed additional arguments, the compiler
      arguments the last flag chose and no implemented modules. */
  lemma {:induction false} NewModuleOutcome(b: Builder, name: string, attrs: seq<Attr>)
    requires Valid(b)
    ensures IsDefined(b, name) ==> NewModule(b, name, attrs) == Err(AlreadyDefined(name))
    ensures !IsDefined(b, name) ==>
      (NewModule(b, name, attrs).Ok? <==> forall k :: 0 <= k < |attrs| ==> ModuleFlag(attrs[k]).Ok?)
    ensures !IsDefined(b, name) && NewModule(b, name, attrs).Err? ==>
      exists k :: 0 <= k < |attrs| && ModuleFlag(attrs[k]).Err? && NewModule(b, name, attrs).error == ModuleFlag(attrs[k]).error
                && forall j :: 0 <= j < k ==> ModuleFlag(attrs[j]).Ok?
    ensures NewModule(b, name, attrs).Ok? ==>
      && (forall k :: 0 <= k < |attrs| ==> ModuleFlag(attrs[k]).Ok?)
      && NewModule(b, name, attrs).value.1
         == Module(name, Some(FacetSettings(false, AdditionalArguments, ChosenArguments(attrs), [])), [], [])
  {
    ModuleArgumentsLastWins(attrs, None);
    var (b1, i) := ModuleRefOf(b, name);
    assert b1.refs[i].defined <==> IsDefined(b, name);
  }

  /** A module is defined once: after a successful definition, the reference is
      defined and holds the new module's facet settings, nothing else in the
      registry moved, and defining the same name again fails with
      `AlreadyDefined`. */
  lemma DefineOnce(b: Builder, name: string, attrs: seq<Attr>, again: seq<Attr>)
    requires Valid(b)
    requires NewModule(b, name, attrs).Ok?
    ensures var b' := NewModule(b, name, attrs).value.0;
      && Find(b'.refs, name) >= 0
      && b'.refs[Find(b'.refs, name)].defined
      && b'.refs[Find(b'.refs, name)].facet == NewModule(b, name, attrs).value.1.facet
      && b'.refs[Find(b'.refs, name)].facet.value.useProjectSettings == false
      && b'.refs[Find(b'.refs, name)].facet.value.additionalArguments == AdditionalArguments
      && b'.refs[Find(b'.refs, name)].facet.value.compilerArguments == ModuleArguments(attrs, None).value
      && b'.refs[Find(b'.refs, name)].facet.value.implementedModuleNames == []
      && (forall k :: 0 <= k < |b'.refs| && b'.refs[k].name != name ==> k < |b.refs| && b'.refs[k] == b.refs[k])
      && NewModule(b', name, again) == Err(AlreadyDefined(name))
  {
    var (b1, i) := ModuleRefOf(b, name);
    var args := ModuleArguments(attrs, None).value;
    var facet := FacetSettings(false, AdditionalArguments, args, []);
    var b' := Builder(b1.refs[i := ModuleRef(name, true, Some(facet))], b1.dependencies);
    assert NewModule(b, name, attrs) == Ok((b', Module(name, Some(facet), [], [])));
    assert Valid(b');
    var j := Find(b'.refs, name);
    assert b'.refs[i].name == name;
    assert j == i;
    assert ModuleRefOf(b', name) == (b', i);
    forall k | 0 <= k < |b'.refs| && b'.refs[k].name != name
      ensures k < |b.refs| && b'.refs[k] == b.refs[k]
    {
      assert b'.refs[k] == b1.refs[k];
    }
  }

  /** `newDependency`.  `x ->` only registers `x` and refuses attributes; a full
      declaration reads its flags first, then registers the source and the
      target (in that order) and records the dependency. */
  function NewDependency(b: Builder, from: string, to: Option<string>, attrs: Option<seq<Attr>>): (r: Result<(Builder, Option<DependencyBuilder>), Failure>)
    requires Valid(b)
    ensures r.Ok? ==> Valid(r.value.0)
    ensures r.Ok? ==> r.value.1.Some? == to.Some?
  {
    if to.None? then
      var (b1, _) := ModuleRefOf(b, from);
      if attrs.Some? then Err(AttributesOnBareDependency) else Ok((b1, None))
    else
      var flags :- if attrs.None? then Ok(InitialFlags) else DependencyAttributes(attrs.value, InitialFlags);
      var (b1, i) := ModuleRefOf(b, from);
      var (b2, j) := ModuleRefOf(b1, to.value);
      var d := DependencyBuilder(from, to.value, flags.scope, flags.expectedBy, flags.exported);
      RegisteredAt(b1, from, i);
      ModuleRefKeepsRegistered(b1, to.value, from);
      RegisteredAt(b2, to.value, j);
      AppendDependencyValid(b2, d);
      Ok((Builder(b2.refs, b2.dependencies + [d]), Some(d)))
  }

  lemma RegisteredAt(b: Builder, name: string, i: nat)
    requires i < |b.refs| && b.refs[i].name == name
    ensures Registered(b, name)
  {
  }

  /** Registering a name keeps every name registered before. */
  lemma ModuleRefKeepsRegistered(b: Builder, name: string, other: string)
    requires Valid(b) && Registered(b, other)
    ensures Registered(ModuleRefOf(b, name).0, other)
  {
    var k :| 0 <= k < |b.refs| && b.refs[k].name == other;
    RegisteredAt(ModuleRefOf(b, name).0, other, k);
  }

  /** A dependency between registered names keeps the builder valid. */
  lemma AppendDependencyValid(b: Builder, d: DependencyBuilder)
    requires Valid(b) && Registered(b, d.from) && Registered(b, d.to)
    ensures Valid(Builder(b.refs, b.dependencies + [d]))
  {
    var b' := Builder(b.refs, b.dependencies + [d]);
    forall k | 0 <= k < |b'.dependencies|
      ensures Registered(b', b'.dependencies[k].from) && Registered(b', b'.dependencies[k].to)
    {
      if k < |b.dependencies| {
        assert b'.dependencies[k] == b.dependencies[k];
      }
    }
  }

  /** A bare `x ->` registers `x`, records no dependency, and is refused when it carries attributes. */
  lemma BareDependency(b: Builder, from: string, attrs: Option<seq<Attr>>)
    requires Valid(b)
    ensures attrs.Some? ==> NewDependency(b, from, None, attrs) == Err(AttributesOnBareDependency)
    ensures attrs.None? ==> NewDependency(b, from, None, attrs) == Ok((ModuleRefOf(b, from).0, None))
    ensures attrs.None? ==> var b' := NewDependency(b, from, None, attrs).value.0;
      b'.dependencies == b.dependencies && Find(b'.refs, from) >= 0
  {
  }

  /** A full declaration appends exactly one dependency builder with the scope
      and flags its attributes give, and registers both ends. */
  lemma FullDependency(b: Builder, from: string, to: string, attrs: Option<seq<Attr>>)
    requires Valid(b)
    requires NewDependency(b, from, Some(to), attrs).Ok?
    ensures var (b', d) := NewDependency(b, from, Some(to), attrs).value;
      var flags := if attrs.None? then InitialFlags else DependencyAttributes(attrs.value, InitialFlags).value;
      && d == Some(DependencyBuilder(from, to, flags.scope, flags.expectedBy, flags.exported))
      && b'.dependencies == b.dependencies + [d.value]
      && Find(b'.refs, from) >= 0 && Find(b'.refs, to) >= 0
  {
  }

  /** The definitions of a file, in order; the first failure stops the reading. */
  function ReadDefs(b: Builder, defs: seq<Def>): (r: Result<Builder, Failure>)
    requires Valid(b)
    ensures r.Ok? ==> Valid(r.value)
    decreases |defs|
  {
    if |defs| == 0 then Ok(b)
    else
      var b1 :- match defs[0]
        case ModuleDef(name, attrs) =>
          var m :- NewModule(b, name, attrs);
          Ok(m.0)
        case DependencyDef(from, to, attrs) =>
          var d :- NewDependency(b, from, to, attrs);
          Ok(d.0);
      ReadDefs(b1, defs[1..])
  }

  // ---------------------------------------------------------------------------
  // Building the result.

  /** `DependencyBuilder.build`. */
  function BuildDependency(d: DependencyBuilder): Dependency {
    Dependency(d.from, d.to, d.scope, d.expectedBy, d.exported)
  }

  /** The `init` block of `Dependency`: the new dependency is appended to the
      `dependencies` of its source module and to the `usages` of its target. */
  function AddLinks(ms: seq<Module>, d: Dependency): (r: seq<Module>)
    ensures |r| == |ms|
  {
    seq(|ms|, i requires 0 <= i < |ms| =>
      ms[i].(dependencies := ms[i].dependencies + (if ms[i].name == d.from then [d] else []),
             usages := ms[i].usages + (if ms[i].name == d.to then [d] else [])))
  }

  /** The dependencies built one after another, each linking itself in. */
  function LinkAll(ms: seq<Module>, ds: seq<Dependency>): (r: seq<Module>)
    ensures |r| == |ms|
    decreases |ds|
  {
    if |ds| == 0 then ms else LinkAll(AddLinks(ms, ds[0]), ds[1..])
  }

  /** The dependencies declared from `name`, in order. */
  function From(ds: seq<Dependency>, name: string): seq<Dependency> {
    if |ds| == 0 then [] else (if ds[0].from == name then [ds[0]] else []) + From(ds[1..], name)
  }

  /** The dependencies that target `name`, in order. */
  function To(ds: seq<Dependency>, name: string): seq<Dependency> {
    if |ds| == 0 then [] else (if ds[0].to == name then [ds[0]] else []) + To(ds[1..], name)
  }

  /** Linking all dependencies gives every module exactly the dependencies
      declared from it and the ones that target it, in declaration order. */
  lemma {:induction false} LinkAllFilters(ms: seq<Module>, ds: seq<Dependency>)
    ensures forall i :: 0 <= i < |ms| ==>
      && LinkAll(ms, ds)[i].name == ms[i].name
      && LinkAll(ms, ds)[i].facet == ms[i].facet
      && LinkAll(ms, ds)[i].dependencies == ms[i].dependencies + From(ds, ms[i].name)
      && LinkAll(ms, ds)[i].usages == ms[i].usages + To(ds, ms[i].name)
    decreases |ds|
  {
    if |ds| > 0 {
      var ms1 := AddLinks(ms, ds[0]);
      LinkAllFilters(ms1, ds[1..]);
      forall i | 0 <= i < |ms|
        ensures LinkAll(ms, ds)[i].dependencies == ms[i].dependencies + From(ds, ms[i].name)
        ensures LinkAll(ms, ds)[i].usages == ms[i].usages + To(ds, ms[i].name)
      {
        var n := ms[i].name;
        assert ms1[i].name == n;
        assert From(ds, n) == (if ds[0].from == n then [ds[0]] else []) + From(ds[1..], n);
        assert To(ds, n) == (if ds[0].to == n then [ds[0]] else []) + To(ds[1..], n);
      }
    }
  }

  /** The targets of the `expectedBy` dependencies in `ds`, in order. */
  function ExpectedTargets(ds: seq<Dependency>): seq<string> {
    if |ds| == 0 then [] else (if ds[0].expectedBy then [ds[0].to] else []) + ExpectedTargets(ds[1..])
  }

  /** `ModuleRef.build`: a module with facet settings records as
      `implementedModuleNames` the targets of its `expectedBy` dependencies;
      nothing else about the module changes. */
  function BuildModule(m: Module): (r: Module)
    ensures r.name == m.name && r.dependencies == m.dependencies && r.usages == m.usages
    ensures r.facet.Some? == m.facet.Some?
    ensures m.facet.None? ==> r == m
    ensures m.facet.Some? ==>
      && r.facet.value.useProjectSettings == m.facet.value.useProjectSettings
      && r.facet.value.additionalArguments == m.facet.value.additionalArguments
      && r.facet.value.compilerArguments == m.facet.value.compilerArguments
      && r.facet.value.implementedModuleNames == ExpectedTargets(m.dependencies)
  {
    if m.facet.None? then m
    else m.(facet := Some(m.facet.value.(implementedModuleNames := ExpectedTargets(m.dependencies))))
  }

  /** The module as `actual` holds it before any dependency is built. */
  function Placeholder(r: ModuleRef): Module {
    Module(r.name, r.facet, [], [])
  }

  /** `readFile` once the definitions are parsed: read them, build every
      dependency (which links it into its modules), then build every module. */
  function ReadFile(fileName: string, defs: seq<Def>): (r: Result<DependenciesTxt, Failure>)
    ensures r.Ok? ==> r.value.fileName == fileName
  {
    var b :- ReadDefs(Builder([], []), defs);
    var deps := seq(|b.dependencies|, k requires 0 <= k < |b.dependencies| => BuildDependency(b.dependencies[k]));
    var linked := LinkAll(seq(|b.refs|, i requires 0 <= i < |b.refs| => Placeholder(b.refs[i])), deps);
    Ok(DependenciesTxt(fileName, seq(|linked|, i requires 0 <= i < |linked| => BuildModule(linked[i])), deps))
  }

  /** What a successful reading yields: one module per registered name, in the
      order the names were first met, referenced-but-undefined ones without
      facet settings; each module lists the dependencies declared from it and
      those targeting it; a defined module's `implementedModuleNames` are the
      targets of its `expectedBy` dependencies, and its other facet settings
      are those its definition gave it; and every dependency's two ends are
      among the modules. */
  lemma ReadFileResult(fileName: string, defs: seq<Def>)
    requires ReadFile(fileName, defs).Ok?
    ensures var b := ReadDefs(Builder([], []), defs).value;
      var t := ReadFile(fileName, defs).value;
      && |t.modules| == |b.refs|
      && |t.dependencies| == |b.dependencies|
      && (forall i :: 0 <= i < |t.modules| ==>
            && t.modules[i].name == b.refs[i].name
            && (t.modules[i].facet.None? <==> !b.refs[i].defined)
            && t.modules[i].dependencies == From(t.dependencies, t.modules[i].name)
            && t.modules[i].usages == To(t.dependencies, t.modules[i].name)
            && (t.modules[i].facet.Some? ==>
                  t.modules[i].facet.value.implementedModuleNames == ExpectedTargets(From(t.dependencies, t.modules[i].name)))
            && (b.refs[i].facet.Some? ==>
                  t.modules[i].facet == Some(b.refs[i].facet.value.(implementedModuleNames := ExpectedTargets(From(t.dependencies, t.modules[i].name))))))
      && (forall k :: 0 <= k < |t.dependencies| ==>
            (exists i :: 0 <= i < |t.modules| && t.modules[i].name == t.dependencies[k].from)
            && (exists j :: 0 <= j < |t.modules| && t.modules[j].name == t.dependencies[k].to))
  {
    var b := ReadDefs(Builder([], []), defs).value;
    var t := ReadFile(fileName, defs).value;
    var deps := seq(|b.dependencies|, k requires 0 <= k < |b.dependencies| => BuildDependency(b.dependencies[k]));
    var ms := seq(|b.refs|, i requires 0 <= i < |b.refs| => Placeholder(b.refs[i]));
    var linked := LinkAll(ms, deps);
    LinkAllFilters(ms, deps);
    assert t.dependencies == deps;
    assert t.modules == seq(|linked|, i requires 0 <= i < |linked| => BuildModule(linked[i]));
    forall i | 0 <= i < |t.modules|
      ensures t.modules[i].name == b.refs[i].name
      ensures t.modules[i].facet.None? <==> !b.refs[i].defined
      ensures t.modules[i].dependencies == From(t.dependencies, t.modules[i].name)
      ensures t.modules[i].usages == To(t.dependencies, t.modules[i].name)
      ensures t.modules[i].facet.Some? ==>
                t.modules[i].facet.value.implementedModuleNames == ExpectedTargets(From(t.dependencies, t.modules[i].name))
      ensures b.refs[i].facet.Some? ==>
                t.modules[i].facet == Some(b.refs[i].facet.value.(implementedModuleNames := ExpectedTargets(From(t.dependencies, t.modules[i].name))))
    {
      assert t.modules[i] == BuildModule(linked[i]);
      assert ms[i] == Placeholder(b.refs[i]);
    }
    forall k | 0 <= k < |t.dependencies|
      ensures exists i :: 0 <= i < |t.modules| && t.modules[i].name == t.dependencies[k].from
      ensures exists j :: 0 <= j < |t.modules| && t.modules[j].name == t.dependencies[k].to
    {
      assert Registered(b, b.dependencies[k].from);
      var i :| 0 <= i < |b.refs| && b.refs[i].name == b.dependencies[k].from;
      assert t.modules[i].name == b.refs[i].name;
      assert Registered(b, b.dependencies[k].to);
      var j :| 0 <= j < |b.refs| && b.refs[j].name == b.dependencies[k].to;
      assert t.modules[j].name == b.refs[j].name;
    }
  }
}

=== FILE: expression_shapes.dfy ===
/** What the visitors produce for the constructs that cannot stay where a
    value is expected: blocks, exits, calls and concatenations with a
    decomposed operand; and how a statement list is lowered: statement by
    statement, each changed statement replaced in place by its statements. */
module ExpressionShapes {
  import opened Wrappers
  import opened Ir
  import opened VisitResults
  import opened BlockDecomposer
  import opened OperandCapture

  // ---------------------------------------------------------------------------
  // Statement lists.

  /** Lowering a list is lowering its two halves one after the other, the
      second half starting from the counter the first one left. */
  lemma {:induction false} LowerRangeSplit(s: seq<Node>, i: nat, m: nat, hi: nat, c: nat)
    requires i <= m <= hi <= |s|
    ensures LowerRange(s, i, hi, c).Ok? <==>
      LowerRange(s, i, m, c).Ok? && LowerRange(s, m, hi, LowerRange(s, i, m, c).value.next).Ok?
    ensures LowerRange(s, i, hi, c).Ok? ==>
      var a := LowerRange(s, i, m, c).value;
      var b := LowerRange(s, m, hi, a.next).value;
      LowerRange(s, i, hi, c).value == ListOut(a.stmts + b.stmts, b.next)
    decreases m - i
  {
    if i < m {
      var h := StmtVisit(s[i], c);
      if h.Ok? {
        LowerRangeSplit(s, i + 1, m, hi, h.value.next);
        LowerRangeSplitStep(s, i, m, hi, c, h.value);
      } else {
        LowerRangeStep(s, i, hi, c);
        LowerRangeStep(s, i, m, c);
      }
    }
  }

  /** The inductive step of `LowerRangeSplit`, for a first statement that was lowered. */
  lemma LowerRangeSplitStep(s: seq<Node>, i: nat, m: nat, hi: nat, c: nat, h: StmtOut)
    requires i < m <= hi <= |s| && StmtVisit(s[i], c) == Ok(h)
    requires LowerRange(s, i + 1, hi, h.next).Ok? <==>
      LowerRange(s, i + 1, m, h.next).Ok? && LowerRange(s, m, hi, LowerRange(s, i + 1, m, h.next).value.next).Ok?
    requires LowerRange(s, i + 1, hi, h.next).Ok? ==>
      var a := LowerRange(s, i + 1, m, h.next).value;
      var b := LowerRange(s, m, hi, a.next).value;
      LowerRange(s, i + 1, hi, h.next).value == ListOut(a.stmts + b.stmts, b.next)
    ensures LowerRange(s, i, hi, c).Ok? <==>
      LowerRange(s, i, m, c).Ok? && LowerRange(s, m, hi, LowerRange(s, i, m, c).value.next).Ok?
    ensures LowerRange(s, i, hi, c).Ok? ==>
      var a := LowerRange(s, i, m, c).value;
      var b := LowerRange(s, m, hi, a.next).value;
      LowerRange(s, i, hi, c).value == ListOut(a.stmts + b.stmts, b.next)
  {
    LowerRangeStep(s, i, hi, c);
    LowerRangeStep(s, i, m, c);
    var ta := LowerRange(s, i + 1, m, h.next);
    if ta.Ok? {
      var tb := LowerRange(s, m, hi, ta.value.next);
      if tb.Ok? {
        SeqAssoc(Emitted(h.result, h.node), ta.value.stmts, tb.value.stmts);
      }
    }
  }

  lemma SeqAssoc(x: seq<Node>, y: seq<Node>, z: seq<Node>)
    ensures x + (y + z) == (x + y) + z
  {
  }

  /** One unfolding of `LowerRange`: the first statement, then the rest. */
  lemma LowerRangeStep(s: seq<Node>, i: nat, hi: nat, c: nat)
    requires i < hi <= |s|
    ensures LowerRange(s, i, hi, c).Ok? <==>
      StmtVisit(s[i], c).Ok? && LowerRange(s, i + 1, hi, StmtVisit(s[i], c).value.next).Ok?
    ensures LowerRange(s, i, hi, c).Ok? ==>
      var h := StmtVisit(s[i], c).value;
      var t := LowerRange(s, i + 1, hi, h.next).value;
      LowerRange(s, i, hi, c).value == ListOut(Emitted(h.result, h.node) + t.stmts, t.next)
  {
  }

  /** One statement of a list: kept, it stays (as updated in place); changed,
      its statements take its place. */
  lemma LowerOne(s: seq<Node>, i: nat, c: nat)
    requires i < |s|
    ensures LowerRange(s, i, i + 1, c).Ok? <==> StmtVisit(s[i], c).Ok?
    ensures StmtVisit(s[i], c).Ok? ==>
      var h := StmtVisit(s[i], c).value;
      && LowerRange(s, i, i + 1, c).value.next == h.next
      && (h.result.Kept? ==> LowerRange(s, i, i + 1, c).value.stmts == [h.node])
      && (h.result.Changed() ==> LowerRange(s, i, i + 1, c).value.stmts == h.result.stmts)
  {
    if StmtVisit(s[i], c).Ok? {
      var h := StmtVisit(s[i], c).value;
      assert LowerRange(s, i + 1, i + 1, h.next) == Ok(ListOut([], h.next));
    }
  }

  // ---------------------------------------------------------------------------
  // Blocks in expression position.

  /** A returnable block or an unknown container kind cannot be lowered where a
      value is expected, nor can a block whose kept last statement is a declaration. */
  lemma BlockErrors(n: Node, c: nat)
    requires n.Container?
    ensures n.kind == ReturnableBlock ==> ExprVisit(n, c) == Err(ReturnableBlockTodo)
    ensures n.kind == OtherContainer ==> ExprVisit(n, c) == Err(UnsupportedBlock)
    ensures (n.kind == Block || n.kind == Composite) && |n.stmts| > 0 && !IsExpression(n.stmts[|n.stmts| - 1]) ==>
      ExprVisit(n, c).Err?
  {
    if (n.kind == Block || n.kind == Composite) && |n.stmts| > 0 {
      var prefix := LowerRange(n.stmts, 0, |n.stmts| - 1, c + 1);
      if prefix.Ok? {
        var last := n.stmts[|n.stmts| - 1];
        assert !IsExpression(last) ==> ExprVisit(last, prefix.value.next) == Ok(ExprOut(Kept, prefix.value.next));
      }
    }
  }

  /** A block where a value is expected always decomposes into the declaration
      of a temporary made first, which is the result, and a block of the same
      kind: an empty block gives the temporary a null initializer and stays
      empty; otherwise the temporary is declared without initializer, the
      block starts with all statements but the last, lowered as statements,
      and ends by assigning the temporary. */
  lemma BlockInExpression(n: Node, c: nat)
    requires n.Container? && ExprVisit(n, c).Ok?
    ensures n.kind == Block || n.kind == Composite
    ensures var r := ExprVisit(n, c).value;
      && r.result.Decomposed? && r.result.resultVar == Some(Temp(c))
      && |r.result.stmts| == 2
      && r.result.stmts[0].VarDecl? && r.result.stmts[0].sym == Temp(c)
      && r.result.stmts[1].Container? && r.result.stmts[1].kind == n.kind
    ensures |n.stmts| == 0 ==>
      ExprVisit(n, c).value.result.stmts == [VarDecl(Temp(c), Some(NullConst)), Container(n.kind, [])]
    ensures |n.stmts| > 0 ==>
      var r := ExprVisit(n, c).value;
      var prefix := LowerRange(n.stmts, 0, |n.stmts| - 1, c + 1);
      var body := r.result.stmts[1].stmts;
      && r.result.stmts[0] == VarDecl(Temp(c), None)
      && prefix.Ok? && |body| > |prefix.value.stmts|
      && body[..|prefix.value.stmts|] == prefix.value.stmts
      && body[|body| - 1].SetVariable? && body[|body| - 1].sym == Temp(c)
  {
    if |n.stmts| > 0 {
      var prefix := LowerRange(n.stmts, 0, |n.stmts| - 1, c + 1).value;
      var last := n.stmts[|n.stmts| - 1];
      var o := ExprVisit(last, prefix.next).value;
      var body := prefix.stmts + Prelude(o.result) + [SetVariable(Temp(c), ValueOf(o.result, last))];
      assert body[..|prefix.stmts|] == prefix.stmts;
    }
  }

  // ---------------------------------------------------------------------------
  // Exits.

  /** `return` and `throw` where a value is expected terminate: the value's
      statements, the rebuilt exit on the value, and a null aggregate
      temporary, made last, that is the result. */
  lemma ExitInExpression(n: Node, c: nat)
    requires (n.Return? || n.Throw?) && ExprVisit(n, c).Ok?
    ensures var r := ExprVisit(n, c).value;
      var o := ExprVisit(n.value, c).value;
      var s := r.result.stmts;
      && r.result.Terminated?
      && r.next == o.next + 1
      && r.result.resultVar == Some(Temp(o.next))
      && |s| >= 2
      && s[..|s| - 2] == Prelude(o.result)
      && s[|s| - 1] == VarDecl(Temp(o.next), Some(NullConst))
      && (n.Return? ==> s[|s| - 2] == Return(n.target, ValueOf(o.result, n.value)))
      && (n.Throw? ==> s[|s| - 2] == Throw(ValueOf(o.result, n.value)))
  {
    var r := ExprVisit(n, c).value;
    var o := ExprVisit(n.value, c).value;
    var s := r.result.stmts;
    assert s[..|s| - 2] == Prelude(o.result);
  }

  /** A `break` or `continue` where a value is expected decomposes (it does not
      terminate) into the jump and a null temporary that is the result. */
  lemma JumpInExpression(n: Node, c: nat)
    requires n.Jump?
    ensures ExprVisit(n, c) == Ok(ExprOut(Decomposed([n, VarDecl(Temp(c), Some(NullConst))], Some(Temp(c))), c + 1))
  {
  }

  /** `return` and `throw` as statements: kept when their value is kept,
      otherwise the value's statements followed by the rebuilt exit. */
  lemma ExitInStatement(n: Node, c: nat)
    requires (n.Return? || n.Throw?) && StmtVisit(n, c).Ok?
    ensures ExprVisit(n.value, c).Ok?
    ensures var r := StmtVisit(n, c).value;
      var o := ExprVisit(n.value, c).value;
      && r.next == o.next
      && (o.result.Kept? <==> r.result.Kept?)
      && (o.result.Changed() ==>
            && r.result.Decomposed? && r.result.resultVar.None?
            && |r.result.stmts| == |o.result.stmts| + 1
            && r.result.stmts[..|o.result.stmts|] == o.result.stmts
            && (n.Return? ==> r.result.stmts[|o.result.stmts|] == Return(n.target, GetValue(o.result.resultVar.value)))
            && (n.Throw? ==> r.result.stmts[|o.result.stmts|] == Throw(GetValue(o.result.resultVar.value))))
  {
    var o := ExprVisit(n.value, c).value;
    if o.result.Changed() {
      var r := StmtVisit(n, c).value;
      assert r.result.stmts[..|o.result.stmts|] == o.result.stmts;
    }
  }

  /** The value a variable declaration with an initializer, or an assignment, stores. */
  function StoredValue(n: Node): Node
    requires (n.VarDecl? && n.init.Some?) || n.SetVariable?
  {
    if n.VarDecl? then n.init.value else n.value
  }

  /** A variable declaration with an initializer, or an assignment, as a
      statement: kept when its value is kept, otherwise the value's
      statements followed by the declaration or assignment reading the
      value's temporary (`val x = x_tmp`). */
  lemma StoreInStatement(n: Node, c: nat)
    requires (n.VarDecl? && n.init.Some?) || n.SetVariable?
    requires StmtVisit(n, c).Ok?
    ensures ExprVisit(StoredValue(n), c).Ok?
    ensures var r := StmtVisit(n, c).value;
      var o := ExprVisit(StoredValue(n), c).value;
      && r.next == o.next && r.node == n
      && (o.result.Kept? <==> r.result.Kept?)
      && (o.result.Changed() ==>
            && o.result.resultVar.Some?
            && (n.VarDecl? ==> r.result == Decomposed(o.result.stmts + [VarDecl(n.sym, Some(GetValue(o.result.resultVar.value)))], None))
            && (n.SetVariable? ==> r.result == Decomposed(o.result.stmts + [SetVariable(n.sym, GetValue(o.result.resultVar.value))], None)))
  {
  }

  // ---------------------------------------------------------------------------
  // Calls and string concatenations.

  /** Rebuilding a node from its operands and reading them back are inverse. */
  lemma RebuildRoundTrip(n: Node, ops: seq<Option<Node>>)
    requires n.Call? || n.Concat?
    requires |ops| == |OperandsOf(n)|
    requires n.Concat? ==> forall j :: 0 <= j < |ops| ==> ops[j].Some?
    ensures Rebuild(n, OperandsOf(n)) == n
    ensures OperandsOf(Rebuild(n, ops)) == ops
    ensures Rebuild(n, ops).Call? == n.Call?
    ensures n.Call? ==> Rebuild(n, ops).callee == n.callee
  {
    if n.Call? {
      assert ([n.dispatch, n.extension] + n.args)[2..] == n.args;
      assert [ops[0], ops[1]] + ops[2..] == ops;
    } else {
      assert Rebuild(n, OperandsOf(n)).parts == n.parts;
      assert OperandsOf(Rebuild(n, ops)) == ops;
    }
  }

  /** The operands of the rebuilt node: absent ones stay absent, present ones
      up to the last changed one read temporaries made in `[lo, hi)`, later
      ones are the originals. */
  ghost predicate Captured(ops: seq<Option<Node>>, rs: seq<Visit>, call: Node, lo: nat, hi: nat) {
    && (call.Call? || call.Concat?)
    && |OperandsOf(call)| == |ops|
    && forall j :: 0 <= j < |ops| ==>
         && (ops[j].None? ==> OperandsOf(call)[j].None?)
         && (ops[j].Some? && j <= LastChanged(rs) ==> TempRead(OperandsOf(call)[j], lo, hi))
         && (ops[j].Some? && j > LastChanged(rs) ==> OperandsOf(call)[j] == ops[j])
  }

  /** A call or concatenation is kept exactly when every operand was kept.
      Otherwise each present operand up to the last changed one is captured
      in a temporary, later ones stay; the statements are those of
      `CaptureReference` (every operand's own statements in operand order,
      each capture right after its operand's statements), followed by the
      declaration of a fresh temporary, made last, holding the rebuilt node,
      and that temporary is the result. */
  ghost predicate Assembled(n: Node, vs: OperandsOut, r: ExprOut)
    requires n.Call? || n.Concat?
  {
    && (r.result.Kept? <==> forall j :: 0 <= j < |vs.results| ==> vs.results[j].Kept?)
    && (r.result.Changed() ==>
          var s := r.result.stmts;
          && r.result.Decomposed? && r.next > 0 && r.result.resultVar == Some(Temp(r.next - 1))
          && |s| > 0 && s[|s| - 1].VarDecl? && s[|s| - 1].sym == Temp(r.next - 1)
          && s[|s| - 1].init.Some?
          && s[|s| - 1].init.value.Call? == n.Call?
          && (n.Call? ==> s[|s| - 1].init.value.callee == n.callee)
          && Captured(OperandsOf(n), vs.results, s[|s| - 1].init.value, vs.next, r.next - 1)
          && Produced(OperandsOf(n), vs.results)
          && var ref := CaptureReference(OperandsOf(n), vs.results, LastChanged(vs.results), vs.next);
          && s[..|s| - 1] == ref.stmts
          && r.next - 1 == ref.next
          && |ref.operands| == |OperandsOf(n)|
          && s[|s| - 1].init.value == Rebuild(n, ref.operands))
  }

  /** The operands of a call or concatenation are visited in order, and the
      outcome is assembled from theirs as `Assembled` says. */
  lemma OperandsInExpression(n: Node, c: nat)
    requires (n.Call? || n.Concat?) && ExprVisit(n, c).Ok?
    ensures VisitOperands(n, 0, c).Ok?
    ensures |VisitOperands(n, 0, c).value.results| == |OperandsOf(n)|
    ensures Assembled(n, VisitOperands(n, 0, c).value, ExprVisit(n, c).value)
  {
    assert ExprVisit(n, c) == ExprOperands(n, c);
    var vs := VisitOperands(n, 0, c).value;
    assert OperandsOf(n)[0..] == OperandsOf(n);
    OperandsAssembled(n, vs, c);
  }

  /** `ExprOperands` once the operands were visited. */
  lemma OperandsAssembled(n: Node, vs: OperandsOut, c: nat)
    requires n.Call? || n.Concat?
    requires VisitOperands(n, 0, c) == Ok(vs)
    requires OperandsOk(OperandsOf(n), vs, c)
    ensures ExprOperands(n, c).Ok? && Assembled(n, vs, ExprOperands(n, c).value)
  {
    var ops := OperandsOf(n);
    var count := ChangedCount(vs.results);
    if count == 0 {
      assert ExprOperands(n, c) == Ok(ExprOut(Kept, vs.next));
      ChangedCountZero(vs.results);
    } else {
      assert Produced(ops, vs.results) by {
        forall j | 0 <= j < |vs.results| && vs.results[j].Changed()
          ensures ops[j].Some? && vs.results[j].resultVar.Some?
        {
          assert FreshVar(vs.results[j], c, vs.next);
        }
      }
      var m := MapArguments(ops, vs.results, count, 0, vs.next);
      assert ExprOperands(n, c) == Ok(ExprOut(Decomposed(m.stmts + [VarDecl(Temp(m.next), Some(Rebuild(n, m.operands)))], Some(Temp(m.next))), m.next + 1));
      ChangedAssembled(n, vs, m);
    }
  }

  /** The decomposed outcome, built from the mapped operands. */
  lemma ChangedAssembled(n: Node, vs: OperandsOut, m: Mapped)
    requires n.Call? || n.Concat?
    requires Produced(OperandsOf(n), vs.results) && ChangedCount(vs.results) > 0
    requires m == MapArguments(OperandsOf(n), vs.results, ChangedCount(vs.results), 0, vs.next)
    ensures Assembled(n, vs, ExprOut(Decomposed(m.stmts + [VarDecl(Temp(m.next), Some(Rebuild(n, m.operands)))], Some(Temp(m.next))), m.next + 1))
  {
    ChangedCountZero(vs.results);
    var s := m.stmts + [VarDecl(Temp(m.next), Some(Rebuild(n, m.operands)))];
    assert s[|s| - 1] == VarDecl(Temp(m.next), Some(Rebuild(n, m.operands)));
    assert s[..|s| - 1] == m.stmts;
    CallCaptures(n, vs.results, vs.next);
    CaptureFromStartReference(OperandsOf(n), vs.results, vs.next);
  }

  /** The rebuilt call of `visitFunctionAccess` / `visitStringConcatenation`. */
  lemma CallCaptures(n: Node, rs: seq<Visit>, c: nat)
    requires n.Call? || n.Concat?
    requires Produced(OperandsOf(n), rs)
    ensures var m := MapArguments(OperandsOf(n), rs, ChangedCount(rs), 0, c);
      var call := Rebuild(n, m.operands);
      && call.Call? == n.Call? && (n.Call? ==> call.callee == n.callee)
      && Captured(OperandsOf(n), rs, call, c, m.next)
  {
    var ops := OperandsOf(n);
    var m := MapArguments(ops, rs, ChangedCount(rs), 0, c);
    CaptureFromStart(ops, rs, c);
    assert n.Concat? ==> forall j :: 0 <= j < |m.operands| ==> m.operands[j].Some? by {
      if n.Concat? {
        forall j | 0 <= j < |m.operands| ensures m.operands[j].Some? {
          assert ops[j].Some?;
        }
      }
    }
    RebuildRoundTrip(n, m.operands);
  }
}

=== FILE: ir.dfy ===
/** The part of the Kotlin IR tree that the JS block decomposer reads and builds.

    Kotlin IR statements and expressions are all `IrStatement`s, so one closed
    datatype `Node` stands for both; which visitor looks at a node decides
    whether its value is used.  Offsets, origins and `KotlinType`s are left
    out; the only type fact the pass consults, "is this type Unit", is kept on
    type-operator calls.  Loops carry an identity `LoopId` and `break` /
    `continue` refer to that id, so retargeting a jump is a substitution. */
module Ir {
  import opened Wrappers

  /** A variable symbol: one declared by the program, or a temporary the
      decomposer created at counter value `index` (rendered by `Names.TempName`). */
  datatype VarSym = Local(id: nat) | Temp(index: nat)

  /** A loop label: written by the programmer, or made by `makeLoopLabel` at
      counter value `index` (rendered by `Names.LabelName`). */
  datatype Label = SourceLabel(text: string) | GeneratedLabel(index: nat)

  /** Identity of a loop node.  A loop the decomposer replaces gets the id
      `Rewritten(old)`; the single-pass `do {} while (false)` wrapper it puts
      around a do-while body gets `BodyOnce(old)`. */
  datatype LoopId = SourceLoop(id: nat) | Rewritten(original: LoopId) | BodyOnce(original: LoopId)

  datatype Callee = Fun(id: nat) | BooleanNot

  /** `IrBlock`, `IrComposite`, `IrReturnableBlock`, or any other container class. */
  datatype ContainerKind = Block | Composite | ReturnableBlock | OtherContainer

  datatype Literal = IntLit(n: int) | BoolLit(b: bool) | NullLit

  datatype JumpKind = BreakJump | ContinueJump

  datatype LoopKind = WhileLoop | DoWhileLoop

  datatype Node =
    | VarDecl(sym: VarSym, init: Option<Node>)
    | FieldDecl(field: nat, init: Option<Node>)
    | Const(lit: Literal)
    | GetValue(sym: VarSym)
    | SetVariable(sym: VarSym, value: Node)
    | GetField(field: nat, receiver: Option<Node>)
    | SetField(field: nat, receiver: Option<Node>, value: Node)
      /** a function access: dispatch receiver, extension receiver, value arguments (an argument slot may be empty) */
    | Call(callee: Callee, dispatch: Option<Node>, extension: Option<Node>, args: seq<Option<Node>>)
    | Concat(parts: seq<Node>)
      /** a type-operator call (`is`, `as`, ...); `unitTyped` records whether its type is Unit */
    | TypeOp(op: nat, unitTyped: bool, arg: Node)
    | Container(kind: ContainerKind, stmts: seq<Node>)
    | When(branches: seq<Branch>)
    | Return(target: nat, value: Node)
    | Throw(value: Node)
    | Jump(jump: JumpKind, loop: LoopId)
    | Loop(loopKind: LoopKind, id: LoopId, loopLabel: Option<Label>, cond: Node, body: Option<Node>)

  /** One arm of a `when`; `isElse` marks an `IrElseBranch`. */
  datatype Branch = Branch(isElse: bool, cond: Node, result: Node)

  /** A function body: a statement list (`IrBlockBody`) or an expression body. */
  datatype Body = BlockBody(stmts: seq<Node>) | ExpressionBody(expr: Node)

  datatype IrFunction = IrFunction(id: nat, body: Option<Body>)

  const TrueConst: Node := Const(BoolLit(true))
  const FalseConst: Node := Const(BoolLit(false))
  const NullConst: Node := Const(NullLit)

  /** `IrIfThenElseImpl`: a `when` with one conditional branch and, when an
      else part is given, an else branch guarded by `true`. */
  function IfThenElse(cond: Node, thenPart: Node, elsePart: Option<Node>): Node {
    When([Branch(false, cond, thenPart)]
         + (if elsePart.Some? then [Branch(true, TrueConst, elsePart.value)] else []))
  }

  /** Declarations are the statements that are not expressions. */
  predicate IsExpression(n: Node) {
    !n.VarDecl? && !n.FieldDecl?
  }

  // ---------------------------------------------------------------------------
  // Generated names held by a tree: the counter values of the temporaries it
  // declares and of the generated labels its loops carry.

  function LabelNames(l: Option<Label>): multiset<nat> {
    if l.Some? && l.value.GeneratedLabel? then multiset{l.value.index} else multiset{}
  }

  function DeclNames(s: VarSym): multiset<nat> {
    if s.Temp? then multiset{s.index} else multiset{}
  }

  function GenNames(n: Node): multiset<nat> {
    match n
    case VarDecl(sym, init) => DeclNames(sym) + GenNamesOpt(init)
    case FieldDecl(_, init) => GenNamesOpt(init)
    case Const(_) => multiset{}
    case GetValue(_) => multiset{}
    case SetVariable(_, v) => GenNames(v)
    case GetField(_, r) => GenNamesOpt(r)
    case SetField(_, r, v) => GenNamesOpt(r) + GenNames(v)
    case Call(_, d, e, args) => GenNamesOpt(d) + GenNamesOpt(e) + GenNamesOpts(args)
    case Concat(parts) => GenNamesList(parts)
    case TypeOp(_, _, a) => GenNames(a)
    case Container(_, s) => GenNamesList(s)
    case When(bs) => GenNamesBranches(bs)
    case Return(_, v) => GenNames(v)
    case Throw(v) => GenNames(v)
    case Jump(_, _) => multiset{}
    case Loop(_, _, l, cond, body) => LabelNames(l) + GenNames(cond) + GenNamesOpt(body)
  }

  function GenNamesOpt(o: Option<Node>): multiset<nat> {
    if o.Some? then GenNames(o.value) else multiset{}
  }

  function GenNamesList(s: seq<Node>): multiset<nat> {
    if |s| == 0 then multiset{} else GenNames(s[0]) + GenNamesList(s[1..])
  }

  function GenNamesOpts(s: seq<Option<Node>>): multiset<nat> {
    if |s| == 0 then multiset{} else GenNamesOpt(s[0]) + GenNamesOpts(s[1..])
  }

  function GenNamesBranches(bs: seq<Branch>): multiset<nat> {
    if |bs| == 0 then multiset{}
    else GenNamesBranch(bs[0]) + GenNamesBranches(bs[1..])
  }

  function GenNamesBranch(b: Branch): multiset<nat> {
    GenNames(b.cond) + GenNames(b.result)
  }

  lemma {:induction false} GenNamesListAppend(a: seq<Node>, b: seq<Node>)
    ensures GenNamesList(a + b) == GenNamesList(a) + GenNamesList(b)
    decreases |a|
  {
    if |a| == 0 {
      assert a + b == b;
    } else {
      assert (a + b)[0] == a[0];
      assert (a + b)[1..] == a[1..] + b;
      GenNamesListAppend(a[1..], b);
    }
  }

  lemma GenNamesListSingle(n: Node)
    ensures GenNamesList([n]) == GenNames(n)
  {
    assert [n][1..] == [];
  }

  lemma {:induction false} GenNamesOptsAppend(a: seq<Option<Node>>, b: seq<Option<Node>>)
    ensures GenNamesOpts(a + b) == GenNamesOpts(a) + GenNamesOpts(b)
    decreases |a|
  {
    if |a| == 0 {
      assert a + b == b;
    } else {
      assert (a + b)[0] == a[0];
      assert (a + b)[1..] == a[1..] + b;
      GenNamesOptsAppend(a[1..], b);
    }
  }

  lemma {:induction false} GenNamesBranchesAppend(a: seq<Branch>, b: seq<Branch>)
    ensures GenNamesBranches(a + b) == GenNamesBranches(a) + GenNamesBranches(b)
    decreases |a|
  {
    if |a| == 0 {
      assert a + b == b;
    } else {
      assert (a + b)[0] == a[0];
      assert (a + b)[1..] == a[1..] + b;
      GenNamesBranchesAppend(a[1..], b);
    }
  }

  /** The counter values `lo, lo + 1, ..., hi - 1`, each once. */
  function Range(lo: nat, hi: nat): (r: multiset<nat>)
    ensures forall k :: r[k] == (if lo <= k < hi then 1 else 0)
    decreases hi - lo
  {
    if hi <= lo then multiset{} else multiset{lo} + Range(lo + 1, hi)
  }

  /** A multiset of counter values in which no value occurs twice. */
  ghost predicate Distinct(m: multiset<nat>) {
    forall k :: m[k] <= 1
  }

  // ---------------------------------------------------------------------------
  // Trees the decomposer has nothing to do with: no block, `when`, exit or
  // loop anywhere inside.

  predicate Simple(n: Node) {
    match n
    case VarDecl(_, init) => SimpleOpt(init)
    case FieldDecl(_, init) => SimpleOpt(init)
    case Const(_) => true
    case GetValue(_) => true
    case SetVariable(_, v) => Simple(v)
    case GetField(_, r) => SimpleOpt(r)
    case SetField(_, r, v) => SimpleOpt(r) && Simple(v)
    case Call(_, d, e, args) => SimpleOpt(d) && SimpleOpt(e) && SimpleOpts(args)
    case Concat(parts) => SimpleList(parts)
    case TypeOp(_, _, a) => Simple(a)
    case _ => false
  }

  predicate SimpleOpt(o: Option<Node>) {
    o.Some? ==> Simple(o.value)
  }

  predicate SimpleList(s: seq<Node>) {
    forall i :: 0 <= i < |s| ==> Simple(s[i])
  }

  predicate SimpleOpts(s: seq<Option<Node>>) {
    forall i :: 0 <= i < |s| ==> SimpleOpt(s[i])
  }
}

=== FILE: loop_rewrites.dfy ===
/** The loop rewrites of the statement visitor.  A loop whose condition is
    kept stays a loop (its body lowered in place).  A `while` whose condition
    decomposed becomes the hoisted declarations of the condition's statements
    followed by `while (true) { condStmts; if (!c) break; body }`; a
    `do-while` becomes the hoisted declarations followed by
    `outer: do { inner: do { body } while (false); condStmts } while (c)`.
    Jumps to the old loop are redirected to the loops that replace it. */
module LoopRewrites {
  import opened Wrappers
  import opened Ir
  import opened VisitResults
  import opened BlockDecomposer
  import opened BreakContinueUpdater
  import ConditionSplitter

  /** A loop id differs from the ids derived from it. */
  lemma DerivedIdsAreNew(id: LoopId)
    ensures Rewritten(id) != id && BodyOnce(id) != id && Rewritten(id) != BodyOnce(id)
  {
    assert id < Rewritten(id) && id < BodyOnce(id);
  }

  /** The `while` rewrite: the condition's declarations, every one of them
      (nested ones included) hoisted without initializer in the order they
      occur; then one loop with a new id, the original label and condition
      `true`, whose body is the condition's remaining statements, the exit
      test and the old body, all with jumps to the old loop redirected to the
      new one (the exit test's `break` included).  No jump in the new loop
      names the old loop, and jumps to other loops are untouched. */
  lemma WhileRewriteShape(id: LoopId, lab: Option<Label>, condStmts: seq<Node>, cv: VarSym, body: Node)
    ensures var out := RewriteWhile(id, lab, condStmts, cv, body);
      var split := ConditionSplitter.SplitList(condStmts);
      var u := Updater(id, Rewritten(id), Rewritten(id));
      && |out| == |split.hoisted| + 1
      && out[..|out| - 1] == split.hoisted
      && ConditionSplitter.BareDecls(split.hoisted)
      && ConditionSplitter.Syms(split.hoisted) == ConditionSplitter.SitesList(condStmts)
      && var loop := out[|out| - 1];
      && loop.Loop? && loop.loopKind == WhileLoop && loop.id == Rewritten(id)
      && loop.loopLabel == lab && loop.cond == TrueConst
      && loop.body.Some? && loop.body.value.Container? && loop.body.value.kind == Block
      && var b := loop.body.value.stmts;
      && |b| == |split.stmts| + 2
      && b[..|split.stmts|] == RetargetList(u, split.stmts)
      && b[|split.stmts|] == ExitTest(cv, Rewritten(id))
      && b[|split.stmts| + 1] == Retarget(u, body)
      && NoJumpTo(Jumps(loop.body.value), id)
      && RedirectedFrom(u, Jumps(loop.body.value), JumpsList(split.stmts + [ExitTest(cv, id), body]))
  {
    var split := ConditionSplitter.SplitList(condStmts);
    ConditionSplitter.SplitListHoistsSites(condStmts);
    RewrittenLoopShape(id, lab, split.stmts, cv, body);
    AppendLast(split.hoisted, RewrittenWhileLoop(id, lab, split.stmts, cv, body));
  }

  /** The loop replacing the `while`, on the condition's remaining statements. */
  lemma RewrittenLoopShape(id: LoopId, lab: Option<Label>, stmts: seq<Node>, cv: VarSym, body: Node)
    ensures var loop := RewrittenWhileLoop(id, lab, stmts, cv, body);
      var u := Updater(id, Rewritten(id), Rewritten(id));
      && loop.Loop? && loop.loopKind == WhileLoop && loop.id == Rewritten(id)
      && loop.loopLabel == lab && loop.cond == TrueConst
      && loop.body.Some? && loop.body.value.Container? && loop.body.value.kind == Block
      && var b := loop.body.value.stmts;
      && |b| == |stmts| + 2
      && b[..|stmts|] == RetargetList(u, stmts)
      && b[|stmts|] == ExitTest(cv, Rewritten(id))
      && b[|stmts| + 1] == Retarget(u, body)
      && NoJumpTo(Jumps(loop.body.value), id)
      && RedirectedFrom(u, Jumps(loop.body.value), JumpsList(stmts + [ExitTest(cv, id), body]))
  {
    var u := Updater(id, Rewritten(id), Rewritten(id));
    var nb := Container(Block, stmts + [ExitTest(cv, id), body]);
    DerivedIdsAreNew(id);
    RetargetLeavesNoJumpToOld(u, nb);
    RetargetListAppendTwo(u, stmts, ExitTest(cv, id), body);
    ExitTestRetargeted(cv, id, Rewritten(id));
  }

  lemma AppendLast(s: seq<Node>, x: Node)
    ensures |s + [x]| == |s| + 1 && (s + [x])[..|s|] == s && (s + [x])[|s|] == x
  {
  }

  /** The exit test's `break` is the only jump in it. */
  lemma ExitTestRetargeted(cv: VarSym, id: LoopId, newId: LoopId)
    ensures Retarget(Updater(id, newId, newId), ExitTest(cv, id)) == ExitTest(cv, newId)
  {
    var u := Updater(id, newId, newId);
    var arg := [Some(GetValue(cv))];
    var notCall := Call(BooleanNot, None, None, arg);
    assert RetargetOpts(u, arg) == arg by {
      assert arg[1..] == [];
      assert RetargetOpts(u, []) == [];
      assert RetargetOpt(u, arg[0]) == arg[0];
    }
    var jumps := [Jump(BreakJump, id)];
    assert RetargetList(u, jumps) == [Jump(BreakJump, newId)] by {
      assert jumps[1..] == [];
      assert RetargetList(u, []) == [];
    }
    var bs := [Branch(false, notCall, Container(Block, jumps))];
    assert RetargetBranches(u, bs) == [Branch(false, notCall, Container(Block, [Jump(BreakJump, newId)]))] by {
      assert bs[1..] == [];
      assert RetargetBranches(u, []) == [];
      assert RetargetBranch(u, bs[0]) == Branch(false, notCall, Container(Block, [Jump(BreakJump, newId)]));
    }
  }

  lemma RetargetListAppendTwo(u: Updater, a: seq<Node>, x: Node, y: Node)
    ensures RetargetList(u, a + [x, y]) == RetargetList(u, a) + [Retarget(u, x), Retarget(u, y)]
  {
    RetargetListSplit(u, a, [x, y]);
    assert [x, y][1..] == [y];
    assert [y][1..] == [];
  }

  /** The `do-while` rewrite: the condition's declarations hoisted as for
      `while`; then an outer loop with a new id, the original label (or, when
      there was none, the label made second), condition `c` and body
      `[inner] + condStmts`; the inner loop has its own new id, the label made
      first, condition `false` and the old body.  In the old body a `break` of
      the old loop now leaves the outer loop and a `continue` of it now
      leaves the inner loop, so that the condition is evaluated next; nothing
      in the inner loop names the old loop any more.  Generated labels come
      from the counter interval the rewrite consumes. */
  lemma DoWhileRewriteShape(id: LoopId, lab: Option<Label>, condStmts: seq<Node>, cv: VarSym, body: Node, c: nat)
    ensures var w := RewriteDoWhile(id, lab, condStmts, cv, body, c);
      var split := ConditionSplitter.SplitList(condStmts);
      var u := Updater(id, Rewritten(id), BodyOnce(id));
      && |w.stmts| == |split.hoisted| + 1
      && w.stmts[..|w.stmts| - 1] == split.hoisted
      && ConditionSplitter.BareDecls(split.hoisted)
      && ConditionSplitter.Syms(split.hoisted) == ConditionSplitter.SitesList(condStmts)
      && var outer := w.stmts[|w.stmts| - 1];
      && outer.Loop? && outer.loopKind == DoWhileLoop && outer.id == Rewritten(id)
      && outer.cond == GetValue(cv)
      && (lab.Some? ==> outer.loopLabel == lab && w.next == c + 1)
      && (lab.None? ==> outer.loopLabel == Some(GeneratedLabel(c + 1)) && w.next == c + 2)
      && outer.body.Some? && outer.body.value.Container? && outer.body.value.kind == Block
      && |outer.body.value.stmts| == |split.stmts| + 1
      && outer.body.value.stmts[1..] == split.stmts
      && var inner := outer.body.value.stmts[0];
      && inner.Loop? && inner.loopKind == DoWhileLoop && inner.id == BodyOnce(id)
      && inner.loopLabel == Some(GeneratedLabel(c)) && inner.cond == FalseConst
      && inner.body == Some(Retarget(u, body))
      && NoJumpTo(Jumps(inner), id)
      && RedirectedFrom(u, JumpsOpt(inner.body), Jumps(body))
  {
    var u := Updater(id, Rewritten(id), BodyOnce(id));
    ConditionSplitter.SplitListHoistsSites(condStmts);
    DerivedIdsAreNew(id);
    RetargetLeavesNoJumpToOld(u, body);
  }

  /** Redirection as the `do-while` rewrite applies it: a break of the old loop
      goes to the outer loop, a continue to the inner one, any other jump stays. */
  lemma DoWhileRedirect(id: LoopId, j: JumpRef)
    ensures var r := Redirect(Updater(id, Rewritten(id), BodyOnce(id)), j);
      && (j.loop == id && j.kind == BreakJump ==> r == JumpRef(BreakJump, Rewritten(id)))
      && (j.loop == id && j.kind == ContinueJump ==> r == JumpRef(ContinueJump, BodyOnce(id)))
      && (j.loop != id ==> r == j)
  {
  }

  /** The outcomes of a loop's condition and body as the statement visitor
      computes them, in the order it visits them. */
  function ConditionOf(n: Node, c: nat): Result<ExprOut, Failure>
    requires n.Loop?
  {
    if n.loopKind == WhileLoop then ExprVisit(n.cond, c)
    else
      var bo :- StmtOpt(n.body, c);
      ExprVisit(n.cond, bo.next)
  }

  function BodyOf(n: Node, c: nat): Result<OptOut, Failure>
    requires n.Loop?
  {
    if n.loopKind == DoWhileLoop then StmtOpt(n.body, c)
    else
      var co :- ExprVisit(n.cond, c);
      StmtOpt(n.body, co.next)
  }

  /** A loop whose condition is kept is kept: same kind, id, label and
      condition, its body lowered in place. */
  lemma LoopConditionKept(n: Node, c: nat)
    requires n.Loop? && StmtVisit(n, c).Ok?
    requires ConditionOf(n, c).Ok? && ConditionOf(n, c).value.result.Kept?
    ensures BodyOf(n, c).Ok?
    ensures var r := StmtVisit(n, c).value;
      && r.result.Kept?
      && r.node == Loop(n.loopKind, n.id, n.loopLabel, n.cond, BodyOf(n, c).value.node)
  {
  }

  /** A loop whose condition decomposed is replaced by its rewrite, built from
      the condition's statements and temporary and the body as lowered; the
      rewrite has no value and is not a termination. */
  lemma LoopConditionChanged(n: Node, c: nat)
    requires n.Loop? && StmtVisit(n, c).Ok?
    requires ConditionOf(n, c).Ok? && ConditionOf(n, c).value.result.Changed()
    ensures BodyOf(n, c).Ok? && BodyOf(n, c).value.result.Kept? && BodyOf(n, c).value.node.Some?
    ensures var co := ConditionOf(n, c).value;
      var body := BodyOf(n, c).value.node.value;
      var r := StmtVisit(n, c).value;
      && co.result.resultVar.Some?
      && r.result.Decomposed?
      && (n.loopKind == WhileLoop ==>
            r.result == Decomposed(RewriteWhile(n.id, n.loopLabel, co.result.stmts, co.result.resultVar.value, body), None))
      && (n.loopKind == DoWhileLoop ==>
            r.result == Decomposed(RewriteDoWhile(n.id, n.loopLabel, co.result.stmts, co.result.resultVar.value, body, co.next).stmts, None))
  {
  }
}

=== FILE: name_accounting.dfy ===
/** Every temporary (`makeTempVar`) and every generated loop label
    (`makeLoopLabel`) the pass creates takes a fresh value of the one counter
    threaded through the visitors.  This module proves, for every visitor, that
    what a visited node contributes in its new place declares at most the
    generated names the node declared before plus the counter values the
    visit consumed, each once (`Ir.GenNames`, `Ir.Range`).  For a whole
    function whose body declares no generated name, every name the lowered body
    declares is therefore declared once and was made by the counter. */
module NameAccounting {
  import opened Wrappers
  import opened Ir
  import opened VisitResults
  import opened BlockDecomposer
  import opened AssemblyNames
  import SimpleTrees

  // ---------------------------------------------------------------------------
  // The bound each visitor keeps.

  ghost predicate ExprBound(n: Node, c: nat, r: Result<ExprOut, Failure>) {
    r.Ok? ==> VisitNames(r.value.result, n) <= GenNames(n) + Range(c, r.value.next)
  }

  ghost predicate OptBound(o: Option<Node>, c: nat, r: Result<ExprOut, Failure>) {
    r.Ok? ==> OptVisitNames(r.value.result, o) <= GenNamesOpt(o) + Range(c, r.value.next)
  }

  /** For the statement visitor the kept node is the node as updated in place. */
  ghost predicate StmtBound(n: Node, c: nat, r: Result<StmtOut, Failure>) {
    r.Ok? ==> VisitNames(r.value.result, r.value.node) <= GenNames(n) + Range(c, r.value.next)
  }

  ghost predicate StmtOptBound(o: Option<Node>, c: nat, r: Result<OptOut, Failure>) {
    r.Ok? ==> r.value.node.Some? == o.Some? && OptVisitNames(r.value.result, r.value.node) <= GenNamesOpt(o) + Range(c, r.value.next)
  }

  ghost predicate OperandsBound(ops: seq<Option<Node>>, c: nat, r: Result<OperandsOut, Failure>) {
    r.Ok? ==> |r.value.results| == |ops| && OperandNames(ops, r.value.results) <= GenNamesOpts(ops) + Range(c, r.value.next)
  }

  ghost predicate BranchBound(b: Branch, c: nat, r: Result<BranchOut, Failure>) {
    r.Ok? ==> BranchVisitNames(b, r.value.visit) <= GenNamesBranch(b) + Range(c, r.value.next)
  }

  ghost predicate BranchesBound(bs: seq<Branch>, c: nat, r: Result<BranchesOut, Failure>) {
    r.Ok? ==> |r.value.visits| == |bs| && BranchNames(bs, r.value.visits) <= GenNamesBranches(bs) + Range(c, r.value.next)
  }

  ghost predicate ListBound(s: seq<Node>, c: nat, r: Result<ListOut, Failure>) {
    r.Ok? ==> GenNamesList(r.value.stmts) <= GenNamesList(s) + Range(c, r.value.next)
  }

  // ---------------------------------------------------------------------------
  // The visitors, by induction along their own termination measure.

  /** The expression visitor. */
  lemma {:induction false} ExprVisitNames(n: Node, c: nat)
    ensures ExprBound(n, c, ExprVisit(n, c))
    decreases n, 2
  {
    match n
    case Container(_, _) =>
      ExprContainerNames(n, c);
      ExprDelegates(n, c);
    case Call(_, _, _, _) =>
      ExprOperandsNames(n, c);
      ExprDelegates(n, c);
    case Concat(_) =>
      ExprOperandsNames(n, c);
      ExprDelegates(n, c);
    case When(_) =>
      VisitBranchesNames(n, 0, ExpressionContext(Temp(c)), c + 1);
      WhenExprStep(n, c);
    case Return(_, v) =>
      ExprVisitNames(v, c);
      ExitExprStep(n, c);
    case Throw(v) =>
      ExprVisitNames(v, c);
      ExitExprStep(n, c);
    case Jump(_, _) =>
      JumpExprStep(n, c);
    case _ =>
      OtherExprStep(n, c);
  }

  /** A block where a value is expected. */
  lemma {:induction false} ExprContainerNames(n: Node, c: nat)
    requires n.Container?
    ensures ExprBound(n, c, ExprContainer(n, c))
    decreases n, 1
  {
    var s := n.stmts;
    if (n.kind == Block || n.kind == Composite) && |s| > 0 {
      LowerRangeNames(s, 0, |s| - 1, c + 1);
      var prefix := LowerRange(s, 0, |s| - 1, c + 1);
      if prefix.Ok? {
        ExprVisitNames(s[|s| - 1], prefix.value.next);
      }
    }
    ContainerExprStep(n, c);
  }

  /** A call or string concatenation where a value is expected. */
  lemma {:induction false} ExprOperandsNames(n: Node, c: nat)
    requires n.Call? || n.Concat?
    ensures ExprBound(n, c, ExprOperands(n, c))
    decreases n, 1
  {
    VisitOperandsNames(n, 0, c);
    OperandsExprStep(n, c);
  }

  lemma {:induction false} VisitOperandsNames(n: Node, i: nat, c: nat)
    requires n.Call? || n.Concat?
    requires i <= |OperandsOf(n)|
    ensures OperandsBound(OperandsOf(n)[i..], c, VisitOperands(n, i, c))
    decreases n, 1, |OperandsOf(n)| - i
  {
    if i < |OperandsOf(n)| {
      VisitOperandNames(n, i, c);
      var h := VisitOperand(n, i, c);
      if h.Ok? {
        VisitOperandsNames(n, i + 1, h.value.next);
      }
      OperandsConsStep(n, i, c);
    }
  }

  lemma {:induction false} VisitOperandNames(n: Node, i: nat, c: nat)
    requires n.Call? || n.Concat?
    requires i < |OperandsOf(n)|
    ensures OptBound(OperandsOf(n)[i], c, VisitOperand(n, i, c))
    decreases n, 0
  {
    SimpleTrees.OperandChild(n, i, c);
    if n.Concat? {
      ExprVisitNames(n.parts[i], c);
      ConcatOperandStep(n, i, c);
    } else if i == 0 {
      ExprOptNames(n.dispatch, c);
    } else if i == 1 {
      ExprOptNames(n.extension, c);
    } else {
      ExprOptNames(n.args[i - 2], c);
    }
  }

  lemma {:induction false} ExprOptNames(o: Option<Node>, c: nat)
    ensures OptBound(o, c, ExprOpt(o, c))
    decreases o, 0
  {
    if o.Some? {
      ExprVisitNames(o.value, c);
      SomeBound(o.value, c, ExprVisit(o.value, c));
    }
  }

  lemma {:induction false} VisitBranchesNames(n: Node, i: nat, ctx: Context, c: nat)
    requires n.When? && i <= |n.branches|
    ensures BranchesBound(n.branches[i..], c, VisitBranches(n, i, ctx, c))
    decreases n, 1, |n.branches| - i
  {
    if i < |n.branches| {
      VisitBranchNames(n.branches[i], ctx, c);
      var h := VisitBranch(n.branches[i], ctx, c);
      if h.Ok? {
        VisitBranchesNames(n, i + 1, ctx, h.value.next);
      }
      BranchesConsStep(n, i, ctx, c);
    }
  }

  lemma {:induction false} VisitBranchNames(b: Branch, ctx: Context, c: nat)
    ensures BranchBound(b, c, VisitBranch(b, ctx, c))
    decreases b
  {
    ExprVisitNames(b.cond, c);
    var co := ExprVisit(b.cond, c);
    if co.Ok? {
      if ctx.StatementContext? {
        StmtVisitNames(b.result, co.value.next);
      } else {
        ExprVisitNames(b.result, co.value.next);
      }
    }
    BranchStep(b, ctx, c);
  }

  /** A statement list, `s[i..hi]`. */
  lemma {:induction false} LowerRangeNames(s: seq<Node>, i: nat, hi: nat, c: nat)
    requires i <= hi <= |s|
    ensures ListBound(s[i..hi], c, LowerRange(s, i, hi, c))
    decreases s, 5, hi - i, 1
  {
    if i < hi {
      LowerRangeConsNames(s, i, hi, c);
    } else {
      LowerRangeEmpty(s, i, c);
    }
  }

  lemma {:induction false} LowerRangeConsNames(s: seq<Node>, i: nat, hi: nat, c: nat)
    requires i < hi <= |s|
    ensures ListBound(s[i..hi], c, LowerRange(s, i, hi, c))
    decreases s, 5, hi - i, 0
  {
    StmtVisitNames(s[i], c);
    var h := StmtVisit(s[i], c);
    if h.Ok? {
      LowerRangeNames(s, i + 1, hi, h.value.next);
    }
    ListConsStep(s, i, hi, c);
  }

  lemma LowerRangeEmpty(s: seq<Node>, i: nat, c: nat)
    requires i <= |s|
    ensures ListBound(s[i..i], c, LowerRange(s, i, i, c))
  {
  }

  /** The statement visitor. */
  lemma {:induction false} StmtVisitNames(n: Node, c: nat)
    ensures StmtBound(n, c, StmtVisit(n, c))
    decreases n, 3
  {
    match n
    case Container(_, s) =>
      LowerRangeNames(s, 0, |s|, c);
      ContainerStmtStep(n, c);
    case Return(_, v) =>
      ExprVisitNames(v, c);
      ReturnStmtStep(n, c);
    case Throw(v) =>
      ExprVisitNames(v, c);
      ThrowStmtStep(n, c);
    case SetVariable(_, v) =>
      ExprVisitNames(v, c);
      SetVariableStmtStep(n, c);
    case VarDecl(_, init) =>
      if init.Some? {
        ExprVisitNames(init.value, c);
        VarDeclStmtStep(n, c);
      } else {
        KeptStmtStep(n, c);
      }
    case FieldDecl(_, _) =>
      KeptStmtStep(n, c);
    case SetField(_, recv, v) =>
      ExprOptNames(recv, c);
      var ro := ExprOpt(recv, c);
      if ro.Ok? {
        ExprVisitNames(v, ro.value.next);
      }
      SetFieldStmtStep(n, c);
    case TypeOp(_, _, a) =>
      ExprVisitNames(a, c);
      TypeOpStmtStep(n, c);
    case When(_) =>
      VisitBranchesNames(n, 0, StatementContext, c);
      WhenStmtStep(n, c);
    case Jump(_, _) =>
      KeptStmtStep(n, c);
    case Loop(k, _, _, cond, body) =>
      if k == WhileLoop {
        ExprVisitNames(cond, c);
        var co := ExprVisit(cond, c);
        if co.Ok? {
          StmtOptNames(body, co.value.next);
        }
        WhileStmtStep(n, c);
      } else {
        StmtOptNames(body, c);
        var bo := StmtOpt(body, c);
        if bo.Ok? {
          ExprVisitNames(cond, bo.value.next);
        }
        DoWhileStmtStep(n, c);
      }
    case _ =>
      ExprVisitNames(n, c);
      OtherStmtStep(n, c);
  }

  lemma {:induction false} StmtOptNames(o: Option<Node>, c: nat)
    ensures StmtOptBound(o, c, StmtOpt(o, c))
    decreases o, 0
  {
    if o.Some? {
      StmtVisitNames(o.value, c);
      StmtOptStep(o, c);
    }
  }

  // ---------------------------------------------------------------------------
  // The whole pass.

  /** `lower` declares at most the names the body declared plus one name per
      counter value it consumed. */
  lemma LowerNames(f: IrFunction)
    requires Lower(f).Ok? && f.body.Some? && f.body.value.BlockBody?
    ensures LowerRange(f.body.value.stmts, 0, |f.body.value.stmts|, 0).Ok?
    ensures var s := f.body.value.stmts;
      GenNamesList(Lower(f).value.body.value.stmts) <= GenNamesList(s) + Range(0, LowerRange(s, 0, |s|, 0).value.next)
  {
    var s := f.body.value.stmts;
    LowerRangeNames(s, 0, |s|, 0);
    assert s[0..|s|] == s;
  }

  /** A body declaring no generated name is lowered into one that declares each
      generated name at most once, every one of them a counter value the pass
      consumed: no two temporaries or generated labels of one function clash. */
  lemma LowerDeclaresOnce(f: IrFunction)
    requires Lower(f).Ok? && f.body.Some? && f.body.value.BlockBody?
    requires GenNamesList(f.body.value.stmts) == multiset{}
    ensures var out := GenNamesList(Lower(f).value.body.value.stmts);
      && Distinct(out)
      && forall k :: k in out ==> k < LowerRange(f.body.value.stmts, 0, |f.body.value.stmts|, 0).value.next
  {
    var s := f.body.value.stmts;
    LowerNames(f);
    var out := GenNamesList(Lower(f).value.body.value.stmts);
    var hi := LowerRange(s, 0, |s|, 0).value.next;
    BoundByRange(out, GenNamesList(s), 0, hi);
  }

  lemma BoundByRange(out: multiset<nat>, x: multiset<nat>, lo: nat, hi: nat)
    requires x == multiset{} && out <= x + Range(lo, hi)
    ensures Distinct(out) && forall k :: k in out ==> lo <= k < hi
  {
    forall k ensures out[k] <= 1 && (k in out ==> lo <= k < hi) {
      assert out[k] <= (x + Range(lo, hi))[k];
    }
  }

  // ---------------------------------------------------------------------------
  // Counting.

  lemma SelfBound(a: multiset<nat>, lo: nat, hi: nat)
    ensures a <= a + Range(lo, hi)
  {
  }

  /** A name made at `c`, before an interval starting at `c + 1`. */
  lemma FirstBound(a: multiset<nat>, x: multiset<nat>, c: nat, hi: nat)
    requires c + 1 <= hi && a <= x + Range(c + 1, hi)
    ensures multiset{c} + a <= x + Range(c, hi)
  {
    RangeFirst(c, hi);
    forall k ensures (multiset{c} + a)[k] <= (x + Range(c, hi))[k] {
      assert a[k] <= (x + Range(c + 1, hi))[k];
    }
  }

  /** A name made at `m`, after an interval ending at `m`. */
  lemma LastBound(a: multiset<nat>, x: multiset<nat>, c: nat, m: nat)
    requires c <= m && a <= x + Range(c, m)
    ensures a + multiset{m} <= x + Range(c, m + 1)
  {
    forall k ensures (a + multiset{m})[k] <= (x + Range(c, m + 1))[k] {
      assert a[k] <= (x + Range(c, m))[k];
    }
  }

  lemma AddFixed(own: multiset<nat>, a: multiset<nat>, x: multiset<nat>, r: multiset<nat>)
    requires a <= x + r
    ensures own + a <= own + x + r
  {
    forall k ensures (own + a)[k] <= (own + x + r)[k] {
      assert a[k] <= (x + r)[k];
    }
  }

  lemma EmptyPlus(x: multiset<nat>)
    ensures multiset{} + x == x
  {
  }

  // ---------------------------------------------------------------------------
  // Expression visitor steps.

  lemma ExprDelegates(n: Node, c: nat)
    ensures n.Container? ==> ExprVisit(n, c) == ExprContainer(n, c)
    ensures n.Call? || n.Concat? ==> ExprVisit(n, c) == ExprOperands(n, c)
  {
  }

  /** `return` and `throw` where a value is expected. */
  lemma ExitExprStep(n: Node, c: nat)
    requires n.Return? || n.Throw?
    requires ExprBound(n.value, c, ExprVisit(n.value, c))
    ensures ExprBound(n, c, ExprVisit(n, c))
  {
    var r := ExprVisit(n.value, c);
    if r.Ok? {
      ExitExprShape(n, c);
      if n.Return? {
        ReturnTerminateNames(n, r.value, c);
      } else {
        ThrowTerminateNames(n, r.value, c);
      }
    }
  }

  lemma ReturnTerminateNames(n: Node, o: ExprOut, c: nat)
    requires n.Return? && ExprOk(o, c)
    requires VisitNames(o.result, n.value) <= GenNames(n.value) + Range(c, o.next)
    ensures ExprBound(n, c, Ok(Terminate(o, Return(n.target, ValueOf(o.result, n.value)))))
  {
    var x := ValueOf(o.result, n.value);
    ExitNames(n, x);
    TerminateNames(o, n.value, Return(n.target, x), c);
  }

  lemma ThrowTerminateNames(n: Node, o: ExprOut, c: nat)
    requires n.Throw? && ExprOk(o, c)
    requires VisitNames(o.result, n.value) <= GenNames(n.value) + Range(c, o.next)
    ensures ExprBound(n, c, Ok(Terminate(o, Throw(ValueOf(o.result, n.value)))))
  {
    var x := ValueOf(o.result, n.value);
    ExitNames(n, x);
    TerminateNames(o, n.value, Throw(x), c);
  }

  lemma ExitNames(n: Node, x: Node)
    requires n.Return? || n.Throw?
    ensures GenNames(n) == GenNames(n.value)
    ensures n.Return? ==> GenNames(Return(n.target, x)) == GenNames(x)
    ensures n.Throw? ==> GenNames(Throw(x)) == GenNames(x)
  {
  }

  lemma ExitExprShape(n: Node, c: nat)
    requires (n.Return? || n.Throw?) && ExprVisit(n.value, c).Ok?
    ensures var o := ExprVisit(n.value, c).value;
      && (n.Return? ==> ExprVisit(n, c) == Ok(Terminate(o, Return(n.target, ValueOf(o.result, n.value)))))
      && (n.Throw? ==> ExprVisit(n, c) == Ok(Terminate(o, Throw(ValueOf(o.result, n.value)))))
  {
  }

  /** `transformTermination` declares the value's names and the aggregate temporary. */
  lemma TerminateNames(o: ExprOut, v: Node, exit: Node, c: nat)
    requires ExprOk(o, c)
    requires GenNames(exit) == GenNames(ValueOf(o.result, v))
    requires VisitNames(o.result, v) <= GenNames(v) + Range(c, o.next)
    ensures GenNamesList(Terminate(o, exit).result.stmts) <= GenNames(v) + Range(c, o.next + 1)
  {
    ValueNames(o.result, v);
    TerminateList(Prelude(o.result), exit, o.next, VisitNames(o.result, v), GenNames(v), c);
  }

  lemma TerminateList(pre: seq<Node>, exit: Node, m: nat, visited: multiset<nat>, x: multiset<nat>, c: nat)
    requires c <= m && GenNamesList(pre) + GenNames(exit) == visited && visited <= x + Range(c, m)
    ensures GenNamesList(pre + [exit, VarDecl(Temp(m), Some(NullConst))]) <= x + Range(c, m + 1)
  {
    var agg := VarDecl(Temp(m), Some(NullConst));
    GenNamesListAppend(pre, [exit, agg]);
    PairNames(exit, agg);
    NullDeclNames(m);
    SumAssoc(GenNamesList(pre), GenNames(exit), GenNames(agg));
    LastBound(visited, x, c, m);
  }

  lemma NullDeclNames(k: nat)
    ensures GenNames(VarDecl(Temp(k), Some(NullConst))) == multiset{k}
  {
    TempDeclNames(k, Some(NullConst));
  }

  lemma TempDeclNames(k: nat, init: Option<Node>)
    ensures GenNames(VarDecl(Temp(k), init)) == multiset{k} + GenNamesOpt(init)
  {
  }

  /** A `break` or `continue` where a value is expected: one null temporary. */
  lemma JumpExprStep(n: Node, c: nat)
    requires n.Jump?
    ensures ExprBound(n, c, ExprVisit(n, c))
  {
    JumpOutNames(n, c);
    RangeOne(c);
  }

  lemma JumpOutNames(n: Node, c: nat)
    requires n.Jump?
    ensures GenNamesList([n, VarDecl(Temp(c), Some(NullConst))]) == GenNames(n) + multiset{c}
    ensures GenNames(n) == multiset{}
  {
    PairNames(n, VarDecl(Temp(c), Some(NullConst)));
    NullDeclNames(c);
  }

  lemma RangeOne(c: nat)
    ensures Range(c, c + 1) == multiset{c}
  {
    assert forall k :: Range(c, c + 1)[k] == multiset{c}[k];
  }

  /** Anything else where a value is expected is kept. */
  lemma OtherExprStep(n: Node, c: nat)
    requires !(n.Container? || n.Call? || n.Concat? || n.When? || n.Return? || n.Throw? || n.Jump?)
    ensures ExprBound(n, c, ExprVisit(n, c))
  {
    SelfBound(GenNames(n), c, c);
  }

  /** A `when` where a value is expected: the collective temporary, made first,
      and the assembled `when`. */
  lemma WhenExprStep(n: Node, c: nat)
    requires n.When?
    requires BranchesBound(n.branches[0..], c + 1, VisitBranches(n, 0, ExpressionContext(Temp(c)), c + 1))
    ensures ExprBound(n, c, ExprVisit(n, c))
  {
    var ctx := ExpressionContext(Temp(c));
    var r := VisitBranches(n, 0, ctx, c + 1);
    if r.Ok? {
      var bs := n.branches;
      var vs := r.value.visits;
      assert n.branches[0..] == bs;
      WellFormedVisits(bs, ctx, r.value, c + 1);
      var w := AssembleWhen(ctx, bs, vs);
      AssembleWhenNames(ctx, bs, vs);
      PairNames(VarDecl(Temp(c), None), w);
      TempDeclNames(c, None);
      WhenNames(bs);
      FirstBound(GenNames(w), GenNamesBranches(bs), c, r.value.next);
      WhenExprShape(n, c);
    }
  }

  lemma WhenExprShape(n: Node, c: nat)
    requires n.When? && VisitBranches(n, 0, ExpressionContext(Temp(c)), c + 1).Ok?
    ensures var ctx := ExpressionContext(Temp(c));
      var vb := VisitBranches(n, 0, ctx, c + 1).value;
      |vb.visits| == |n.branches| && VisitsWellFormed(ctx, vb.visits) &&
      ExprVisit(n, c) == Ok(ExprOut(Decomposed([VarDecl(Temp(c), None), AssembleWhen(ctx, n.branches, vb.visits)], Some(Temp(c))), vb.next))
  {
    var ctx := ExpressionContext(Temp(c));
    var vb := VisitBranches(n, 0, ctx, c + 1).value;
    assert n.branches[0..] == n.branches;
    WellFormedVisits(n.branches, ctx, vb, c + 1);
  }

  /** Visited branches name their results. */
  lemma WellFormedVisits(bs: seq<Branch>, ctx: Context, o: BranchesOut, c: nat)
    requires BranchesOk(bs, ctx, o, c)
    ensures |o.visits| == |bs| && VisitsWellFormed(ctx, o.visits)
  {
    forall j | 0 <= j < |o.visits|
      ensures (o.visits[j].cond.Changed() ==> o.visits[j].cond.resultVar.Some?)
      ensures (ctx.ExpressionContext? && o.visits[j].body.Changed() ==> o.visits[j].body.resultVar.Some?)
    {
      assert BranchOk(bs[j], ctx, o.visits[j], c, o.next);
    }
  }

  // ---------------------------------------------------------------------------
  // Blocks where a value is expected.

  lemma ContainerExprStep(n: Node, c: nat)
    requires n.Container?
    requires (n.kind == Block || n.kind == Composite) && |n.stmts| > 0 ==>
      var s := n.stmts;
      var prefix := LowerRange(s, 0, |s| - 1, c + 1);
      && ListBound(s[0..|s| - 1], c + 1, prefix)
      && (prefix.Ok? ==> ExprBound(s[|s| - 1], prefix.value.next, ExprVisit(s[|s| - 1], prefix.value.next)))
    ensures ExprBound(n, c, ExprContainer(n, c))
  {
    var s := n.stmts;
    if n.kind == Block || n.kind == Composite {
      if |s| == 0 {
        EmptyContainerStep(n, c);
      } else {
        var prefix := LowerRange(s, 0, |s| - 1, c + 1);
        if prefix.Ok? {
          var last := s[|s| - 1];
          var o := ExprVisit(last, prefix.value.next);
          if o.Ok? && !(o.value.result.Kept? && !IsExpression(last)) {
            FilledContainerStep(n, c, prefix.value, o.value);
          } else {
            ContainerFails(n, c);
          }
        } else {
          ContainerFails(n, c);
        }
      }
    } else {
      ContainerFails(n, c);
    }
  }

  lemma ContainerFails(n: Node, c: nat)
    requires n.Container?
    ensures var s := n.stmts;
      ExprContainer(n, c).Ok? ==>
        && (n.kind == Block || n.kind == Composite)
        && (|s| > 0 ==>
              var prefix := LowerRange(s, 0, |s| - 1, c + 1);
              && prefix.Ok?
              && ExprVisit(s[|s| - 1], prefix.value.next).Ok?
              && !(ExprVisit(s[|s| - 1], prefix.value.next).value.result.Kept? && !IsExpression(s[|s| - 1])))
  {
  }

  lemma EmptyContainerStep(n: Node, c: nat)
    requires n.Container? && (n.kind == Block || n.kind == Composite) && |n.stmts| == 0
    ensures ExprBound(n, c, ExprContainer(n, c))
  {
    var out := [VarDecl(Temp(c), Some(NullConst)), Container(n.kind, [])];
    PairNames(out[0], out[1]);
    TempDeclNames(c, Some(NullConst));
    ContainerNames(n.kind, []);
    ContainerNames(n.kind, n.stmts);
    RangeOne(c);
    assert ExprContainer(n, c) == Ok(ExprOut(Decomposed(out, Some(Temp(c))), c + 1));
  }

  lemma FilledContainerStep(n: Node, c: nat, prefix: ListOut, o: ExprOut)
    requires n.Container? && (n.kind == Block || n.kind == Composite) && |n.stmts| > 0
    requires LowerRange(n.stmts, 0, |n.stmts| - 1, c + 1) == Ok(prefix)
    requires ExprVisit(n.stmts[|n.stmts| - 1], prefix.next) == Ok(o)
    requires !(o.result.Kept? && !IsExpression(n.stmts[|n.stmts| - 1]))
    requires GenNamesList(prefix.stmts) <= GenNamesList(n.stmts[0..|n.stmts| - 1]) + Range(c + 1, prefix.next)
    requires VisitNames(o.result, n.stmts[|n.stmts| - 1]) <= GenNames(n.stmts[|n.stmts| - 1]) + Range(prefix.next, o.next)
    ensures ExprBound(n, c, ExprContainer(n, c))
  {
    FilledContainerShape(n, c, prefix, o);
    FilledContainerBound(n.kind, n.stmts, c, prefix.stmts, prefix.next, o);
    ContainerNames(n.kind, n.stmts);
  }

  lemma FilledContainerBound(kind: ContainerKind, s: seq<Node>, c: nat, pre: seq<Node>, mid: nat, o: ExprOut)
    requires |s| > 0 && c + 1 <= mid <= o.next
    requires o.result.Changed() ==> o.result.resultVar.Some?
    requires GenNamesList(pre) <= GenNamesList(s[0..|s| - 1]) + Range(c + 1, mid)
    requires VisitNames(o.result, s[|s| - 1]) <= GenNames(s[|s| - 1]) + Range(mid, o.next)
    ensures var last := s[|s| - 1];
      var body := Container(kind, pre + Prelude(o.result) + [SetVariable(Temp(c), ValueOf(o.result, last))]);
      GenNamesList([VarDecl(Temp(c), None), body]) <= GenNamesList(s) + Range(c, o.next)
  {
    var last := s[|s| - 1];
    ContainerOutNames(c, kind, pre, o, last);
    LastSplit(s);
    ContainerRegroup(GenNamesList(pre), VisitNames(o.result, last), GenNamesList(s[0..|s| - 1]), GenNames(last), GenNamesList(s), c, mid, o.next);
  }

  /** The block's temporary is made first, then the statements before the
      last one, then the last one. */
  lemma ContainerRegroup(pre: multiset<nat>, vis: multiset<nat>, x1: multiset<nat>, xl: multiset<nat>, xs: multiset<nat>, c: nat, mid: nat, hi: nat)
    requires c + 1 <= mid <= hi && xs == x1 + xl
    requires pre <= x1 + Range(c + 1, mid) && vis <= xl + Range(mid, hi)
    ensures multiset{c} + (pre + vis) <= xs + Range(c, hi)
  {
    Combine(pre, x1, vis, xl, c + 1, mid, hi);
    FirstBound(pre + vis, xs, c, hi);
  }

  lemma FilledContainerShape(n: Node, c: nat, prefix: ListOut, o: ExprOut)
    requires n.Container? && (n.kind == Block || n.kind == Composite) && |n.stmts| > 0
    requires LowerRange(n.stmts, 0, |n.stmts| - 1, c + 1) == Ok(prefix)
    requires ExprVisit(n.stmts[|n.stmts| - 1], prefix.next) == Ok(o)
    requires !(o.result.Kept? && !IsExpression(n.stmts[|n.stmts| - 1]))
    ensures var last := n.stmts[|n.stmts| - 1];
      var body := Container(n.kind, prefix.stmts + Prelude(o.result) + [SetVariable(Temp(c), ValueOf(o.result, last))]);
      ExprContainer(n, c) == Ok(ExprOut(Decomposed([VarDecl(Temp(c), None), body], Some(Temp(c))), o.next))
  {
  }

  /** The names of a block in expression position: its temporary, the
      statements before the last, and the last one's contribution. */
  lemma ContainerOutNames(c: nat, kind: ContainerKind, pre: seq<Node>, o: ExprOut, last: Node)
    requires o.result.Changed() ==> o.result.resultVar.Some?
    ensures var set_ := SetVariable(Temp(c), ValueOf(o.result, last));
      GenNamesList([VarDecl(Temp(c), None), Container(kind, pre + Prelude(o.result) + [set_])])
        == multiset{c} + (GenNamesList(pre) + VisitNames(o.result, last))
  {
    var set_ := SetVariable(Temp(c), ValueOf(o.result, last));
    var body := Container(kind, pre + Prelude(o.result) + [set_]);
    PairNames(VarDecl(Temp(c), None), body);
    TempDeclNames(c, None);
    ContainerNames(kind, pre + Prelude(o.result) + [set_]);
    ThreeListNames(pre, Prelude(o.result), [set_]);
    GenNamesListSingle(set_);
    SetVariableNames(Temp(c), ValueOf(o.result, last));
    ValueNames(o.result, last);
    SumAssoc(GenNamesList(pre), GenNamesList(Prelude(o.result)), GenNames(set_));
  }

  lemma LastSplit(s: seq<Node>)
    requires |s| > 0
    ensures GenNamesList(s) == GenNamesList(s[0..|s| - 1]) + GenNames(s[|s| - 1])
  {
    assert s == s[0..|s| - 1] + [s[|s| - 1]];
    AppendOneNames(s[0..|s| - 1], s[|s| - 1]);
  }

  // ---------------------------------------------------------------------------
  // Calls and concatenations where a value is expected.

  lemma OperandsExprStep(n: Node, c: nat)
    requires n.Call? || n.Concat?
    requires OperandsBound(OperandsOf(n)[0..], c, VisitOperands(n, 0, c))
    ensures ExprBound(n, c, ExprOperands(n, c))
  {
    var r := VisitOperands(n, 0, c);
    if r.Ok? {
      assert OperandsOf(n)[0..] == OperandsOf(n);
      if ChangedCount(r.value.results) == 0 {
        SelfBound(GenNames(n), c, c);
      } else {
        CapturedOperandsStep(n, c, r.value);
      }
    }
  }

  lemma CapturedOperandsStep(n: Node, c: nat, vs: OperandsOut)
    requires n.Call? || n.Concat?
    requires VisitOperands(n, 0, c) == Ok(vs) && ChangedCount(vs.results) > 0
    requires |vs.results| == |OperandsOf(n)|
    requires OperandNames(OperandsOf(n), vs.results) <= GenNamesOpts(OperandsOf(n)) + Range(c, vs.next)
    ensures ExprBound(n, c, ExprOperands(n, c))
  {
    ProducedFromOk(n, c, vs);
    CapturedShape(n, c, vs);
    CapturedOutBound(n, vs, c, MapArguments(OperandsOf(n), vs.results, ChangedCount(vs.results), 0, vs.next));
  }

  lemma CapturedOutBound(n: Node, vs: OperandsOut, c: nat, m: Mapped)
    requires n.Call? || n.Concat?
    requires Produced(OperandsOf(n), vs.results) && c <= vs.next
    requires m == MapArguments(OperandsOf(n), vs.results, ChangedCount(vs.results), 0, vs.next)
    requires OperandNames(OperandsOf(n), vs.results) <= GenNamesOpts(OperandsOf(n)) + Range(c, vs.next)
    ensures GenNamesList(m.stmts + [VarDecl(Temp(m.next), Some(Rebuild(n, m.operands)))]) <= GenNames(n) + Range(c, m.next + 1)
  {
    MappedNames(OperandsOf(n), vs.results, ChangedCount(vs.results), vs.next);
    CapturedBound(n, m, OperandNames(OperandsOf(n), vs.results), c, vs.next);
  }

  lemma MappedNames(ops: seq<Option<Node>>, rs: seq<Visit>, count: nat, c: nat)
    requires Produced(ops, rs)
    ensures var m := MapArguments(ops, rs, count, 0, c);
      GenNamesList(m.stmts) + GenNamesOpts(m.operands) == OperandNames(ops, rs) + Range(c, m.next)
  {
    MapArgumentsNames(ops, rs, count, 0, c);
  }

  /** `visitFunctionAccess` ends with the rebuilt call in a new temporary. */
  lemma CapturedBound(n: Node, m: Mapped, on: multiset<nat>, c: nat, v: nat)
    requires n.Call? || n.Concat?
    requires |m.operands| == |OperandsOf(n)|
    requires c <= v <= m.next
    requires GenNamesList(m.stmts) + GenNamesOpts(m.operands) == on + Range(v, m.next)
    requires on <= GenNamesOpts(OperandsOf(n)) + Range(c, v)
    ensures GenNamesList(m.stmts + [VarDecl(Temp(m.next), Some(Rebuild(n, m.operands)))]) <= GenNames(n) + Range(c, m.next + 1)
  {
    var x := Rebuild(n, m.operands);
    OperandsLength(n);
    RebuildNames(n, m.operands);
    OperandsOfNames(n);
    CaptureList(m.stmts, m.next, x, GenNamesOpts(m.operands), on, GenNames(n), c, v);
  }

  lemma CaptureList(stmts: seq<Node>, k: nat, x: Node, opn: multiset<nat>, on: multiset<nat>, gen: multiset<nat>, c: nat, v: nat)
    requires c <= v <= k && GenNames(x) == opn
    requires GenNamesList(stmts) + opn == on + Range(v, k) && on <= gen + Range(c, v)
    ensures GenNamesList(stmts + [VarDecl(Temp(k), Some(x))]) <= gen + Range(c, k + 1)
  {
    CaptureOutNames(stmts, k, x);
    CallBound(GenNamesList(stmts), opn, on, gen, c, v, k);
  }

  lemma OperandsLength(n: Node)
    requires n.Call? || n.Concat?
    ensures n.Call? ==> |OperandsOf(n)| >= 2
  {
  }

  lemma ProducedFromOk(n: Node, c: nat, vs: OperandsOut)
    requires n.Call? || n.Concat?
    requires VisitOperands(n, 0, c) == Ok(vs)
    ensures Produced(OperandsOf(n), vs.results) && c <= vs.next
  {
    var ops := OperandsOf(n);
    assert ops[0..] == ops;
    assert OperandsOk(ops, vs, c);
    forall j | 0 <= j < |vs.results|
      ensures vs.results[j].Changed() ==> ops[j].Some? && vs.results[j].resultVar.Some?
    {
      assert FreshVar(vs.results[j], c, vs.next);
    }
  }

  lemma CapturedShape(n: Node, c: nat, vs: OperandsOut)
    requires n.Call? || n.Concat?
    requires VisitOperands(n, 0, c) == Ok(vs) && ChangedCount(vs.results) > 0
    requires Produced(OperandsOf(n), vs.results)
    ensures var m := MapArguments(OperandsOf(n), vs.results, ChangedCount(vs.results), 0, vs.next);
      ExprOperands(n, c) == Ok(ExprOut(Decomposed(m.stmts + [VarDecl(Temp(m.next), Some(Rebuild(n, m.operands)))], Some(Temp(m.next))), m.next + 1))
  {
  }

  lemma CaptureOutNames(stmts: seq<Node>, k: nat, x: Node)
    ensures GenNamesList(stmts + [VarDecl(Temp(k), Some(x))]) == GenNamesList(stmts) + (multiset{k} + GenNames(x))
  {
    AppendOneNames(stmts, VarDecl(Temp(k), Some(x)));
    TempDeclNames(k, Some(x));
  }

  /** The counting of `visitFunctionAccess`: operands, captures, then the result temporary. */
  lemma CallBound(st: multiset<nat>, opn: multiset<nat>, on: multiset<nat>, gen: multiset<nat>, c: nat, v: nat, m: nat)
    requires c <= v <= m
    requires st + opn == on + Range(v, m)
    requires on <= gen + Range(c, v)
    ensures st + (multiset{m} + opn) <= gen + Range(c, m + 1)
  {
    RangeSplit(c, v, m);
    forall k ensures (st + (multiset{m} + opn))[k] <= (gen + Range(c, m + 1))[k] {
      assert (st + opn)[k] == (on + Range(v, m))[k];
      assert on[k] <= (gen + Range(c, v))[k];
    }
  }

  lemma OperandsConsStep(n: Node, i: nat, c: nat)
    requires n.Call? || n.Concat?
    requires i < |OperandsOf(n)|
    requires OptBound(OperandsOf(n)[i], c, VisitOperand(n, i, c))
    requires VisitOperand(n, i, c).Ok? ==>
      var h := VisitOperand(n, i, c).value;
      OperandsBound(OperandsOf(n)[i + 1..], h.next, VisitOperands(n, i + 1, h.next))
    ensures OperandsBound(OperandsOf(n)[i..], c, VisitOperands(n, i, c))
  {
    var hr := VisitOperand(n, i, c);
    if hr.Ok? {
      var h := hr.value;
      var tr := VisitOperands(n, i + 1, h.next);
      if tr.Ok? {
        var t := tr.value;
        var ops := OperandsOf(n);
        OperandsSlice(ops, i, h.result, t.results);
        Combine(OptVisitNames(h.result, ops[i]), GenNamesOpt(ops[i]), OperandNames(ops[i + 1..], t.results), GenNamesOpts(ops[i + 1..]), c, h.next, t.next);
        OperandsConsShape(n, i, c);
      }
    }
  }

  lemma OperandsConsShape(n: Node, i: nat, c: nat)
    requires n.Call? || n.Concat?
    requires i < |OperandsOf(n)|
    requires VisitOperand(n, i, c).Ok? && VisitOperands(n, i + 1, VisitOperand(n, i, c).value.next).Ok?
    ensures var h := VisitOperand(n, i, c).value;
      var t := VisitOperands(n, i + 1, h.next).value;
      VisitOperands(n, i, c) == Ok(OperandsOut([h.result] + t.results, t.next))
  {
  }

  lemma OperandsSlice(ops: seq<Option<Node>>, i: nat, h: Visit, t: seq<Visit>)
    requires i < |ops| && |t| == |ops| - i - 1
    ensures OperandNames(ops[i..], [h] + t) == OptVisitNames(h, ops[i]) + OperandNames(ops[i + 1..], t)
    ensures GenNamesOpts(ops[i..]) == GenNamesOpt(ops[i]) + GenNamesOpts(ops[i + 1..])
  {
    assert ops[i..][0] == ops[i] && ops[i..][1..] == ops[i + 1..];
    assert ([h] + t)[0] == h && ([h] + t)[1..] == t;
  }

  lemma ConcatOperandStep(n: Node, i: nat, c: nat)
    requires n.Concat? && i < |n.parts|
    requires ExprBound(n.parts[i], c, ExprVisit(n.parts[i], c))
    ensures OptBound(OperandsOf(n)[i], c, VisitOperand(n, i, c))
  {
    assert OperandsOf(n)[i] == Some(n.parts[i]);
    SomeBound(n.parts[i], c, ExprVisit(n.parts[i], c));
  }

  lemma SomeBound(x: Node, c: nat, r: Result<ExprOut, Failure>)
    requires ExprBound(x, c, r)
    ensures OptBound(Some(x), c, r)
  {
  }

  // ---------------------------------------------------------------------------
  // Branches.

  lemma BranchesConsStep(n: Node, i: nat, ctx: Context, c: nat)
    requires n.When? && i < |n.branches|
    requires BranchBound(n.branches[i], c, VisitBranch(n.branches[i], ctx, c))
    requires VisitBranch(n.branches[i], ctx, c).Ok? ==>
      var h := VisitBranch(n.branches[i], ctx, c).value;
      BranchesBound(n.branches[i + 1..], h.next, VisitBranches(n, i + 1, ctx, h.next))
    ensures BranchesBound(n.branches[i..], c, VisitBranches(n, i, ctx, c))
  {
    var hr := VisitBranch(n.branches[i], ctx, c);
    if hr.Ok? {
      var h := hr.value;
      var tr := VisitBranches(n, i + 1, ctx, h.next);
      if tr.Ok? {
        var t := tr.value;
        var bs := n.branches;
        BranchesSlice(bs, i, h.visit, t.visits);
        Combine(BranchVisitNames(bs[i], h.visit), GenNamesBranch(bs[i]), BranchNames(bs[i + 1..], t.visits), GenNamesBranches(bs[i + 1..]), c, h.next, t.next);
        BranchesConsShape(n, i, ctx, c);
      }
    }
  }

  lemma BranchesConsShape(n: Node, i: nat, ctx: Context, c: nat)
    requires n.When? && i < |n.branches|
    requires VisitBranch(n.branches[i], ctx, c).Ok?
    requires VisitBranches(n, i + 1, ctx, VisitBranch(n.branches[i], ctx, c).value.next).Ok?
    ensures var h := VisitBranch(n.branches[i], ctx, c).value;
      var t := VisitBranches(n, i + 1, ctx, h.next).value;
      VisitBranches(n, i, ctx, c) == Ok(BranchesOut([h.visit] + t.visits, t.next))
  {
  }

  lemma BranchesSlice(bs: seq<Branch>, i: nat, h: BranchVisit, t: seq<BranchVisit>)
    requires i < |bs| && |t| == |bs| - i - 1
    ensures BranchNames(bs[i..], [h] + t) == BranchVisitNames(bs[i], h) + BranchNames(bs[i + 1..], t)
    ensures GenNamesBranches(bs[i..]) == GenNamesBranch(bs[i]) + GenNamesBranches(bs[i + 1..])
  {
    assert bs[i..][0] == bs[i] && bs[i..][1..] == bs[i + 1..];
    assert ([h] + t)[0] == h && ([h] + t)[1..] == t;
  }

  /** One branch: its condition, then its body, with consecutive counter intervals. */
  lemma BranchStep(b: Branch, ctx: Context, c: nat)
    requires ExprBound(b.cond, c, ExprVisit(b.cond, c))
    requires ExprVisit(b.cond, c).Ok? ==>
      var k := ExprVisit(b.cond, c).value.next;
      && (ctx.StatementContext? ==> StmtBound(b.result, k, StmtVisit(b.result, k)))
      && (ctx.ExpressionContext? ==> ExprBound(b.result, k, ExprVisit(b.result, k)))
    ensures BranchBound(b, c, VisitBranch(b, ctx, c))
  {
    var cr := ExprVisit(b.cond, c);
    if cr.Ok? {
      var co := cr.value;
      if ctx.StatementContext? {
        var br := StmtVisit(b.result, co.next);
        if br.Ok? {
          Combine(VisitNames(co.result, b.cond), GenNames(b.cond), VisitNames(br.value.result, br.value.node), GenNames(b.result), c, co.next, br.value.next);
        }
      } else {
        var br := ExprVisit(b.result, co.next);
        if br.Ok? {
          Combine(VisitNames(co.result, b.cond), GenNames(b.cond), VisitNames(br.value.result, b.result), GenNames(b.result), c, co.next, br.value.next);
        }
      }
    }
  }

  // ---------------------------------------------------------------------------
  // Statement lists.

  lemma ListConsStep(s: seq<Node>, i: nat, hi: nat, c: nat)
    requires i < hi <= |s|
    requires StmtBound(s[i], c, StmtVisit(s[i], c))
    requires StmtVisit(s[i], c).Ok? ==>
      var h := StmtVisit(s[i], c).value;
      ListBound(s[i + 1..hi], h.next, LowerRange(s, i + 1, hi, h.next))
    ensures ListBound(s[i..hi], c, LowerRange(s, i, hi, c))
  {
    var hr := StmtVisit(s[i], c);
    if hr.Ok? {
      var h := hr.value;
      var tr := LowerRange(s, i + 1, hi, h.next);
      if tr.Ok? {
        ListConsShape(s, i, hi, c);
        ListConsBound(s, i, hi, h.result, h.node, tr.value.stmts, c, h.next, tr.value.next);
      }
    }
  }

  lemma ListConsBound(s: seq<Node>, i: nat, hi: nat, v: Visit, node: Node, ts: seq<Node>, c: nat, mid: nat, top: nat)
    requires i < hi <= |s| && c <= mid <= top
    requires VisitNames(v, node) <= GenNames(s[i]) + Range(c, mid)
    requires GenNamesList(ts) <= GenNamesList(s[i + 1..hi]) + Range(mid, top)
    ensures GenNamesList(Emitted(v, node) + ts) <= GenNamesList(s[i..hi]) + Range(c, top)
  {
    EmittedNames(v, node);
    GenNamesListAppend(Emitted(v, node), ts);
    SliceNames(s, i, hi);
    Combine(VisitNames(v, node), GenNames(s[i]), GenNamesList(ts), GenNamesList(s[i + 1..hi]), c, mid, top);
  }

  lemma SliceNames(s: seq<Node>, i: nat, hi: nat)
    requires i < hi <= |s|
    ensures GenNamesList(s[i..hi]) == GenNames(s[i]) + GenNamesList(s[i + 1..hi])
  {
    assert s[i..hi] == [s[i]] + s[i + 1..hi];
    ConsNames(s[i], s[i + 1..hi]);
  }

  lemma ListConsShape(s: seq<Node>, i: nat, hi: nat, c: nat)
    requires i < hi <= |s|
    requires StmtVisit(s[i], c).Ok? && LowerRange(s, i + 1, hi, StmtVisit(s[i], c).value.next).Ok?
    ensures var h := StmtVisit(s[i], c).value;
      var t := LowerRange(s, i + 1, hi, h.next).value;
      LowerRange(s, i, hi, c) == Ok(ListOut(Emitted(h.result, h.node) + t.stmts, t.next))
  {
  }

  // ---------------------------------------------------------------------------
  // Statement visitor steps.

  /** A statement kept as it is (a declaration without initializer, a field, a jump). */
  lemma KeptStmtStep(n: Node, c: nat)
    requires (n.VarDecl? && n.init.None?) || n.FieldDecl? || n.Jump?
    ensures StmtBound(n, c, StmtVisit(n, c))
  {
    var r := StmtVisit(n, c);
    if r.Ok? {
      SelfBound(GenNames(n), c, r.value.next);
    }
  }

  lemma ContainerStmtStep(n: Node, c: nat)
    requires n.Container?
    requires ListBound(n.stmts[0..|n.stmts|], c, LowerRange(n.stmts, 0, |n.stmts|, c))
    ensures StmtBound(n, c, StmtVisit(n, c))
  {
    var s := n.stmts;
    var l := LowerRange(s, 0, |s|, c);
    if l.Ok? {
      assert s[0..|s|] == s;
      ContainerNames(n.kind, l.value.stmts);
      ContainerNames(n.kind, s);
      assert StmtVisit(n, c) == Ok(StmtOut(Kept, Container(n.kind, l.value.stmts), l.value.next));
    }
  }

  /** One value was needed: the value's statements, then the rebuilt node. */
  lemma ReplaceNames(o: ExprOut, v: Node, n: Node, rebuilt: Node, own: multiset<nat>, c: nat)
    requires ExprOk(o, c)
    requires VisitNames(o.result, v) <= GenNames(v) + Range(c, o.next)
    requires GenNames(rebuilt) == own + GenNames(ValueOf(o.result, v))
    requires GenNames(n) == own + GenNames(v)
    ensures var r := Replace(o, n, rebuilt);
      VisitNames(r.result, r.node) <= GenNames(n) + Range(c, o.next)
  {
    if o.result.Kept? {
      SelfBound(GenNames(n), c, o.next);
    } else {
      AppendOneNames(o.result.stmts, rebuilt);
      ValueNames(o.result, v);
      ReplaceRegroup(GenNamesList(o.result.stmts), own, GenNames(ValueOf(o.result, v)), VisitNames(o.result, v), GenNames(v), Range(c, o.next));
    }
  }

  lemma ReplaceRegroup(pre: multiset<nat>, own: multiset<nat>, value: multiset<nat>, visited: multiset<nat>, x: multiset<nat>, r: multiset<nat>)
    requires pre + value == visited && visited <= x + r
    ensures pre + (own + value) <= own + x + r
  {
    forall k ensures (pre + (own + value))[k] <= (own + x + r)[k] {
      assert (pre + value)[k] == visited[k];
      assert visited[k] <= (x + r)[k];
    }
  }

  lemma ReturnStmtStep(n: Node, c: nat)
    requires n.Return?
    requires ExprBound(n.value, c, ExprVisit(n.value, c))
    ensures StmtBound(n, c, StmtVisit(n, c))
  {
    var r := ExprVisit(n.value, c);
    if r.Ok? {
      var o := r.value;
      var x := ValueOf(o.result, n.value);
      ExitNames(n, x);
      EmptyPlus(GenNames(x));
      EmptyPlus(GenNames(n.value));
      ReplaceNames(o, n.value, n, Return(n.target, x), multiset{}, c);
      assert StmtVisit(n, c) == Ok(Replace(o, n, Return(n.target, x)));
    }
  }

  lemma ThrowStmtStep(n: Node, c: nat)
    requires n.Throw?
    requires ExprBound(n.value, c, ExprVisit(n.value, c))
    ensures StmtBound(n, c, StmtVisit(n, c))
  {
    var r := ExprVisit(n.value, c);
    if r.Ok? {
      var o := r.value;
      var x := ValueOf(o.result, n.value);
      ExitNames(n, x);
      EmptyPlus(GenNames(x));
      EmptyPlus(GenNames(n.value));
      ReplaceNames(o, n.value, n, Throw(x), multiset{}, c);
      assert StmtVisit(n, c) == Ok(Replace(o, n, Throw(x)));
    }
  }

  lemma SetVariableStmtStep(n: Node, c: nat)
    requires n.SetVariable?
    requires ExprBound(n.value, c, ExprVisit(n.value, c))
    ensures StmtBound(n, c, StmtVisit(n, c))
  {
    var r := ExprVisit(n.value, c);
    if r.Ok? {
      var o := r.value;
      var x := ValueOf(o.result, n.value);
      SetVariableNames(n.sym, x);
      SetVariableNames(n.sym, n.value);
      EmptyPlus(GenNames(x));
      EmptyPlus(GenNames(n.value));
      ReplaceNames(o, n.value, n, SetVariable(n.sym, x), multiset{}, c);
      assert StmtVisit(n, c) == Ok(Replace(o, n, SetVariable(n.sym, x)));
    }
  }

  lemma VarDeclStmtStep(n: Node, c: nat)
    requires n.VarDecl? && n.init.Some?
    requires ExprBound(n.init.value, c, ExprVisit(n.init.value, c))
    ensures StmtBound(n, c, StmtVisit(n, c))
  {
    var r := ExprVisit(n.init.value, c);
    if r.Ok? {
      var o := r.value;
      var x := ValueOf(o.result, n.init.value);
      DeclNamesOf(n.sym, x);
      DeclNamesOf(n.sym, n.init.value);
      ReplaceNames(o, n.init.value, n, VarDecl(n.sym, Some(x)), DeclNames(n.sym), c);
      assert StmtVisit(n, c) == Ok(Replace(o, n, VarDecl(n.sym, Some(x))));
    }
  }

  lemma DeclNamesOf(s: VarSym, x: Node)
    ensures GenNames(VarDecl(s, Some(x))) == DeclNames(s) + GenNames(x)
  {
  }

  /** `visitSetField`: the receiver's statements, the value's, then the rebuilt assignment. */
  lemma SetFieldStmtStep(n: Node, c: nat)
    requires n.SetField?
    requires OptBound(n.receiver, c, ExprOpt(n.receiver, c))
    requires ExprOpt(n.receiver, c).Ok? ==>
      var k := ExprOpt(n.receiver, c).value.next;
      ExprBound(n.value, k, ExprVisit(n.value, k))
    ensures StmtBound(n, c, StmtVisit(n, c))
  {
    var rr := ExprOpt(n.receiver, c);
    if rr.Ok? {
      var vr := ExprVisit(n.value, rr.value.next);
      if vr.Ok? {
        SetFieldOutNames(n, rr.value, vr.value, c);
        assert StmtVisit(n, c) == Ok(StmtSetField(n, rr.value, vr.value));
      }
    }
  }

  lemma SetFieldOutNames(n: Node, ro: ExprOut, vo: ExprOut, c: nat)
    requires n.SetField?
    requires n.receiver.None? ==> ro.result.Kept?
    requires ExprOk(ro, c) && ExprOk(vo, ro.next)
    requires OptVisitNames(ro.result, n.receiver) <= GenNamesOpt(n.receiver) + Range(c, ro.next)
    requires VisitNames(vo.result, n.value) <= GenNames(n.value) + Range(ro.next, vo.next)
    ensures FreshVar(ro.result, 0, ro.next) && FreshVar(vo.result, 0, vo.next)
    ensures var r := StmtSetField(n, ro, vo);
      VisitNames(r.result, r.node) <= GenNames(n) + Range(c, vo.next)
  {
    var r := StmtSetField(n, ro, vo);
    Combine(OptVisitNames(ro.result, n.receiver), GenNamesOpt(n.receiver), VisitNames(vo.result, n.value), GenNames(n.value), c, ro.next, vo.next);
    if r.result.Kept? {
      SelfBound(GenNames(n), c, vo.next);
    } else {
      SetFieldChangedNames(n, ro, vo);
    }
  }

  /** The rewritten assignment declares what the receiver and the value contribute. */
  lemma SetFieldChangedNames(n: Node, ro: ExprOut, vo: ExprOut)
    requires n.SetField?
    requires n.receiver.None? ==> ro.result.Kept?
    requires FreshVar(ro.result, 0, ro.next) && FreshVar(vo.result, 0, vo.next)
    requires ro.result.Changed() || vo.result.Changed()
    ensures GenNamesList(StmtSetField(n, ro, vo).result.stmts) == OptVisitNames(ro.result, n.receiver) + VisitNames(vo.result, n.value)
  {
    var recv := if n.receiver.None? then None else Some(ValueOf(ro.result, n.receiver.value));
    var x := ValueOf(vo.result, n.value);
    var set_ := SetField(n.field, recv, x);
    SetFieldShape(n, ro, vo);
    ReceiverNames(ro.result, n.receiver);
    ValueNames(vo.result, n.value);
    SetFieldList(Prelude(ro.result), Prelude(vo.result), set_, GenNamesOpt(recv), GenNames(x),
                 OptVisitNames(ro.result, n.receiver), VisitNames(vo.result, n.value));
  }

  lemma SetFieldShape(n: Node, ro: ExprOut, vo: ExprOut)
    requires n.SetField?
    requires n.receiver.None? ==> ro.result.Kept?
    requires FreshVar(ro.result, 0, ro.next) && FreshVar(vo.result, 0, vo.next)
    requires ro.result.Changed() || vo.result.Changed()
    ensures var recv := if n.receiver.None? then None else Some(ValueOf(ro.result, n.receiver.value));
      var set_ := SetField(n.field, recv, ValueOf(vo.result, n.value));
      && StmtSetField(n, ro, vo).result.stmts == Prelude(ro.result) + Prelude(vo.result) + [set_]
      && GenNames(set_) == GenNamesOpt(recv) + GenNames(ValueOf(vo.result, n.value))
  {
  }

  /** The receiver slot, present or not. */
  lemma ReceiverNames(v: Visit, receiver: Option<Node>)
    requires receiver.None? ==> v.Kept?
    requires v.Changed() ==> v.resultVar.Some?
    ensures var recv := if receiver.None? then None else Some(ValueOf(v, receiver.value));
      GenNamesList(Prelude(v)) + GenNamesOpt(recv) == OptVisitNames(v, receiver)
  {
    if receiver.Some? {
      OptValueNames(v, receiver);
    }
  }

  lemma SetFieldList(pr: seq<Node>, pv: seq<Node>, set_: Node, recv: multiset<nat>, x: multiset<nat>, rv: multiset<nat>, vv: multiset<nat>)
    requires GenNames(set_) == recv + x
    requires GenNamesList(pr) + recv == rv && GenNamesList(pv) + x == vv
    ensures GenNamesList(pr + pv + [set_]) == rv + vv
  {
    ThreeListNames(pr, pv, [set_]);
    GenNamesListSingle(set_);
    SetFieldRegroup(GenNamesList(pr), GenNamesList(pv), recv, x);
  }

  lemma SetFieldRegroup(pr: multiset<nat>, pv: multiset<nat>, recv: multiset<nat>, x: multiset<nat>)
    ensures pr + pv + (recv + x) == (pr + recv) + (pv + x)
  {
    forall k ensures (pr + pv + (recv + x))[k] == ((pr + recv) + (pv + x))[k] {
    }
  }

  /** `visitTypeOperator`: the rebuilt operator, in a new temporary unless its type is Unit. */
  lemma TypeOpStmtStep(n: Node, c: nat)
    requires n.TypeOp?
    requires ExprBound(n.arg, c, ExprVisit(n.arg, c))
    ensures StmtBound(n, c, StmtVisit(n, c))
  {
    var r := ExprVisit(n.arg, c);
    if r.Ok? {
      TypeOpOutNames(n, r.value, c);
      assert StmtVisit(n, c) == Ok(StmtTypeOp(n, r.value));
    }
  }

  lemma TypeOpOutNames(n: Node, o: ExprOut, c: nat)
    requires n.TypeOp? && ExprOk(o, c)
    requires VisitNames(o.result, n.arg) <= GenNames(n.arg) + Range(c, o.next)
    ensures FreshVar(o.result, 0, o.next)
    ensures var r := StmtTypeOp(n, o);
      VisitNames(r.result, r.node) <= GenNames(n) + Range(c, r.next)
  {
    if o.result.Kept? {
      SelfBound(GenNames(n), c, o.next);
    } else if n.unitTyped {
      TypeOpUnitNames(n, o, c);
    } else {
      TypeOpCapturedNames(n, o, c);
    }
  }

  /** A Unit-typed operator is emitted after its argument's statements. */
  lemma TypeOpUnitNames(n: Node, o: ExprOut, c: nat)
    requires n.TypeOp? && n.unitTyped && ExprOk(o, c) && o.result.Changed()
    requires VisitNames(o.result, n.arg) <= GenNames(n.arg) + Range(c, o.next)
    ensures FreshVar(o.result, 0, o.next)
    ensures var r := StmtTypeOp(n, o);
      VisitNames(r.result, r.node) <= GenNames(n) + Range(c, r.next)
  {
    var x := ValueOf(o.result, n.arg);
    var op := TypeOp(n.op, n.unitTyped, x);
    TypeOpShape(n, o);
    AppendOneNames(o.result.stmts, op);
    TypeOpNames(n, x);
    ValueNames(o.result, n.arg);
  }

  /** Any other operator is captured in a new temporary. */
  lemma TypeOpCapturedNames(n: Node, o: ExprOut, c: nat)
    requires n.TypeOp? && !n.unitTyped && ExprOk(o, c) && o.result.Changed()
    requires VisitNames(o.result, n.arg) <= GenNames(n.arg) + Range(c, o.next)
    ensures FreshVar(o.result, 0, o.next)
    ensures var r := StmtTypeOp(n, o);
      VisitNames(r.result, r.node) <= GenNames(n) + Range(c, r.next)
  {
    var x := ValueOf(o.result, n.arg);
    var op := TypeOp(n.op, n.unitTyped, x);
    TypeOpShape(n, o);
    TypeOpNames(n, x);
    ValueNames(o.result, n.arg);
    TypeOpCaptureList(o.result.stmts, o.next, op, VisitNames(o.result, n.arg), GenNames(n.arg), c);
  }

  lemma TypeOpCaptureList(pre: seq<Node>, m: nat, op: Node, visited: multiset<nat>, x: multiset<nat>, c: nat)
    requires c <= m && GenNamesList(pre) + GenNames(op) == visited && visited <= x + Range(c, m)
    ensures GenNamesList(pre + [VarDecl(Temp(m), Some(op))]) <= x + Range(c, m + 1)
  {
    CaptureOutNames(pre, m, op);
    TypeOpCaptureBound(GenNamesList(pre), GenNames(op), visited, x, c, m);
  }

  lemma TypeOpShape(n: Node, o: ExprOut)
    requires n.TypeOp? && FreshVar(o.result, 0, o.next) && o.result.Changed()
    ensures var op := TypeOp(n.op, n.unitTyped, ValueOf(o.result, n.arg));
      && (n.unitTyped ==> StmtTypeOp(n, o) == StmtOut(Decomposed(o.result.stmts + [op], None), n, o.next))
      && (!n.unitTyped ==> StmtTypeOp(n, o) == StmtOut(Decomposed(o.result.stmts + [VarDecl(Temp(o.next), Some(op))], Some(Temp(o.next))), n, o.next + 1))
  {
  }

  lemma TypeOpNames(n: Node, x: Node)
    requires n.TypeOp?
    ensures GenNames(TypeOp(n.op, n.unitTyped, x)) == GenNames(x)
    ensures GenNames(n) == GenNames(n.arg)
  {
  }

  lemma TypeOpCaptureBound(pre: multiset<nat>, op: multiset<nat>, visited: multiset<nat>, x: multiset<nat>, c: nat, m: nat)
    requires c <= m && pre + op == visited && visited <= x + Range(c, m)
    ensures pre + (multiset{m} + op) <= x + Range(c, m + 1)
  {
    LastBound(visited, x, c, m);
    forall k ensures (pre + (multiset{m} + op))[k] <= (x + Range(c, m + 1))[k] {
      assert (pre + op)[k] == visited[k];
    }
  }

  /** `visitWhen` of the statement visitor. */
  lemma WhenStmtStep(n: Node, c: nat)
    requires n.When?
    requires BranchesBound(n.branches[0..], c, VisitBranches(n, 0, StatementContext, c))
    ensures StmtBound(n, c, StmtVisit(n, c))
  {
    var r := VisitBranches(n, 0, StatementContext, c);
    if r.Ok? {
      var bs := n.branches;
      var vs := r.value.visits;
      assert n.branches[0..] == bs;
      WellFormedVisits(bs, StatementContext, r.value, c);
      WhenNames(bs);
      if !AnyChanged(vs) {
        InPlaceNames(bs, vs);
        WhenNames(InPlaceBranches(bs, vs));
      } else {
        AssembleWhenNames(StatementContext, bs, vs);
        GenNamesListSingle(AssembleWhen(StatementContext, bs, vs));
      }
      WhenStmtShape(n, c);
    }
  }

  lemma WhenStmtShape(n: Node, c: nat)
    requires n.When? && VisitBranches(n, 0, StatementContext, c).Ok?
    ensures var vb := VisitBranches(n, 0, StatementContext, c).value;
      |vb.visits| == |n.branches| && VisitsWellFormed(StatementContext, vb.visits) &&
      StmtVisit(n, c) == Ok(StmtWhen(n.branches, vb))
  {
    var vb := VisitBranches(n, 0, StatementContext, c).value;
    assert n.branches[0..] == n.branches;
    WellFormedVisits(n.branches, StatementContext, vb, c);
  }

  /** Anything else in statement position is visited as an expression. */
  lemma OtherStmtStep(n: Node, c: nat)
    requires !(n.Container? || n.Return? || n.Throw? || n.VarDecl? || n.FieldDecl? || n.SetVariable?
               || n.SetField? || n.TypeOp? || n.When? || n.Jump? || n.Loop?)
    requires ExprBound(n, c, ExprVisit(n, c))
    ensures StmtBound(n, c, StmtVisit(n, c))
  {
  }

  lemma StmtOptStep(o: Option<Node>, c: nat)
    requires o.Some?
    requires StmtBound(o.value, c, StmtVisit(o.value, c))
    ensures StmtOptBound(o, c, StmtOpt(o, c))
  {
  }

  // ---------------------------------------------------------------------------
  // Loops.

  /** `visitWhileLoop`: the condition, then the body. */
  lemma WhileStmtStep(n: Node, c: nat)
    requires n.Loop? && n.loopKind == WhileLoop
    requires ExprBound(n.cond, c, ExprVisit(n.cond, c))
    requires ExprVisit(n.cond, c).Ok? ==>
      var k := ExprVisit(n.cond, c).value.next;
      StmtOptBound(n.body, k, StmtOpt(n.body, k))
    ensures StmtBound(n, c, StmtVisit(n, c))
  {
    var cr := ExprVisit(n.cond, c);
    if cr.Ok? {
      var br := StmtOpt(n.body, cr.value.next);
      if br.Ok? {
        LoopStepNames(n, cr.value, br.value, c);
        WhileStmtShape(n, c);
      }
    }
  }

  lemma WhileStmtShape(n: Node, c: nat)
    requires n.Loop? && n.loopKind == WhileLoop
    requires ExprVisit(n.cond, c).Ok? && StmtOpt(n.body, ExprVisit(n.cond, c).value.next).Ok?
    ensures var co := ExprVisit(n.cond, c).value;
      FreshVar(co.result, 0, co.next) &&
      StmtVisit(n, c) == WhileStep(n, co, StmtOpt(n.body, co.next).value)
  {
  }

  /** `visitDoWhileLoop`: the body, then the condition. */
  lemma DoWhileStmtStep(n: Node, c: nat)
    requires n.Loop? && n.loopKind == DoWhileLoop
    requires StmtOptBound(n.body, c, StmtOpt(n.body, c))
    requires StmtOpt(n.body, c).Ok? ==>
      var k := StmtOpt(n.body, c).value.next;
      ExprBound(n.cond, k, ExprVisit(n.cond, k))
    ensures StmtBound(n, c, StmtVisit(n, c))
  {
    var br := StmtOpt(n.body, c);
    if br.Ok? {
      var cr := ExprVisit(n.cond, br.value.next);
      if cr.Ok? {
        DoWhileStepNames(n, br.value, cr.value, c);
        DoWhileStmtShape(n, c);
      }
    }
  }

  lemma DoWhileStmtShape(n: Node, c: nat)
    requires n.Loop? && n.loopKind == DoWhileLoop
    requires StmtOpt(n.body, c).Ok? && ExprVisit(n.cond, StmtOpt(n.body, c).value.next).Ok?
    ensures var bo := StmtOpt(n.body, c).value;
      var co := ExprVisit(n.cond, bo.next).value;
      FreshVar(co.result, 0, co.next) &&
      StmtVisit(n, c) == DoWhileStep(n, bo, co)
  {
  }

  /** The `while` step, with the condition visited over `[c, co.next)` and the
      body over `[co.next, bo.next)`. */
  lemma LoopStepNames(n: Node, co: ExprOut, bo: OptOut, c: nat)
    requires n.Loop? && n.loopKind == WhileLoop
    requires ExprOk(co, c) && co.next <= bo.next && bo.node.Some? == n.body.Some?
    requires VisitNames(co.result, n.cond) <= GenNames(n.cond) + Range(c, co.next)
    requires OptVisitNames(bo.result, bo.node) <= GenNamesOpt(n.body) + Range(co.next, bo.next)
    ensures FreshVar(co.result, 0, co.next)
    ensures WhileStep(n, co, bo).Ok? ==>
      var r := WhileStep(n, co, bo).value;
      VisitNames(r.result, r.node) <= GenNames(n) + Range(c, r.next)
  {
    if bo.result.Kept? && (co.result.Kept? || bo.node.Some?) {
      Combine(VisitNames(co.result, n.cond), GenNames(n.cond), OptVisitNames(bo.result, bo.node), GenNamesOpt(n.body), c, co.next, bo.next);
      if co.result.Kept? {
        WhileKeptNames(n, co, bo, c);
      } else {
        WhileRewrittenNames(n, co, bo, c);
      }
    }
  }

  lemma WhileKeptNames(n: Node, co: ExprOut, bo: OptOut, c: nat)
    requires n.Loop? && co.result.Kept? && bo.result.Kept?
    requires VisitNames(co.result, n.cond) + OptVisitNames(bo.result, bo.node) <= GenNames(n.cond) + GenNamesOpt(n.body) + Range(c, bo.next)
    ensures FreshVar(co.result, 0, co.next)
    ensures WhileStep(n, co, bo).Ok? ==>
      var r := WhileStep(n, co, bo).value;
      VisitNames(r.result, r.node) <= GenNames(n) + Range(c, r.next)
  {
    KeptLoopBound(n, bo.node, Range(c, bo.next));
  }

  lemma WhileRewrittenNames(n: Node, co: ExprOut, bo: OptOut, c: nat)
    requires n.Loop? && co.result.Changed() && bo.result.Kept? && bo.node.Some? && n.body.Some?
    requires FreshVar(co.result, 0, co.next)
    requires VisitNames(co.result, n.cond) + OptVisitNames(bo.result, bo.node) <= GenNames(n.cond) + GenNamesOpt(n.body) + Range(c, bo.next)
    ensures WhileStep(n, co, bo).Ok? ==>
      var r := WhileStep(n, co, bo).value;
      VisitNames(r.result, r.node) <= GenNames(n) + Range(c, r.next)
  {
    var cv := co.result.resultVar.value;
    var body := bo.node.value;
    WhileRewriteStepShape(n, co, bo);
    RewriteWhileNames(n.id, n.loopLabel, co.result.stmts, cv, body);
    LoopOptNames(n.loopKind, n.id, n.loopLabel, n.cond, n.body);
    RewriteBound(LabelNames(n.loopLabel), GenNamesList(co.result.stmts), GenNames(body), GenNames(n.cond), GenNamesOpt(n.body), Range(c, bo.next));
  }

  lemma WhileRewriteStepShape(n: Node, co: ExprOut, bo: OptOut)
    requires n.Loop? && co.result.Changed() && bo.result.Kept? && bo.node.Some?
    requires FreshVar(co.result, 0, co.next)
    ensures WhileStep(n, co, bo) == Ok(StmtOut(Decomposed(RewriteWhile(n.id, n.loopLabel, co.result.stmts, co.result.resultVar.value, bo.node.value), None), n, bo.next))
    ensures VisitNames(co.result, n.cond) == GenNamesList(co.result.stmts)
    ensures OptVisitNames(bo.result, bo.node) == GenNames(bo.node.value)
  {
  }

  /** A loop kept with its body lowered in place. */
  lemma KeptLoopBound(n: Node, body: Option<Node>, r: multiset<nat>)
    requires n.Loop?
    requires GenNames(n.cond) + GenNamesOpt(body) <= GenNames(n.cond) + GenNamesOpt(n.body) + r
    ensures GenNames(Loop(n.loopKind, n.id, n.loopLabel, n.cond, body)) <= GenNames(n) + r
  {
    LoopOptNames(n.loopKind, n.id, n.loopLabel, n.cond, body);
    LoopOptNames(n.loopKind, n.id, n.loopLabel, n.cond, n.body);
    AddFixed(LabelNames(n.loopLabel), GenNames(n.cond) + GenNamesOpt(body), GenNames(n.cond) + GenNamesOpt(n.body), r);
  }

  lemma LoopOptNames(kind: LoopKind, id: LoopId, lab: Option<Label>, cond: Node, body: Option<Node>)
    ensures GenNames(Loop(kind, id, lab, cond, body)) == LabelNames(lab) + (GenNames(cond) + GenNamesOpt(body))
  {
    SumAssoc(LabelNames(lab), GenNames(cond), GenNamesOpt(body));
  }

  /** A rewritten loop: its label, the condition's statements and the body. */
  lemma RewriteBound(own: multiset<nat>, condStmts: multiset<nat>, body: multiset<nat>, cond: multiset<nat>, origBody: multiset<nat>, r: multiset<nat>)
    requires condStmts + body <= cond + origBody + r
    ensures own + condStmts + body <= own + (cond + origBody) + r
  {
    forall k ensures (own + condStmts + body)[k] <= (own + (cond + origBody) + r)[k] {
      assert (condStmts + body)[k] <= (cond + origBody + r)[k];
    }
  }

  /** The `do-while` step, with the body visited over `[c, bo.next)`, the
      condition over `[bo.next, co.next)` and the labels after that. */
  lemma DoWhileStepNames(n: Node, bo: OptOut, co: ExprOut, c: nat)
    requires n.Loop? && n.loopKind == DoWhileLoop
    requires c <= bo.next && ExprOk(co, bo.next) && bo.node.Some? == n.body.Some?
    requires OptVisitNames(bo.result, bo.node) <= GenNamesOpt(n.body) + Range(c, bo.next)
    requires VisitNames(co.result, n.cond) <= GenNames(n.cond) + Range(bo.next, co.next)
    ensures FreshVar(co.result, 0, co.next)
    ensures DoWhileStep(n, bo, co).Ok? ==>
      var r := DoWhileStep(n, bo, co).value;
      VisitNames(r.result, r.node) <= GenNames(n) + Range(c, r.next)
  {
    if bo.result.Kept? && (co.result.Kept? || bo.node.Some?) {
      Combine(OptVisitNames(bo.result, bo.node), GenNamesOpt(n.body), VisitNames(co.result, n.cond), GenNames(n.cond), c, bo.next, co.next);
      if co.result.Kept? {
        DoWhileKeptNames(n, bo, co, c);
      } else {
        DoWhileRewrittenNames(n, bo, co, c);
      }
    }
  }

  lemma DoWhileKeptNames(n: Node, bo: OptOut, co: ExprOut, c: nat)
    requires n.Loop? && co.result.Kept? && bo.result.Kept?
    requires OptVisitNames(bo.result, bo.node) + VisitNames(co.result, n.cond) <= GenNamesOpt(n.body) + GenNames(n.cond) + Range(c, co.next)
    ensures FreshVar(co.result, 0, co.next)
    ensures DoWhileStep(n, bo, co).Ok? ==>
      var r := DoWhileStep(n, bo, co).value;
      VisitNames(r.result, r.node) <= GenNames(n) + Range(c, r.next)
  {
    SwapSum(GenNamesOpt(bo.node), GenNames(n.cond), GenNamesOpt(n.body), Range(c, co.next));
    KeptLoopBound(n, bo.node, Range(c, co.next));
  }

  lemma DoWhileRewrittenNames(n: Node, bo: OptOut, co: ExprOut, c: nat)
    requires n.Loop? && co.result.Changed() && bo.result.Kept? && bo.node.Some? && n.body.Some?
    requires FreshVar(co.result, 0, co.next) && c <= co.next
    requires OptVisitNames(bo.result, bo.node) + VisitNames(co.result, n.cond) <= GenNamesOpt(n.body) + GenNames(n.cond) + Range(c, co.next)
    ensures DoWhileStep(n, bo, co).Ok? ==>
      var r := DoWhileStep(n, bo, co).value;
      VisitNames(r.result, r.node) <= GenNames(n) + Range(c, r.next)
  {
    var cv := co.result.resultVar.value;
    var body := bo.node.value;
    var w := RewriteDoWhile(n.id, n.loopLabel, co.result.stmts, cv, body, co.next);
    DoWhileRewriteStepShape(n, bo, co);
    RewriteDoWhileNames(n.id, n.loopLabel, co.result.stmts, cv, body, co.next);
    LoopOptNames(n.loopKind, n.id, n.loopLabel, n.cond, n.body);
    RangeSplit(c, co.next, w.next);
    DoWhileBound(LabelNames(n.loopLabel), GenNamesList(co.result.stmts), GenNames(body), GenNames(n.cond),
                 GenNamesOpt(n.body), Range(c, co.next), Range(co.next, w.next), Range(c, w.next));
  }

  lemma DoWhileRewriteStepShape(n: Node, bo: OptOut, co: ExprOut)
    requires n.Loop? && co.result.Changed() && bo.result.Kept? && bo.node.Some?
    requires FreshVar(co.result, 0, co.next)
    ensures var w := RewriteDoWhile(n.id, n.loopLabel, co.result.stmts, co.result.resultVar.value, bo.node.value, co.next);
      && co.next <= w.next
      && DoWhileStep(n, bo, co) == Ok(StmtOut(Decomposed(w.stmts, None), n, w.next))
    ensures VisitNames(co.result, n.cond) == GenNamesList(co.result.stmts)
    ensures OptVisitNames(bo.result, bo.node) == GenNames(bo.node.value)
  {
  }

  lemma SwapSum(b: multiset<nat>, x: multiset<nat>, ob: multiset<nat>, r: multiset<nat>)
    requires b + x <= ob + x + r
    ensures x + b <= x + ob + r
  {
    forall k ensures (x + b)[k] <= (x + ob + r)[k] {
      assert (b + x)[k] <= (ob + x + r)[k];
    }
  }

  lemma DoWhileBound(own: multiset<nat>, condStmts: multiset<nat>, body: multiset<nat>, cond: multiset<nat>, origBody: multiset<nat>,
                     r1: multiset<nat>, r2: multiset<nat>, r: multiset<nat>)
    requires body + condStmts <= origBody + cond + r1 && r1 + r2 == r
    ensures own + condStmts + body + r2 <= own + (cond + origBody) + r
  {
    forall k ensures (own + condStmts + body + r2)[k] <= (own + (cond + origBody) + r)[k] {
      assert (body + condStmts)[k] <= (origBody + cond + r1)[k];
      assert (r1 + r2)[k] == r[k];
    }
  }
}

=== FILE: names.dfy ===
/** Rendering of the names the block decomposer generates: temporaries are
    called `tmp$dcms$N` and loop labels `$l$N`, where N is the value of the
    per-function counter at the moment of allocation. */
module Names {

  function Digit(d: nat): (c: char)
    requires d < 10
    ensures '0' <= c <= '9'
  {
    "0123456789"[d]
  }

  /** Decimal rendering of a counter value, as Kotlin's string template prints an Int. */
  function Decimal(n: nat): (s: string)
    ensures 1 <= |s|
    ensures n < 10 <==> |s| == 1
    ensures s[|s| - 1] == Digit(n % 10)
  {
    if n < 10 then [Digit(n)] else Decimal(n / 10) + [Digit(n % 10)]
  }

  lemma DigitInjective(a: nat, b: nat)
    requires a < 10 && b < 10
    ensures Digit(a) == Digit(b) ==> a == b
  {
  }

  /** Different counter values render differently. */
  lemma {:induction false} DecimalInjective(a: nat, b: nat)
    ensures Decimal(a) == Decimal(b) ==> a == b
    decreases a
  {
    if Decimal(a) == Decimal(b) {
      DigitInjective(a % 10, b % 10);
      if a >= 10 && b >= 10 {
        var da, db := Decimal(a / 10), Decimal(b / 10);
        assert Decimal(a) == da + [Digit(a % 10)];
        assert Decimal(b) == db + [Digit(b % 10)];
        assert da == Decimal(a)[..|Decimal(a)| - 1];
        assert db == Decimal(b)[..|Decimal(b)| - 1];
        DecimalInjective(a / 10, b / 10);
      }
    }
  }

  const TempPrefix: string := "tmp$dcms$"
  const LabelPrefix: string := "$l$"

  /** The name `makeTempVar` gives the temporary allocated at counter value `n`. */
  function TempName(n: nat): string
  {
    TempPrefix + Decimal(n)
  }

  /** The label `makeLoopLabel` returns at counter value `n`. */
  function LabelName(n: nat): string
  {
    LabelPrefix + Decimal(n)
  }

  /** Temporaries allocated at different counter values have different names. */
  lemma TempNameInjective(a: nat, b: nat)
    ensures TempName(a) == TempName(b) <==> a == b
  {
    if TempName(a) == TempName(b) {
      assert Decimal(a) == TempName(a)[|TempPrefix|..];
      assert Decimal(b) == TempName(b)[|TempPrefix|..];
      DecimalInjective(a, b);
    }
  }

  /** Labels allocated at different counter values differ. */
  lemma LabelNameInjective(a: nat, b: nat)
    ensures LabelName(a) == LabelName(b) <==> a == b
  {
    if LabelName(a) == LabelName(b) {
      assert Decimal(a) == LabelName(a)[|LabelPrefix|..];
      assert Decimal(b) == LabelName(b)[|LabelPrefix|..];
      DecimalInjective(a, b);
    }
  }

  /** A temporary name is never a loop label: the prefixes already differ. */
  lemma TempNameIsNotLabel(a: nat, b: nat)
    ensures TempName(a) != LabelName(b)
  {
    assert TempName(a)[0] == 't';
    assert LabelName(b)[0] == '$';
  }
}

=== FILE: operand_capture.dfy ===
/** The capture rule of calls and string concatenations: to keep the order in
    which operands are evaluated, every operand up to and including the last
    one that decomposed is stored in a fresh temporary before the call; the
    operands after it are left where they are. */
module OperandCapture {
  import opened Wrappers
  import opened Ir
  import opened VisitResults
  import opened BlockDecomposer

  /** Index of the last changed outcome, or -1 when every outcome was kept. */
  function LastChanged(rs: seq<Visit>): (r: int)
    ensures -1 <= r < |rs|
    ensures r >= 0 ==> rs[r].Changed()
    ensures forall j :: r < j < |rs| ==> rs[j].Kept?
  {
    if |rs| == 0 then -1
    else if rs[|rs| - 1].Changed() then |rs| - 1
    else LastChanged(rs[..|rs| - 1])
  }

  /** Seen from the front: the last changed index of `rs` is that of `rs[1..]`
      shifted by one, or the head's when the tail kept everything. */
  lemma LastChangedTail(rs: seq<Visit>)
    requires |rs| > 0
    ensures LastChanged(rs[1..]) >= 0 ==> LastChanged(rs) == LastChanged(rs[1..]) + 1
    ensures LastChanged(rs[1..]) < 0 ==> LastChanged(rs) == (if rs[0].Changed() then 0 else -1)
  {
    var l, t := LastChanged(rs), LastChanged(rs[1..]);
    assert forall j :: 1 <= j < |rs| ==> rs[j] == rs[1..][j - 1];
    if t >= 0 {
      assert rs[t + 1].Changed();
    } else if rs[0].Changed() {
      assert l >= 0;
    }
  }

  /** Some outcome changed exactly when there is a last changed index. */
  lemma LastChangedCount(rs: seq<Visit>)
    ensures ChangedCount(rs) > 0 <==> LastChanged(rs) >= 0
  {
    ChangedCountZero(rs);
  }

  /** The operand is a read of a temporary made in `[lo, hi)`. */
  ghost predicate TempRead(o: Option<Node>, lo: nat, hi: nat) {
    o.Some? && o.value.GetValue? && o.value.sym.Temp? && lo <= o.value.sym.index < hi
  }

  /** `mapArguments` captures exactly the present operands at or before the
      last changed one, each into a temporary made during the call; it leaves
      later operands and absent slots alone. */
  lemma {:induction false} CaptureRule(ops: seq<Option<Node>>, rs: seq<Visit>, toDecompose: nat, decomposed: nat, c: nat)
    requires Produced(ops, rs)
    requires toDecompose == decomposed + ChangedCount(rs)
    ensures var m := MapArguments(ops, rs, toDecompose, decomposed, c);
      forall j :: 0 <= j < |ops| ==>
        && (ops[j].None? ==> m.operands[j].None?)
        && (ops[j].Some? && j <= LastChanged(rs) ==> TempRead(m.operands[j], c, m.next))
        && (ops[j].Some? && j > LastChanged(rs) ==> m.operands[j] == ops[j])
    decreases |ops|
  {
    if |ops| > 0 {
      var m := MapArguments(ops, rs, toDecompose, decomposed, c);
      var passed := if rs[0].Changed() then decomposed + 1 else decomposed;
      var lo := if ops[0].Some? && decomposed < toDecompose then c + 1 else c;
      var t := MapArguments(ops[1..], rs[1..], toDecompose, passed, lo);
      ProducedTail(ops, rs);
      CaptureRule(ops[1..], rs[1..], toDecompose, passed, lo);
      LastChangedTail(rs);
      LastChangedCount(rs);
      MapArgumentsStep(ops, rs, toDecompose, decomposed, c);
      forall j | 1 <= j < |ops|
        ensures m.operands[j] == t.operands[j - 1] && ops[j] == ops[1..][j - 1]
      {
      }
    }
  }

  /** `Produced` holds of the tails. */
  lemma ProducedTail(ops: seq<Option<Node>>, rs: seq<Visit>)
    requires Produced(ops, rs) && |ops| > 0
    ensures Produced(ops[1..], rs[1..])
  {
    forall j | 0 <= j < |rs[1..]|
      ensures rs[1..][j].Changed() ==> ops[1..][j].Some? && rs[1..][j].resultVar.Some?
    {
      assert rs[1..][j] == rs[j + 1] && ops[1..][j] == ops[j + 1];
    }
  }

  /** Captured operands read temporaries numbered in operand order, so no two
      captures share a temporary. */
  lemma {:induction false} CaptureOrder(ops: seq<Option<Node>>, rs: seq<Visit>, toDecompose: nat, decomposed: nat, c: nat)
    requires Produced(ops, rs)
    requires toDecompose == decomposed + ChangedCount(rs)
    ensures var m := MapArguments(ops, rs, toDecompose, decomposed, c);
      forall j, k :: 0 <= j < k <= LastChanged(rs) && TempRead(m.operands[j], c, m.next) && TempRead(m.operands[k], c, m.next) ==>
        m.operands[j].value.sym.index < m.operands[k].value.sym.index
    decreases |ops|
  {
    if |ops| > 0 {
      var m := MapArguments(ops, rs, toDecompose, decomposed, c);
      var passed := if rs[0].Changed() then decomposed + 1 else decomposed;
      var wrapped := ops[0].Some? && decomposed < toDecompose;
      var lo := if wrapped then c + 1 else c;
      var t := MapArguments(ops[1..], rs[1..], toDecompose, passed, lo);
      ProducedTail(ops, rs);
      CaptureRule(ops[1..], rs[1..], toDecompose, passed, lo);
      CaptureOrder(ops[1..], rs[1..], toDecompose, passed, lo);
      LastChangedTail(rs);
      LastChangedCount(rs);
      MapArgumentsStep(ops, rs, toDecompose, decomposed, c);
      var last := LastChanged(rs);
      forall j, k | 0 <= j < k <= last && TempRead(m.operands[j], c, m.next) && TempRead(m.operands[k], c, m.next)
        ensures m.operands[j].value.sym.index < m.operands[k].value.sym.index
      {
        assert m.operands[k] == t.operands[k - 1];
        if j > 0 {
          assert m.operands[j] == t.operands[j - 1];
        }
      }
    }
  }

  /** One step of `mapArguments`: the head operand, then the rest from the counter it leaves. */
  lemma MapArgumentsStep(ops: seq<Option<Node>>, rs: seq<Visit>, toDecompose: nat, decomposed: nat, c: nat)
    requires Produced(ops, rs) && |ops| > 0
    ensures var m := MapArguments(ops, rs, toDecompose, decomposed, c);
      var passed := if rs[0].Changed() then decomposed + 1 else decomposed;
      var wrapped := ops[0].Some? && decomposed < toDecompose;
      var t := MapArguments(ops[1..], rs[1..], toDecompose, passed, if wrapped then c + 1 else c);
      && m.next == t.next
      && (forall j :: 1 <= j < |ops| ==> m.operands[j] == t.operands[j - 1])
      && (wrapped ==> m.operands[0] == Some(GetValue(Temp(c))))
      && (ops[0].None? ==> m.operands[0].None?)
      && (!wrapped && rs[0].Kept? ==> m.operands[0] == ops[0])
  {
  }

  /** What `mapArguments` should emit, decided by position instead of by the
      countdown it keeps.  Walking from the first operand, `last` is the index
      of the last changed operand counted from the current one (negative when
      none is left).  Each operand contributes its own statements; a present
      operand at or before the last changed one is then stored in the next
      temporary, counting up from `k`, and that temporary is read in its
      place.  Absent slots and later operands stay as they are. */
  function CaptureReference(ops: seq<Option<Node>>, rs: seq<Visit>, last: int, k: nat): (r: Mapped)
    requires Produced(ops, rs)
    decreases |ops|
  {
    if |ops| == 0 then Mapped([], [], k)
    else
      var captured := ops[0].Some? && 0 <= last;
      var decl := if captured then [VarDecl(Temp(k), Some(ValueOf(rs[0], ops[0].value)))] else [];
      var operand := if captured then Some(GetValue(Temp(k))) else ops[0];
      var t := CaptureReference(ops[1..], rs[1..], last - 1, if captured then k + 1 else k);
      Mapped(Prelude(rs[0]) + decl + t.stmts, [operand] + t.operands, t.next)
  }

  /** The countdown of `mapArguments` captures the same operands as the
      reference: while some changed operand is still ahead, there are changed
      operands left to pass, and conversely.  So the statements are every
      operand's own statements in operand order, each captured operand's
      declaration right after its own statements, and the temporaries are
      numbered in operand order. */
  lemma {:induction false} MapArgumentsReference(ops: seq<Option<Node>>, rs: seq<Visit>, toDecompose: nat, decomposed: nat, c: nat, last: int)
    requires Produced(ops, rs)
    requires toDecompose == decomposed + ChangedCount(rs)
    requires last >= 0 ==> last == LastChanged(rs)
    requires last < 0 ==> LastChanged(rs) < 0
    ensures MapArguments(ops, rs, toDecompose, decomposed, c) == CaptureReference(ops, rs, last, c)
    decreases |ops|
  {
    if |ops| > 0 {
      var passed := if rs[0].Changed() then decomposed + 1 else decomposed;
      var captured := ops[0].Some? && 0 <= last;
      ProducedTail(ops, rs);
      LastChangedTail(rs);
      LastChangedCount(rs);
      assert captured == (ops[0].Some? && decomposed < toDecompose);
      MapArgumentsReference(ops[1..], rs[1..], toDecompose, passed, if captured then c + 1 else c, last - 1);
    }
  }

  /** The reference for the call the source makes. */
  lemma CaptureFromStartReference(ops: seq<Option<Node>>, rs: seq<Visit>, c: nat)
    requires Produced(ops, rs)
    ensures MapArguments(ops, rs, ChangedCount(rs), 0, c) == CaptureReference(ops, rs, LastChanged(rs), c)
  {
    MapArgumentsReference(ops, rs, ChangedCount(rs), 0, c, LastChanged(rs));
  }

  /** The same rule for the call the source makes: nothing passed yet, and the
      number to decompose is the number of changed operands. */
  lemma CaptureFromStart(ops: seq<Option<Node>>, rs: seq<Visit>, c: nat)
    requires Produced(ops, rs)
    ensures var m := MapArguments(ops, rs, ChangedCount(rs), 0, c);
      forall j :: 0 <= j < |ops| ==>
        && (ops[j].None? ==> m.operands[j].None?)
        && (ops[j].Some? && j <= LastChanged(rs) ==> TempRead(m.operands[j], c, m.next))
        && (ops[j].Some? && j > LastChanged(rs) ==> m.operands[j] == ops[j])
  {
    CaptureRule(ops, rs, ChangedCount(rs), 0, c);
  }
}

=== FILE: simple_trees.dfy ===
/** Trees without any block, `when`, exit or loop are what the decomposer
    exists to produce; on them the pass does nothing: every visit is `KEPT`,
    nothing is rewritten and no counter value is consumed. */
module SimpleTrees {
  import opened Wrappers
  import opened Ir
  import opened VisitResults
  import opened BlockDecomposer

  lemma {:induction false} SimpleExprKept(n: Node, c: nat)
    requires Simple(n)
    ensures ExprVisit(n, c) == Ok(ExprOut(Kept, c))
    decreases n, 1
  {
    if n.Call? || n.Concat? {
      SimpleOperandsKept(n, 0, c);
      ChangedCountZero(VisitOperands(n, 0, c).value.results);
    }
  }

  lemma {:induction false} SimpleOperandsKept(n: Node, i: nat, c: nat)
    requires n.Call? || n.Concat?
    requires Simple(n) && i <= |OperandsOf(n)|
    ensures VisitOperands(n, i, c).Ok?
    ensures VisitOperands(n, i, c).value.next == c
    ensures forall j :: 0 <= j < |VisitOperands(n, i, c).value.results| ==> VisitOperands(n, i, c).value.results[j].Kept?
    decreases n, 0, |OperandsOf(n)| - i
  {
    if i < |OperandsOf(n)| {
      var o := OperandsOf(n)[i];
      OperandChild(n, i, c);
      if o.Some? {
        SimpleExprKept(o.value, c);
      }
      SimpleOperandsKept(n, i + 1, c);
      var t := VisitOperands(n, i + 1, c).value;
      assert VisitOperands(n, i, c) == Ok(OperandsOut([Kept] + t.results, c));
    }
  }

  /** Operand `i` of a call or concatenation: a child of it, simple when the
      node is, and visited by `ExprOpt`. */
  lemma OperandChild(n: Node, i: nat, c: nat)
    requires n.Call? || n.Concat?
    requires i < |OperandsOf(n)|
    ensures OperandsOf(n)[i].Some? ==> OperandsOf(n)[i].value < n
    ensures Simple(n) ==> SimpleOpt(OperandsOf(n)[i])
    ensures VisitOperand(n, i, c) == ExprOpt(OperandsOf(n)[i], c)
  {
    var ops := OperandsOf(n);
    if n.Call? {
      if i == 0 { assert ops[i] == n.dispatch; }
      else if i == 1 { assert ops[i] == n.extension; }
      else {
        assert ops[i] == n.args[i - 2];
        if Simple(n) {
          assert SimpleOpts(n.args) && SimpleOpt(n.args[i - 2]);
        }
      }
    } else {
      assert ops[i] == Some(n.parts[i]);
      assert ExprOpt(ops[i], c) == ExprVisit(n.parts[i], c);
      if Simple(n) {
        assert SimpleList(n.parts) && Simple(n.parts[i]);
      }
    }
  }

  lemma {:induction false} SimpleStmtKept(n: Node, c: nat)
    requires Simple(n)
    ensures StmtVisit(n, c) == Ok(StmtOut(Kept, n, c))
  {
    match n
    case VarDecl(_, init) =>
      if init.Some? {
        SimpleExprKept(init.value, c);
      }
    case FieldDecl(_, init) =>
      if init.Some? {
        SimpleExprKept(init.value, c);
      }
    case SetVariable(_, v) => SimpleExprKept(v, c);
    case SetField(_, recv, v) =>
      if recv.Some? {
        SimpleExprKept(recv.value, c);
      }
      SimpleExprKept(v, c);
    case TypeOp(_, _, a) => SimpleExprKept(a, c);
    case _ => SimpleExprKept(n, c);
  }

  /** A statement list made only of simple statements comes back as it was. */
  lemma {:induction false} SimpleListUnchanged(s: seq<Node>, i: nat, hi: nat, c: nat)
    requires i <= hi <= |s| && SimpleList(s)
    ensures LowerRange(s, i, hi, c) == Ok(ListOut(s[i..hi], c))
    decreases hi - i
  {
    if i < hi {
      assert Simple(s[i]);
      SimpleStmtKept(s[i], c);
      SimpleListUnchanged(s, i + 1, hi, c);
      assert Emitted(Kept, s[i]) == [s[i]];
      assert LowerRange(s, i, hi, c) == Ok(ListOut(Emitted(Kept, s[i]) + s[i + 1..hi], c));
      assert s[i..hi] == [s[i]] + s[i + 1..hi];
    } else {
      assert s[i..hi] == [];
    }
  }

  /** A function whose body holds only simple statements is left exactly as it was. */
  lemma SimpleFunctionUnchanged(f: IrFunction)
    requires f.body.Some? && f.body.value.BlockBody? ==> SimpleList(f.body.value.stmts)
    ensures Lower(f) == Ok(f)
  {
    if f.body.Some? && f.body.value.BlockBody? {
      var s := f.body.value.stmts;
      SimpleListUnchanged(s, 0, |s|, 0);
      assert s[0..|s|] == s;
    }
  }
}

=== FILE: visit_result.dfy ===
/** The three-way outcome of visiting one node (`VisitResult` and its
    subclasses `KeptResult`, `DecomposedResult`, `TerminatedResult`) and the
    three combinators every visit uses to look at a child's outcome. */
module VisitResults {
  import opened Wrappers
  import opened Ir

  /** `Kept`: the node stays as it is.  `Decomposed` / `Terminated`: the node is
      replaced by `stmts`; when its value is still needed, `resultVar` names the
      temporary holding it.  `Terminated` marks statements ending in a jump out. */
  datatype Visit =
    | Kept
    | Decomposed(stmts: seq<Node>, resultVar: Option<VarSym>)
    | Terminated(stmts: seq<Node>, resultVar: Option<VarSym>)
  {
    predicate Changed() {
      !Kept?
    }

    /** `process`: a kept result short-circuits and the action is never applied;
        a changed result is handed to the action and its answer is the result. */
    function Process(action: Visit -> Visit): (r: Visit)
      ensures Kept? ==> r == Kept
      ensures Changed() ==> r == action(this)
    {
      if Kept? then Kept else action(this)
    }

    /** `evaluate`: a kept result yields the default untouched; a changed result
        yields whatever the action computes from it and the default. */
    function Evaluate<T>(default: T, action: (Visit, T) -> T): (r: T)
      ensures Kept? ==> r == default
      ensures Changed() ==> r == action(this, default)
    {
      if Kept? then default else action(this, default)
    }

    /** `execute`: the result itself is returned unchanged; the effect (modelled
        as a step on an explicit state) happens only for a changed result. */
    function Execute<S>(state: S, effect: (Visit, S) -> S): (r: (Visit, S))
      ensures r.0 == this
      ensures Kept? ==> r.1 == state
      ensures Changed() ==> r.1 == effect(this, state)
    {
      (this, if Kept? then state else effect(this, state))
    }
  }

  /** The statements that take a visited node's place in a statement list: the
      node itself when kept, the emitted statements otherwise (`processStatement`
      together with `transformFlat`). */
  function Emitted(v: Visit, node: Node): seq<Node> {
    v.Evaluate([node], (w: Visit, d: seq<Node>) => if w.Kept? then d else w.stmts)
  }

  /** Number of changed outcomes, counted directly. */
  function ChangedCount(rs: seq<Visit>): nat {
    if |rs| == 0 then 0 else (if rs[0].Changed() then 1 else 0) + ChangedCount(rs[1..])
  }

  /** The counter the source keeps with `execute { counter++ }` over a list of outcomes. */
  function CountByExecute(rs: seq<Visit>, counter: nat): nat {
    if |rs| == 0 then counter
    else CountByExecute(rs[1..], rs[0].Execute<nat>(counter, (w: Visit, k: nat) => k + 1).1)
  }

  lemma {:induction false} CountByExecuteCountsChanges(rs: seq<Visit>, counter: nat)
    ensures CountByExecute(rs, counter) == counter + ChangedCount(rs)
    decreases |rs|
  {
    if |rs| > 0 {
      CountByExecuteCountsChanges(rs[1..], rs[0].Execute<nat>(counter, (w: Visit, k: nat) => k + 1).1);
    }
  }

  lemma {:induction false} ChangedCountAppend(a: seq<Visit>, b: seq<Visit>)
    ensures ChangedCount(a + b) == ChangedCount(a) + ChangedCount(b)
    decreases |a|
  {
    if |a| == 0 {
      assert a + b == b;
    } else {
      assert (a + b)[1..] == a[1..] + b;
      ChangedCountAppend(a[1..], b);
    }
  }

  /** No outcome changed exactly when the count is zero. */
  lemma {:induction false} ChangedCountZero(rs: seq<Visit>)
    ensures ChangedCount(rs) == 0 <==> forall i :: 0 <= i < |rs| ==> rs[i].Kept?
    decreases |rs|
  {
    if |rs| > 0 {
      ChangedCountZero(rs[1..]);
      assert forall i :: 1 <= i < |rs| ==> rs[i] == rs[1..][i - 1];
    }
  }
}

=== FILE: when_chain.dfy ===
/** What `processWhen` builds.  When some condition of a `when` decomposed,
    the `when` becomes a chain of nested `if`s: the statements of branch
    `i + 1`'s condition are placed inside branch `i`'s else block, so they run
    only when every earlier condition failed.  Reading such a chain back
    recovers, branch by branch, the condition's statements, its value and the
    body, and shows that the branches after the first `else` are dropped.
    When only bodies changed, the `when` keeps its conditions and gets block
    bodies; in expression position every body ends by assigning the
    collective temporary. */
module WhenChain {
  import opened Wrappers
  import opened Ir
  import opened VisitResults
  import opened BlockDecomposer

  /** One link of a chain: the statements run before the test, the tested value, the body. */
  datatype Link = Link(prelude: seq<Node>, cond: Node, body: seq<Node>)

  /** A block holding `stmts`, or nothing when the node is not a plain block. */
  function BlockStmts(n: Node): Option<seq<Node>> {
    if n.Container? && n.kind == Block then Some(n.stmts) else None
  }

  /** Reads a statement list ending in `if (c) { body } else { <chain> }` back
      into its links; `None` when the list has another shape. */
  function ReadChain(s: seq<Node>): Option<seq<Link>>
    decreases s
  {
    if |s| == 0 then Some([])
    else
      var last := s[|s| - 1];
      if !last.When? || |last.branches| == 0 || |last.branches| > 2 then None
      else
        var b0 := last.branches[0];
        var body := BlockStmts(b0.result);
        if b0.isElse || body.None? then None
        else
          var link := Link(s[..|s| - 1], b0.cond, body.value);
          if |last.branches| == 1 then Some([link])
          else
            var b1 := last.branches[1];
            if !b1.isElse || b1.cond != TrueConst || BlockStmts(b1.result).None? then None
            else
              var rest := ReadChain(b1.result.stmts);
              if rest.None? then None else Some([link] + rest.value)
  }

  /** Position just past the first `else` branch at or after `i`, or the end. */
  function ChainEnd(bs: seq<Branch>, i: nat): (r: nat)
    requires i <= |bs|
    ensures i <= r <= |bs|
    ensures forall j :: i <= j < r - 1 ==> !bs[j].isElse
    ensures r < |bs| ==> i < r && bs[r - 1].isElse
    ensures r == |bs| && i < r ==> (forall j :: i <= j < |bs| - 1 ==> !bs[j].isElse)
    decreases |bs| - i
  {
    if i == |bs| then i else if bs[i].isElse then i + 1 else ChainEnd(bs, i + 1)
  }

  /** The link branch `j` contributes: its condition's statements, its value, its body. */
  function LinkOf(ctx: Context, bs: seq<Branch>, vs: seq<BranchVisit>, j: nat): Link
    requires |vs| == |bs| && j < |bs| && VisitsWellFormed(ctx, vs)
  {
    Link(Prelude(vs[j].cond), ValueOf(vs[j].cond, bs[j].cond), BodyBuilder(ctx, vs[j].body, vs[j].bodyNode))
  }

  /** The links of branches `i` up to the first `else`, in order. */
  function LinksFrom(ctx: Context, bs: seq<Branch>, vs: seq<BranchVisit>, i: nat): (r: seq<Link>)
    requires |vs| == |bs| && i <= |bs| && VisitsWellFormed(ctx, vs)
    ensures |r| == ChainEnd(bs, i) - i
  {
    seq(ChainEnd(bs, i) - i, k requires 0 <= k < ChainEnd(bs, i) - i => LinkOf(ctx, bs, vs, i + k))
  }

  /** Reading one `if` at the end of a statement list. */
  lemma ReadChainStep(pre: seq<Node>, cond: Node, body: seq<Node>, rest: Option<seq<Node>>)
    ensures var s := pre + [IfThenElse(cond, Container(Block, body), if rest.Some? then Some(Container(Block, rest.value)) else None)];
      && (rest.None? ==> ReadChain(s) == Some([Link(pre, cond, body)]))
      && (rest.Some? && ReadChain(rest.value).Some? ==> ReadChain(s) == Some([Link(pre, cond, body)] + ReadChain(rest.value).value))
  {
    var s := pre + [IfThenElse(cond, Container(Block, body), if rest.Some? then Some(Container(Block, rest.value)) else None)];
    assert s[..|s| - 1] == pre;
  }

  /** Reading the chain built from branch `i` on gives back exactly the links of
      branches `i` up to and including the first `else`, in order. */
  lemma {:induction false} ChainRoundTrip(ctx: Context, bs: seq<Branch>, vs: seq<BranchVisit>, i: nat)
    requires |vs| == |bs| && i <= |bs| && VisitsWellFormed(ctx, vs)
    ensures ReadChain(Chain(ctx, bs, vs, i)) == Some(LinksFrom(ctx, bs, vs, i))
    decreases |bs| - i
  {
    if i < |bs| {
      var l := LinkOf(ctx, bs, vs, i);
      var body := BodyBuilder(ctx, vs[i].body, vs[i].bodyNode);
      LinksFromStep(ctx, bs, vs, i);
      if bs[i].isElse {
        ReadChainStep(Prelude(vs[i].cond), l.cond, body, None);
      } else {
        ChainRoundTrip(ctx, bs, vs, i + 1);
        ReadChainStep(Prelude(vs[i].cond), l.cond, body, Some(Chain(ctx, bs, vs, i + 1)));
      }
    }
  }

  /** The links from branch `i` are branch `i`'s link, followed by the links
      from `i + 1` unless branch `i` is an `else`. */
  lemma LinksFromStep(ctx: Context, bs: seq<Branch>, vs: seq<BranchVisit>, i: nat)
    requires |vs| == |bs| && i < |bs| && VisitsWellFormed(ctx, vs)
    ensures bs[i].isElse ==> LinksFrom(ctx, bs, vs, i) == [LinkOf(ctx, bs, vs, i)]
    ensures !bs[i].isElse ==> LinksFrom(ctx, bs, vs, i) == [LinkOf(ctx, bs, vs, i)] + LinksFrom(ctx, bs, vs, i + 1)
  {
  }

  /** The branches of a `when` as the visitor of `ctx` left them. */
  function Visits(n: Node, ctx: Context, c: nat): Result<BranchesOut, Failure>
    requires n.When?
  {
    VisitBranches(n, 0, ctx, c)
  }

  /** A `when` in statement position is kept, with its bodies lowered in place,
      exactly when no condition and no body changed; otherwise it is replaced by
      one statement: an if/else chain in a block when a condition changed (whose
      links are the branches up to the first `else`), or else a `when` with the
      same branch kinds and conditions and block bodies. */
  lemma WhenStatement(n: Node, c: nat)
    requires n.When? && StmtVisit(n, c).Ok?
    ensures var vs := Visits(n, StatementContext, c).value.visits;
      var r := StmtVisit(n, c).value;
      && |vs| == |n.branches|
      && (r.result.Kept? <==> !AnyChanged(vs))
      && (r.result.Kept? ==>
            r.node.When? && |r.node.branches| == |n.branches|
            && forall j :: 0 <= j < |n.branches| ==> r.node.branches[j] == Branch(n.branches[j].isElse, n.branches[j].cond, vs[j].bodyNode))
      && (CondsChanged(vs) ==>
            r.result.Decomposed? && r.result.resultVar.None? && |r.result.stmts| == 1
            && BlockStmts(r.result.stmts[0]).Some?
            && ReadChain(BlockStmts(r.result.stmts[0]).value) == Some(LinksFrom(StatementContext, n.branches, vs, 0))
            && |LinksFrom(StatementContext, n.branches, vs, 0)| == ChainEnd(n.branches, 0))
      && (AnyChanged(vs) && !CondsChanged(vs) ==>
            r.result.Decomposed? && r.result.resultVar.None? && |r.result.stmts| == 1
            && r.result.stmts[0].When? && |r.result.stmts[0].branches| == |n.branches|
            && forall j :: 0 <= j < |n.branches| ==>
                 && r.result.stmts[0].branches[j].isElse == n.branches[j].isElse
                 && r.result.stmts[0].branches[j].cond == n.branches[j].cond
                 && r.result.stmts[0].branches[j].result == Container(Block, Emitted(vs[j].body, vs[j].bodyNode)))
  {
    var vb := Visits(n, StatementContext, c).value;
    assert n.branches[0..] == n.branches;
    assert VisitsWellFormed(StatementContext, vb.visits) by {
      forall j | 0 <= j < |vb.visits| ensures vb.visits[j].cond.Changed() ==> vb.visits[j].cond.resultVar.Some? {
        assert BranchOk(n.branches[j], StatementContext, vb.visits[j], c, vb.next);
      }
    }
    if CondsChanged(vb.visits) {
      ChainRoundTrip(StatementContext, n.branches, vb.visits, 0);
    }
  }

  /** A `when` in expression position always decomposes into the declaration of
      a collective temporary, made first, and one statement that fills it: an
      if/else chain in a block when a condition changed, a `when` with the
      original conditions otherwise.  Every body is a block holding the
      body's own statements followed by the assignment of its value to the
      collective temporary. */
  lemma WhenExpression(n: Node, c: nat)
    requires n.When? && ExprVisit(n, c).Ok?
    ensures var coll := Temp(c);
      var ctx := ExpressionContext(coll);
      var vs := Visits(n, ctx, c + 1).value.visits;
      var r := ExprVisit(n, c).value;
      && |vs| == |n.branches|
      && r.result.Decomposed? && r.result.resultVar == Some(coll)
      && |r.result.stmts| == 2 && r.result.stmts[0] == VarDecl(coll, None)
      && (CondsChanged(vs) ==>
            && BlockStmts(r.result.stmts[1]).Some?
            && ReadChain(BlockStmts(r.result.stmts[1]).value) == Some(LinksFrom(ctx, n.branches, vs, 0))
            && forall k :: 0 <= k < |LinksFrom(ctx, n.branches, vs, 0)| ==>
                 AssignsLast(LinksFrom(ctx, n.branches, vs, 0)[k].body, coll))
      && (!CondsChanged(vs) ==>
            && r.result.stmts[1].When? && |r.result.stmts[1].branches| == |n.branches|
            && forall j :: 0 <= j < |n.branches| ==>
                 var b := r.result.stmts[1].branches[j];
                 && b.isElse == n.branches[j].isElse && b.cond == n.branches[j].cond
                 && b.result == Container(Block, Prelude(vs[j].body) + [SetVariable(coll, ValueOf(vs[j].body, vs[j].bodyNode))]))
  {
    var coll := Temp(c);
    var ctx := ExpressionContext(coll);
    var vb := Visits(n, ctx, c + 1).value;
    assert n.branches[0..] == n.branches;
    assert VisitsWellFormed(ctx, vb.visits) by {
      forall j | 0 <= j < |vb.visits|
        ensures vb.visits[j].cond.Changed() ==> vb.visits[j].cond.resultVar.Some?
        ensures vb.visits[j].body.Changed() ==> vb.visits[j].body.resultVar.Some?
      {
        assert BranchOk(n.branches[j], ctx, vb.visits[j], c + 1, vb.next);
      }
    }
    assert ExprVisit(n, c).value.result == Decomposed([VarDecl(coll, None), AssembleWhen(ctx, n.branches, vb.visits)], Some(coll));
    AssembleInExpression(coll, n.branches, vb.visits);
  }

  /** The last statement assigns `coll`. */
  predicate AssignsLast(s: seq<Node>, coll: VarSym) {
    |s| > 0 && s[|s| - 1].SetVariable? && s[|s| - 1].sym == coll
  }

  /** The statement `processWhen` builds in expression position. */
  lemma AssembleInExpression(coll: VarSym, bs: seq<Branch>, vs: seq<BranchVisit>)
    requires |vs| == |bs| && VisitsWellFormed(ExpressionContext(coll), vs)
    ensures var ctx := ExpressionContext(coll);
      var w := AssembleWhen(ctx, bs, vs);
      && (CondsChanged(vs) ==>
            && BlockStmts(w).Some?
            && ReadChain(BlockStmts(w).value) == Some(LinksFrom(ctx, bs, vs, 0))
            && forall k :: 0 <= k < |LinksFrom(ctx, bs, vs, 0)| ==> AssignsLast(LinksFrom(ctx, bs, vs, 0)[k].body, coll))
      && (!CondsChanged(vs) ==>
            && w.When? && |w.branches| == |bs|
            && forall j :: 0 <= j < |bs| ==>
                 && w.branches[j].isElse == bs[j].isElse && w.branches[j].cond == bs[j].cond
                 && w.branches[j].result == Container(Block, Prelude(vs[j].body) + [SetVariable(coll, ValueOf(vs[j].body, vs[j].bodyNode))]))
  {
    var ctx := ExpressionContext(coll);
    if CondsChanged(vs) {
      ChainRoundTrip(ctx, bs, vs, 0);
    }
  }
}

=== FILE: wrappers.dfy ===
/** Failure-compatible Option and Result types shared by every module of the model. */
module Wrappers {

  datatype Option<+T> = None | Some(value: T)

  /** The outcome of an operation that can fail; `Err` stands for an exception
      (`error(...)`, `check(...)`, `TODO()`, a failed `!!` or cast) in the modelled code. */
  datatype Result<+T, +E> = Ok(value: T) | Err(error: E) {

    predicate IsFailure() {
      Err?
    }

    function PropagateFailure<U>(): Result<U, E>
      requires Err?
    {
      Err(error)
    }

    function Extract(): T
      requires Ok?
    {
      value
    }
  }
}
